=== FILE: README.md ===
# craft-parts lifecycle core, modelled in Dafny

This project models the core of craft-parts, the library that runs the
parts of a project through the steps PULL, BUILD, STAGE and PRIME. The
model covers the following pieces.

- **The lifecycle manager constructor** checks the application name and the
  parts definition, then builds one part per entry. A part's plugin must be
  registered and its properties must validate.
- **The sequencer** plans the actions that reach a target step, part by part
  and step by step. A step with dependencies first plans the dependencies'
  prerequisite step. A run records a fresh state. A rerun first cleans the
  step and every later one. An update re-stamps the state.
- **The state manager** holds the state of each part and step. Each state is
  wrapped with a serial that orders states in time. The model covers
  `should_step_run` and `outdated_report`.
- **The part handler** runs one action. It also assembles the build and
  stage package and snap lists.
- **Migration** moves files into the shared stage and prime areas. It also
  cleans what a part migrated there, leaving anything another part uses.
- **Overlays**:
  - the OCI whiteout and opaque-directory naming;
  - the visibility of a lower layer's entries through an upper layer;
  - the overlay filesystem's mount and unmount;
  - the overlay manager that stacks part layers;
  - the chained layer validation hash.
- **Utilities**:
  - the os-release reader;
  - the block-wise file hash;
  - the file cache;
  - the `__str__` of craft-parts errors.

Python exceptions are `Err` values of a `Result`. Stateful objects are
immutable datatypes that each operation returns anew. Collaborators the core
only calls are parameters. These are the plugin registry and validator, the
`add_step_actions` hook, the mount and unmount commands, SHA-1, UTF-8
encoding, the `hashlib` algorithms, the package fetcher and the source-type
package lists. Python's string order is `Ordering.LexLt`. Python's `sorted`
of a set is `Ordering.Sorted`.

## Model

| member | source | states |
|---|---|---|
| Lifecycle.NewLifecycleManager | craft_parts/lifecycle_manager.py:75-100 | An invalid application name, a non-dict definition and a missing `parts` key each raise their own error, in that order. The name check is the corrected one from "## Findings": a name followed by a newline is rejected, unlike the pattern as written. On success there is one part per entry of `parts`, in order and with the entry's name. Once those checks pass, a `parts` value that is not a dict raises the AttributeError of its missing `items`, and otherwise the result is exactly that of building every part in order. |
| Lifecycle.AppNameAsWrittenSpec | craft_parts/lifecycle_manager.py:75-76 | The name pattern as written matches exactly the valid names, plus a valid name followed by one newline. |
| Lifecycle.AppNameTrailingNewline | craft_parts/lifecycle_manager.py:75-76 | `"abc\n"` passes the check as written, although it is not a valid application name. |
| Lifecycle.ValidNamesMatchAsWritten | craft_parts/lifecycle_manager.py:75-76 | Every valid name also passes the check as written. The corrected check rejects nothing the original accepts correctly. |
| Lifecycle.NameRunEnd | craft_parts/lifecycle_manager.py:75 | The run of name characters from a position ends at the first character that is not one. |
| Lifecycle.BuildPart | craft_parts/lifecycle_manager.py:174-218 | Each error is raised on exactly its own condition: a non-dict spec is malformed; an absent plugin that is not registered gives UndefinedPlugin; a named plugin that is not registered gives InvalidPlugin. Once the plugin is registered, the validation outcome decides the result: a validation error becomes the part specification error built by `from_validation_error`, a value error becomes a part specification error carrying its message, and validated properties give the built part with those properties. A built part uses a registered plugin, defaulting to the part's name. |
| Lifecycle.BuildPartSucceeds | craft_parts/lifecycle_manager.py:186-218 | A part whose `plugin` entry names a registered plugin and whose properties validate is built with that plugin and those properties. |
| Lifecycle.BuildPartDefaultedSucceeds | craft_parts/lifecycle_manager.py:186-218 | A part without a `plugin` entry, named after a registered plugin, and whose properties validate is built with the plugin of its own name. |
| Lifecycle.BuildParts | craft_parts/lifecycle_manager.py:96-100 | On success, one built part per entry, in order. On failure, the error is that of the first entry that fails to build. |
| Sequencer.NewSequencer | craft_parts/sequencer.py:39-43 | A new sequencer has no actions and a well-formed state database over the given part list, which is taken as already sorted. |
| Sequencer.AddAllActionsRecorded | craft_parts/sequencer.py:57-74 | An unknown part name fails with that error before any action is planned. Otherwise, with a hook that records a RUN action per visit, the earlier actions are kept and (target index + 1) × |parts| actions follow them. Action `i*|parts|+j` after the earlier ones runs step `i` of the `j`-th selected part, with the given reason. Nothing but the action list changes. |
| Sequencer.VisitsLength | craft_parts/sequencer.py:63-74 | The loops visit as many (step, part) pairs as there are steps times parts. |
| Sequencer.VisitAt | craft_parts/sequencer.py:63-74 | Visit number `i*|parts|+j` is step `i` for part `j`: the loops are step-major. |
| Sequencer.VisitsOrdered | craft_parts/sequencer.py:63-74 | When the steps are in lifecycle order, the visits never go back to an earlier step. |
| Sequencer.PlanIgnoresPreviousActions | craft_parts/sequencer.py:45-55 | `plan` clears the action list first, so earlier actions do not affect the plan. |
| Sequencer.PlanWithNoOpHook | craft_parts/sequencer.py:45-55 | With the step-action stub, a plan over known parts is empty. A plan naming an unknown part fails. |
| Sequencer.RecordingVisits | craft_parts/sequencer.py:57-74 | A hook that records a RUN per visit appends exactly one action per visit, in visit order, and leaves the state database alone. |
| Sequencer.PlanIsStepMajor | craft_parts/sequencer.py:45-74 | With that hook, the plan has (target index + 1) × |parts| actions. Action `i*|parts|+j` runs step `i` of part `j`. |
| Sequencer.PlanStepsNonDecreasing | craft_parts/sequencer.py:45-74 | With that hook, the plan's steps never decrease and never pass the target. |
| Sequencer.AddAction | craft_parts/sequencer.py:167-178 | Exactly one action is appended, and the database and part list are unchanged. |
| Sequencer.DepsToPlan | craft_parts/sequencer.py:88-101 | The dependencies planned are exactly the listed parts named in `after` whose prerequisite step should run. |
| Sequencer.ProcessDependenciesRecorded | craft_parts/sequencer.py:88-101 | With a hook that records a RUN action per visit, a step without a prerequisite plans nothing. Otherwise, for each dependency that should run the prerequisite, in part-list order, one RUN action is appended per step up to the prerequisite. Each carries the "required to <verb> '<part>'" reason. Part names are unique, as they are keys of the parts mapping. |
| Sequencer.PlanDepsRecorded | craft_parts/sequencer.py:96-101 | Planning the listed dependencies one after another with that hook appends exactly their runs of every step up to the prerequisite, dependency by dependency. |
| Parts.SelectByOwnName | craft_parts/sequencer.py:96-101 | When part names are unique, selecting a part by its own name selects that part alone. |
| Sequencer.RunStep | craft_parts/sequencer.py:103-151 | Dependency failures propagate. On success the step's action comes after the dependencies' actions, and a fresh state is recorded. That state carries the newest serial and is not outdated. |
| Sequencer.RerunStep | craft_parts/sequencer.py:153-160 | A successful rerun ends with a RERUN action for the step, and the step has run. |
| Sequencer.RerunClearsLaterSteps | craft_parts/sequencer.py:153-160 | After a rerun, no step after the rerun one has a state for the part. |
| Sequencer.NoOpDeps | craft_parts/sequencer.py:88-101 | With the stub hook, planning known dependencies changes nothing. |
| Sequencer.UpdateStep | craft_parts/sequencer.py:162-165 | An UPDATE action is appended. Which steps have run is unchanged. A step that ran is marked updated and is not outdated. |
| StateManager.WrapState | craft_parts/state_manager/state_manager.py:59-73 | The serial drawn is newer than every stored state. The counter advances by one and the stored states are untouched. |
| StateManager.Test | craft_parts/state_manager/state_manager.py:102-111 | True exactly when a state is stored for the key. |
| StateManager.Remove | craft_parts/state_manager/state_manager.py:113-120 | The key is gone and every other key is unchanged. Removing an absent key changes nothing. |
| StateManager.Set | craft_parts/state_manager/state_manager.py:75-89 | `get` returns what was set, and every other key is unchanged. |
| StateManager.SetNoneIsRemove | craft_parts/state_manager/state_manager.py:75-89 | Setting `None` is the same as removing the key. |
| StateManager.Rewrap | craft_parts/state_manager/state_manager.py:122-134 | A stored state gets a fresh serial and the given flag with its contents unchanged. An absent key changes nothing. |
| StateManager.RewrapIsNewest | craft_parts/state_manager/state_manager.py:122-134 | After a rewrap the entry is newer than every other stored entry. |
| StateManager.StepUpdatedFlag | craft_parts/state_manager/state_manager.py:122-151 | A freshly set state, a rewrap without the flag and a removal all leave a step not updated. Marking the step updated makes it updated exactly when it has a state. |
| StateManager.StepUpdatedFlagFrame | craft_parts/state_manager/state_manager.py:122-151 | Setting, rewrapping, removing or marking one step leaves the update flag of every other step unchanged. |
| StateManager.SetState | craft_parts/state_manager/state_manager.py:177-184 | The new state is stored under the counter's serial with the flag clear. No other key changes. |
| StateManager.FirstNewer | craft_parts/state_manager/state_manager.py:224-253 | Returns the first candidate step whose state is newer than the given one, or none when no candidate is newer. |
| StateManager.OutdatedReportSpec | craft_parts/state_manager/state_manager.py:224-253 | An updated or never-run step is never outdated. Otherwise the report names the first earlier step whose state is newer, and there is a report exactly when such a step exists. |
| StateManager.SetStateNotOutdated | craft_parts/state_manager/state_manager.py:177-184 | A state just recorded has run and is not outdated. |
| StateManager.ShouldStepRunSpec | craft_parts/state_manager/state_manager.py:196-222 | A step should run exactly when it or some earlier step has not run or is outdated. |
| StateManager.CleanPart | craft_parts/sequencer.py:157-158 | The part's state for the step and every later step is gone. Earlier steps and other parts are unchanged. |
| StateManager.UpdateStateTimestamp | craft_parts/sequencer.py:162-165 | A step that ran is no longer outdated. Which steps have run is unchanged. |
| StateManager.LoadSerialsFollowOrder | craft_parts/state_manager/state_manager.py:165-176 | Loading states in timestamp order gives serials 1, 2, 3, … in that order, all with the update flag clear. A later file is newer. |
| Parts.PartListByName | craft_parts/sequencer.py:63 | No names selects every part. An unknown name raises InvalidPartName, naming the first requested name that is unknown. Otherwise exactly the named parts are selected. |
| Parts.SelectionInListOrder | craft_parts/sequencer.py:63 | A selection lists the named parts at their positions in the part list, each position once and in increasing order. |
| Parts.PartDependencies | craft_parts/sequencer.py:96 | Exactly the listed parts whose names are in the part's `after`. |
| PartHandler.RunAction | craft_parts/executor/part_handler.py:79-111 | UPDATE does nothing. Otherwise the pre-step callback runs, then the handler. On success the state is written, then the post-step callback runs. On failure the error propagates with no state written. |
| PartHandler.RunActionWritesOnlyItsStep | craft_parts/executor/part_handler.py:79-111 | A written state belongs to the action's part and step, after the pre-step callback, on a successful run. |
| PartHandler.HandlerForInjective | craft_parts/executor/part_handler.py:94-105 | Each step has its own handler. |
| PartHandler.RunStepBody | craft_parts/executor/part_handler.py:221-249 | A non-empty override scriptlet runs instead of the built-in handler and migrates nothing. Otherwise the built-in handler runs. |
| PartHandler.MigratingState | craft_parts/executor/part_handler.py:187-219 | A STAGE or PRIME state records the part and project options, plus the migrated files and directories, which are empty under a scriptlet. |
| PartHandler.FetchStagePackages | craft_parts/executor/part_handler.py:273-291 | No stage packages fetches nothing. A missing package becomes a part-named StagePackageNotFound. Any other fetch error propagates. |
| PartHandler.FetchStageSnaps | craft_parts/executor/part_handler.py:293-302 | None exactly when the part has no stage snaps. Otherwise the part's snaps. |
| PartHandler.GetBuildPackages | craft_parts/executor/part_handler.py:338-361 | The part's own packages, then the source type's (only with a source), then the plugin's. Membership is the union of the three. |
| PartHandler.GetBuildSnaps | craft_parts/executor/part_handler.py:364-378 | The part's build snaps followed by the plugin's. |
| Migration.MakeDirs | craft_parts/executor/migration.py:54-58 | Every listed directory is created in order. Creation fails exactly when a non-directory is in the way. Unlisted entries are untouched. |
| Migration.LinkFiles | craft_parts/executor/migration.py:60-77 | Each file is skipped, or linked over the destination. The loop fails exactly when a file that is not skipped cannot be linked. |
| Migration.MigrateFiles | craft_parts/executor/migration.py:30-77 | Succeeds exactly when no listed directory is blocked by a non-directory and every listed file is either skipped (missing with `missing_ok`, or a destination symlink that no listed directory replaced) or is a non-directory of the source landing where no directory stands. Directories come first, in sorted order, and only file links follow. Linked files carry the source's content. Destination symlinks are kept. Unlisted entries are untouched. With `missing_ok`, missing files are skipped. |
| Migration.MigrateLinksSorted | craft_parts/executor/migration.py:60-77 | After the directories, each listed file that is not skipped is linked exactly once, and the links come in sorted order. |
| Migration.LinkFilesOps | craft_parts/executor/migration.py:60-77 | Over a list without repeats, the file loop links exactly the files it does not skip, one operation each, in list order. |
| Migration.MigrateOverwrites | tests/unit/executor/test_migration.py:35-56 | Migrating a file over an earlier one replaces its content. |
| Migration.UnderSortsAfter | craft_parts/executor/migration.py:128-132 | A path beneath a directory sorts after it, which is why a reverse sort puts subdirectories first. |
| Migration.CleanDirs | craft_parts/executor/migration.py:132-142 | Only listed, empty directories are removed, and a missing one is skipped. No removed directory has a surviving entry beneath it. |
| Migration.UnlinkEach | craft_parts/executor/migration.py:119-126 | Unlinking the files one by one, skipping missing ones, removes exactly the listed files and keeps every other entry as it was. |
| Migration.UnlinkRemovesListed | craft_parts/executor/migration.py:119-126 | Whatever order the set of files is visited in, the loop leaves the tree without exactly that set. |
| Migration.CleanMigratedFiles | craft_parts/executor/migration.py:112-142 | Only listed files and listed directories are removed. Every other entry keeps its content. |
| Migration.ReverseSortedDecreasing | craft_parts/executor/migration.py:128-132 | `sorted(dirs, reverse=True)` lists the same directories, each after every path beneath it. |
| Migration.CleanDirsComplete | craft_parts/executor/migration.py:128-142 | In that order, every listed directory whose contents are all listed directories is removed. |
| Migration.CleanMigratedFilesRemovesListedTrees | craft_parts/executor/migration.py:112-142 | A listed directory whose whole subtree is listed files and directories is removed, however deep it goes. |
| Migration.SubtractOthers | craft_parts/executor/migration.py:102-105 | After subtracting the entries of the visited parts, an entry is left exactly when it was listed and no visited other part with a state lists it. |
| Migration.SubtractEveryOther | craft_parts/executor/migration.py:98-105 | A loop that visits every part, in any order, leaves exactly the entries no other part with a state lists. |
| Migration.CleanSharedArea | craft_parts/executor/migration.py:80-109 | A part without an entry changes nothing. Only the part's unshared entries are removed. Other parts' states are kept. The part's own state is narrowed to its unshared entries. |
| Migration.CleanSharedAreaScenario | tests/unit/executor/test_migration.py:300-340 | Two parts share `foo.txt`. Cleaning the first part keeps it. Cleaning the second part afterwards removes both files. |
| Overlays.OciWhiteout | craft_parts/overlays/overlays.py:112-119 | The whiteout is a sibling whose name carries the `.wh.` prefix. |
| Overlays.WhiteoutRoundTrip | craft_parts/overlays/overlays.py:112-119 | A whiteout name determines the path it hides, and vice versa. |
| Overlays.OciOpaqueDir | craft_parts/overlays/overlays.py:122-129 | The opaque marker is the child `.wh..wh..opq` of the directory. |
| Overlays.IsPathVisible | craft_parts/overlays/overlays.py:79-96 | A path is visible exactly when none of its prefixes, itself included, is whited out or an opaque directory above. |
| Overlays.VisibleFrom | craft_parts/overlays/overlays.py:87-96 | The loop from a level on checks exactly the prefixes longer than that level. |
| Overlays.VisibleInLayerSpec | craft_parts/overlays/overlays.py:31-76 | Stated in terms of the two layers alone, without the walk: an entry is reported when every proper prefix is a real directory below, no prefix is hidden above, and the entry is absent above. A regular file, or a link to one, is reported as a file unless its whiteout is above. A link to a directory is reported as a file even then. A real directory is reported as a directory. No entry is reported as both. |
| Overlays.PruneNeverHappens | craft_parts/overlays/overlays.py:70-73 | The pruning branch never fires: a directory that passes the visibility check is not opaque. |
| Overlays.WalkReachesEverything | craft_parts/overlays/overlays.py:46-73 | The walk reaches exactly the entries whose ancestors are all real directories. |
| Overlays.HiddenSubtreeNotReported | craft_parts/overlays/overlays.py:31-96 | Nothing at or beneath a whited-out or opaque path is reported. |
| Overlays.OpaqueDirScenario | tests/unit/overlays/test_overlays.py:119-125 | An opaque `dir1` above leaves only `a` visible. |
| OverlayFs.NewOverlayFS | craft_parts/overlays/overlay_fs.py:35-44 | A single lower directory becomes a one-element list, and nothing is mounted. |
| OverlayFs.MountOptionsLowerDirs | craft_parts/overlays/overlay_fs.py:49-58 | The lower directories can be read back from the mount option, in order. |
| OverlayFs.Mount | craft_parts/overlays/overlay_fs.py:46-63 | Succeeds exactly when the mount command succeeds, and then records the mountpoint. Otherwise it raises an overlay mount error carrying the mountpoint and the message. |
| OverlayFs.Unmount | craft_parts/overlays/overlay_fs.py:65-76 | With no mountpoint it does nothing. Success forgets the mountpoint; failure raises and keeps it. |
| OverlayFs.MountUnmountRoundTrip | craft_parts/overlays/overlay_fs.py:46-76 | A successful mount followed by a successful unmount gives back the original filesystem. |
| OverlayFs.UnmountIdempotent | craft_parts/overlays/overlay_fs.py:65-76 | A second unmount after a successful one does nothing. |
| OverlayManager.NewManager | craft_parts/overlays/overlay_manager.py:40-52 | One layer directory per part, in part order, and nothing mounted. |
| OverlayManager.LayerFs | craft_parts/overlays/overlay_manager.py:63-79 | The upper directory is the part's own layer. The lower directories are the earlier parts' layers nearest first, then the package cache when enabled, then the base layer. |
| OverlayManager.LayerStackContents | craft_parts/overlays/overlay_manager.py:63-73 | A layer directory is a lower directory exactly when it belongs to an earlier part. |
| OverlayManager.MountLayer | craft_parts/overlays/overlay_manager.py:54-81 | No base layer raises RuntimeError. An unlisted part raises ValueError. Otherwise the filesystem is recorded and mounted on the mount directory. |
| OverlayManager.MountRecorded | craft_parts/overlays/overlay_manager.py:75-81 | The filesystem is recorded whether or not the mount succeeds. Nothing else in the manager changes. |
| OverlayManager.MountPkgCache | craft_parts/overlays/overlay_manager.py:83-96 | No base layer raises RuntimeError. Otherwise the package cache is mounted over the base layer alone. |
| OverlayManager.MountLayerAsWritten | craft_parts/overlays/overlay_manager.py:54-81 | As written, every call raises, and the manager is unchanged. |
| OverlayManager.MountPkgCacheAsWritten | craft_parts/overlays/overlay_manager.py:83-96 | As written, every call raises, and the manager is unchanged. |
| OverlayManager.MountAsWrittenNeverMounts | craft_parts/overlays/overlay_manager.py:75-79 | With a base layer and a listed part, both operations as written raise a TypeError about `lower_dirs`, even where the intended version mounts. |
| OverlayManager.Unmount | craft_parts/overlays/overlay_manager.py:98-105 | With nothing recorded it does nothing. Otherwise the filesystem is unmounted and forgotten; a failure keeps it and raises. |
| OverlayManager.MountLayerThenUnmount | craft_parts/overlays/overlay_manager.py:54-105 | A successful mount then a successful unmount leaves nothing recorded. |
| OverlayManager.TwoPartStack | tests/unit/overlays/test_overlay_manager.py:45-55 | Mounting the second of two parts stacks the first part's layer over the base layer. |
| Layers.HexAt | craft_parts/overlays/layers.py:99-101 | Byte `i` is written as two lowercase hex digits at positions `2i` and `2i+1`, high nibble first. |
| Layers.FromHexHex | craft_parts/overlays/layers.py:69-101 | Decoding the hex form gives back the bytes. |
| Layers.HexInjective | craft_parts/overlays/layers.py:34-38 | Two hashes are equal exactly when their reprs are. |
| Layers.Load | craft_parts/overlays/layers.py:69-85 | A missing file gives the empty hash. Otherwise the first line is decoded: it succeeds exactly when that line is valid hexadecimal, and any failure is a ValueError. |
| Layers.ReadLine | craft_parts/overlays/layers.py:82-83 | With universal newlines, the line runs to the first `\n` or `\r`, which reads as `\n`. Without either, the line is the whole text. |
| Layers.CarriageReturnEndsLine | craft_parts/overlays/layers.py:82-85 | A lone carriage return ends the line: `"ab\rzz"` reads as `"ab\n"` and loads the byte 0xab. |
| Layers.SaveLoadRoundTrip | craft_parts/overlays/layers.py:69-93 | Saving a hash and loading it back gives the same hash. |
| Layers.HexExample | tests/unit/overlays/test_layers.py:41-45 | Bytes are written zero-padded and lowercase: 10 and 100, the first and last bytes of the unit test's value, are `0a` and `64`. |
| Layers.EmptyScriptIsNoScript | craft_parts/overlays/layers.py:64-66 | An empty script and a missing script give the same hash. |
| Layers.ForPartDependsOnPrevious | craft_parts/overlays/layers.py:41-67 | `for_part` chains three digests: the previous hash with the packages, that digest with the files, that digest with the script. With a collision-free digest, a layer's hash therefore determines the previous layer's hash. |
| OsUtils.RStrip | craft_parts/utils/os_utils.py:103 | The longest prefix that does not end in whitespace; only whitespace is dropped. |
| OsUtils.StripChar | craft_parts/utils/os_utils.py:105 | The middle of the value, with only quote characters dropped from each end. |
| OsUtils.ParseLine | craft_parts/utils/os_utils.py:103-105 | A line is an entry exactly when the right-stripped line splits on `=` into two fields. The key is the first field and the value is the second field with surrounding `"` stripped. |
| OsUtils.ParseLines | craft_parts/utils/os_utils.py:101-105 | A key is in the table exactly when some line defines it. |
| OsUtils.LastEntryWins | craft_parts/utils/os_utils.py:101-105 | In the table built from a sequence of lines, a key's value comes from the last line that defines it. |
| OsUtils.ReadOsReleaseLastEntry | craft_parts/utils/os_utils.py:94-105 | A missing file gives an empty table. Otherwise a key defined in the file gets the value of the last line that defines it. |
| OsUtils.Lookup | craft_parts/utils/os_utils.py:107-135 | The value exactly when the key is present; otherwise the accessor's own error. |
| OsUtils.VersionCodename | craft_parts/utils/os_utils.py:137-152 | The codename field when present. Otherwise the table's codename for the version ID. Otherwise a codename error. |
| OsUtils.ParseLineQuoted | craft_parts/utils/os_utils.py:103-105 | `ID="ubuntu"` with its newline parses to `ID` and `ubuntu`. |
| OsUtils.IsDumbTerminal | craft_parts/utils/os_utils.py:70-77 | True when output is not a terminal, or exactly when `TERM` is `dumb`. |
| FileUtils.Blocks | craft_parts/utils/file_utils.py:37-49 | The blocks concatenate back to the file. All but the last are full and none is empty. A negative size gives the whole file as one block when it is non-empty. A zero size or an empty file gives no blocks. |
| FileUtils.BlocksExample | craft_parts/utils/file_utils.py:37-49 | Seven bytes read four at a time give four bytes, then three. |
| FileUtils.CalculateHash | craft_parts/utils/file_utils.py:23-34 | An unknown algorithm is an AttributeError. Otherwise the digest is that of the whole file. |
| Cache.NewFileCache | craft_parts/sources/cache.py:32-40 | The namespace lives in `<cache home>/<name>/craft-parts/<namespace>`. |
| Cache.CacheFile | craft_parts/sources/cache.py:42-59 | An existing entry is kept. A regular file is copied in. Anything else caches nothing. |
| Cache.Get | craft_parts/sources/cache.py:61-73 | The entry's path exactly when an entry exists. |
| Cache.Clean | craft_parts/sources/cache.py:75-77 | Everything is removed; a missing directory is an OSError. |
| Cache.CacheThenGet | tests/unit/sources/test_cache.py:25-55 | After a successful cache, `get` returns the cached path. |
| Cache.FirstCacheWins | craft_parts/sources/cache.py:54-55 | Content cached under a key is never replaced. |
| Cache.CleanForgetsAll | craft_parts/sources/cache.py:75-77 | After `clean`, no key is found. |
| Errors.RenderCases | craft_parts/errors.py:36-45 | The brief, then each non-empty details and resolution, on separate lines. |
| Errors.BriefOnlyErrors | craft_parts/packages/errors.py:28-66 | Package errors, the checksum mismatch and a missing copy source print as their brief alone. |
| Errors.BriefAndResolutionErrors | craft_parts/errors.py:48-131 | Dependency cycles, invalid names, invalid architectures, copy errors and plugin errors print as the brief and the resolution. |
| PyValues.EscapeChar | craft_parts/errors.py:96-98 | Inside `{part_name!r}`, a character that is not a backslash, the quote or non-printable stands for itself. A non-printable one other than `\n`, `\r` and `\t` becomes a backslash escape of ASCII characters. The escape is 4 characters below U+0100, 6 below U+10000 and 10 above. |
| PyValues.ReprNoBreakSpace | craft_parts/errors.py:96 | A no-break space in a part name is shown as `'\xa0'`. |
| PyValues.ReprLineSeparator | craft_parts/errors.py:96 | A line separator in a part name is shown as `'\u2028'`. |
| Errors.PartSpecificationErrorStr | craft_parts/errors.py:86-100 | The brief, the message if non-empty, then the resolution. |
| Errors.FromValidationError | craft_parts/errors.py:102-117 | A specification error for the part. Its message is the formatted lines of the reportable records, in list order, joined by newlines. Its details are that message. |
| Errors.FormatEntriesAppend | craft_parts/errors.py:105-117 | Each record contributes its own line, in order. |
| Errors.FromValidationErrorSkipsMalformed | craft_parts/errors.py:108-112 | Records without a tuple `loc` or a non-empty `msg` contribute nothing. |
| Errors.FromValidationErrorTwoFields | tests/unit/test_errors.py:75-86 | Two field records give `'f1': m1` and `'f2': m2` on separate lines. |

## Left out

- Filesystem effects, logging and timing are not modelled. This covers directory creation, `os.makedirs` of cache subdirectories, `OverlayManager.mkdirs`, chroot, `url_utils` and the timed writer.
- `is_whiteout_file` and `is_opaque_dir` rely on OS calls and are left out.
- Layer paths in `visible_in_layer` are sequences of components, not strings. Symbolic links are never dangling, and entries beneath a link are not modelled.
- SHA-1, UTF-8 encoding and the `hashlib` algorithms are parameters; their internals are not modelled.
- `parts.py` and `steps.py` are not part of this model. `part_list_by_name`, `part_dependencies` and the dependency prerequisite step are modelled from their use in the sequencer, and the prerequisite step is a parameter. `sort_parts` is not modelled.
- Sequencer.NewSequencer: the part list is not sorted by `sort_parts` (`craft_parts/sequencer.py:40`); it is taken as already in dependency order. A list in another order is planned in the order given.
- Lifecycle.NewLifecycleManager: the sequencer it builds at `craft_parts/lifecycle_manager.py:105-108` can raise `PartDependencyCycle` (`craft_parts/errors.py:51-55`) when the parts' `after` entries form a cycle. The model does not sort parts, so it never raises this error.
- Set iteration order is fixed: dependencies are planned in part-list order. File removal does not depend on order, and the first file that fails is reported.
- Symbolic links inside migrated trees are not resolved. `create_similar_directory` is modelled as creating a directory.
- Migration.MigrateFiles: the `follow_symlinks` and `fixup_func` parameters (`craft_parts/executor/migration.py:37-38`) are not modelled. The model always migrates the source entry itself, a symlink as a symlink, which is the `follow_symlinks=False` default; with `True` the source copies the link's target instead (`tests/unit/executor/test_migration.py:209-232`). `fixup_func`, run on each migrated file (line 77), is the default no-op; the `LinkFile` operations mark where it would run. `file_utils.create_similar_directory` and `file_utils.link_or_copy` (lines 58 and 75) are not defined in `craft_parts/utils/file_utils.py`, which is part of this model only for `calculate_hash`; their behaviour here (directory creation, copying the entry over the destination, failing on directories) follows `tests/unit/executor/test_migration.py:35-56` and `58-207`.
- Loading states from disk is not modelled: the states read, sorted by timestamp, are an input.
- PULL and BUILD state assets are not modelled. Plugin package and snap lists are given as sequences.
- `strip_plugin_properties` is not modelled.
- PartHandler.RunAction: the RuntimeError for a step without a handler is unreachable, because every step has one. The `not step_info.step` check is omitted.
- Lifecycle.BuildPart: a non-string plugin value counts as unregistered. In a dictionary with a repeated key, the first occurrence wins.
- OverlayManager.MountLayer: the ValueError for a part missing from the list carries a generic message, not the list's repr.
- OsUtils.ReadOsRelease: universal-newline handling of a lone `\r` is not modelled; lines are split at `\n` only.
- Errors.BriefAndResolutionErrors: `UndefinedPlugin` and `InvalidPlugin` are not defined in `craft_parts/errors.py`. Their messages follow `tests/unit/test_errors.py:141-155`.
- Lifecycle.NewLifecycleManager: the `ProjectDirs` and `ProjectInfo` construction at `craft_parts/lifecycle_manager.py:83-93` is not modelled. `craft_parts/infos.py` is not part of this model, so an `InvalidArchitecture` raised while building the project information is not modelled either.
- Cache.Get: existence is per key, not per path. When one key is a path prefix of another (`algo` and `algo/1`), caching the longer key creates a directory at the shorter key's path; `os.path.exists` then reports the shorter key as cached, and the model does not.
- PyValues.EscapeChar: `repr` escapes every character `str.isprintable()` rejects. The model escapes the controls, the separators other than the space, and the listed format, private-use and noncharacter code points. Unassigned code points and other format characters are shown unescaped, because the Unicode character database is not modelled.
- OverlayManager.TwoPartStack: checks the lower and upper directories and the joined lower-directory option, not the whole mount command line.

## Findings

| source | as written | input that shows it | evidently intended | confidence | as-written member | corrected member |
|---|---|---|---|---|---|---|
| craft_parts/lifecycle_manager.py:75-76 | `re.match` with `$` accepts a name followed by a single trailing newline | application name `"abc\n"` | only letters, digits and `_`, starting with a letter, with nothing after | not executed | Lifecycle.AppNameTrailingNewline | Lifecycle.NewLifecycleManager |
| craft_parts/overlays/overlay_manager.py:75-94 | the filesystem is built with `lower_dirs=`, but the constructor at `craft_parts/overlays/overlay_fs.py:35-36` takes `lower_dir`, so the call raises TypeError | any manager with a base layer mounting a listed part | the lower directories are passed under the constructor's keyword, and the stack is mounted | not executed | OverlayManager.MountAsWrittenNeverMounts | OverlayManager.MountLayer |

=== FILE: cache.dfy ===
/**
 * The file cache: files stored under a key in a namespace directory of the
 * user's cache directory. The namespace directory is modelled as a map from
 * keys to file contents, together with whether the directory exists.
 */
module Cache {
  import opened Common
  import opened Errors

  /** What a source path names: nothing, a directory, or a regular file with its contents. */
  datatype Source = Missing | Directory | RegularFile(content: seq<Byte>)

  /** A file cache: where its namespace lives, whether that directory exists, and what it holds. */
  datatype FileCache = FileCache(cacheRoot: string, fileCache: string, dirExists: bool, entries: map<string, seq<Byte>>)

  /** `os.path.join(a, b)`: an absolute `b` replaces `a`; otherwise a separator is added unless `a` ends in one. */
  function PathJoin(a: string, b: string): (r: string)
    ensures EndsWith(r, b)
    ensures StartsWith(b, "/") ==> r == b
    ensures !StartsWith(b, "/") ==> StartsWith(r, a)
  {
    if StartsWith(b, "/") then b
    else if a == "" || EndsWith(a, "/") then a + b
    else a + "/" + b
  }

  /** The constructor: the namespace lives in `<cache home>/<name>/craft-parts/<namespace>`. */
  function NewFileCache(cacheHome: string, name: string, namespace: string, dirExists: bool,
                        entries: map<string, seq<Byte>>): (r: FileCache)
    ensures r.cacheRoot == PathJoin(PathJoin(cacheHome, name), "craft-parts")
    ensures r.fileCache == PathJoin(r.cacheRoot, namespace)
  {
    var root := PathJoin(PathJoin(cacheHome, name), "craft-parts");
    FileCache(root, PathJoin(root, namespace), dirExists, entries)
  }

  /** Where the entry for a key is stored. */
  function CachedPath(c: FileCache, key: string): string {
    PathJoin(c.fileCache, key)
  }

  /**
   * `cache`: the namespace directory is created; an existing entry is kept
   * as it is; otherwise a regular source file is copied in. A missing source
   * or a directory makes the copy fail, and then nothing is returned.
   */
  function CacheFile(c: FileCache, source: Source, key: string): (r: (FileCache, Option<string>))
    ensures r.0.dirExists && r.0.cacheRoot == c.cacheRoot && r.0.fileCache == c.fileCache
    ensures key in c.entries ==> r.0.entries == c.entries && r.1 == Some(CachedPath(c, key))
    ensures key !in c.entries && source.RegularFile? ==>
      r.0.entries == c.entries[key := source.content] && r.1 == Some(CachedPath(c, key))
    ensures key !in c.entries && !source.RegularFile? ==> r.0.entries == c.entries && r.1 == None
  {
    var c' := c.(dirExists := true);
    if key in c.entries then (c', Some(CachedPath(c, key)))
    else match source
      case RegularFile(content) => (c'.(entries := c.entries[key := content]), Some(CachedPath(c, key)))
      case _ => (c', None)
  }

  /** `get`: the entry's path exactly when an entry exists for the key. */
  function Get(c: FileCache, key: string): (r: Option<string>)
    ensures r.Some? <==> c.dirExists && key in c.entries
    ensures r.Some? ==> r.value == CachedPath(c, key)
  {
    if c.dirExists && key in c.entries then Some(CachedPath(c, key)) else None
  }

  /** `clean`: the namespace directory and everything in it go; a missing directory is an error. */
  function Clean(c: FileCache): (r: Result<FileCache, Failure>)
    ensures !c.dirExists ==> r == Err(OSError("[Errno 2] No such file or directory: '" + c.fileCache + "'"))
    ensures c.dirExists ==> r.Ok? && !r.value.dirExists && r.value.entries == map[]
    ensures r.Ok? ==> r.value.fileCache == c.fileCache && r.value.cacheRoot == c.cacheRoot
  {
    if !c.dirExists then Err(OSError("[Errno 2] No such file or directory: '" + c.fileCache + "'"))
    else Ok(c.(dirExists := false, entries := map[]))
  }

  /** A well-formed cache holds entries only while its directory exists. */
  predicate Valid(c: FileCache) {
    !c.dirExists ==> c.entries == map[]
  }

  /** Every operation keeps the cache well-formed. */
  lemma OperationsKeepValid(c: FileCache, source: Source, key: string)
    requires Valid(c)
    ensures Valid(CacheFile(c, source, key).0)
    ensures Clean(c).Ok? ==> Valid(Clean(c).value)
  {
  }

  /** After a successful `cache`, `get` finds the entry at the path `cache` returned. */
  lemma CacheThenGet(c: FileCache, source: Source, key: string)
    requires CacheFile(c, source, key).1.Some?
    ensures Get(CacheFile(c, source, key).0, key) == CacheFile(c, source, key).1
  {
  }

  /** The first content cached under a key stays, whatever is cached under it later. */
  lemma FirstCacheWins(c: FileCache, first: seq<Byte>, later: Source, key: string)
    requires key !in c.entries
    ensures var c1 := CacheFile(c, RegularFile(first), key).0;
      CacheFile(c1, later, key).0.entries[key] == first
  {
  }

  /** After `clean`, `get` finds nothing under any key. */
  lemma CleanForgetsAll(c: FileCache, key: string)
    requires Clean(c).Ok?
    ensures Get(Clean(c).value, key).None?
  {
  }

  /** Caching a directory or a missing file fails and stores nothing. */
  lemma CacheNonFile(c: FileCache, key: string)
    requires key !in c.entries
    ensures CacheFile(c, Directory, key).1.None? && CacheFile(c, Missing, key).1.None?
    ensures Get(CacheFile(c, Directory, key).0, key).None?
  {
  }
}

=== FILE: common.dfy ===
/**
 * Shared vocabulary: optional values, results of fallible operations, and the
 * few sequence and string helpers (joining, flattening, prefixes) that the
 * rest of the model builds on.
 */
module Common {

  /** Python's `Optional[T]`: `None` or a value. */
  datatype Option<+T> = None | Some(value: T) {
    function GetOr(default: T): T {
      match this
      case Some(v) => v
      case None => default
    }
  }

  /** The outcome of an operation that may raise: a value, or the raised error. */
  datatype Result<+T, +E> = Ok(value: T) | Err(error: E) {
    predicate IsFailure() {
      Err?
    }

    function PropagateFailure<U>(): Result<U, E>
      requires Err?
    {
      Err(error)
    }

    function Extract(): T
      requires Ok?
    {
      value
    }
  }

  /** An octet of a byte string. */
  type Byte = b: nat | b < 256

  /** `sep.join(parts)`. */
  function Join(sep: string, parts: seq<string>): string
    decreases |parts|
  {
    if |parts| == 0 then ""
    else if |parts| == 1 then parts[0]
    else Join(sep, parts[..|parts| - 1]) + sep + parts[|parts| - 1]
  }

  lemma JoinSingle(sep: string, a: string)
    ensures Join(sep, [a]) == a
  {
  }

  lemma JoinSnoc(sep: string, parts: seq<string>, b: string)
    requires |parts| > 0
    ensures Join(sep, parts + [b]) == Join(sep, parts) + sep + b
  {
    assert (parts + [b])[..|parts|] == parts;
  }

  /** Joining peels off the first part as well as the last. */
  lemma {:induction false} JoinCons(sep: string, a: string, rest: seq<string>)
    requires |rest| > 0
    ensures Join(sep, [a] + rest) == a + sep + Join(sep, rest)
    decreases |rest|
  {
    if |rest| == 1 {
      assert [a] + rest == [a, rest[0]];
      assert [a, rest[0]][..1] == [a];
    } else {
      var init := rest[..|rest| - 1];
      var last := rest[|rest| - 1];
      assert rest == init + [last];
      assert [a] + rest == ([a] + init) + [last];
      JoinSnoc(sep, [a] + init, last);
      JoinCons(sep, a, init);
      JoinSnoc(sep, init, last);
    }
  }

  /** `s.split(sep)` for a one-character separator: the pieces between separators, in order. */
  function Split(s: string, sep: char): (r: seq<string>)
    ensures |r| > 0
    ensures forall i :: 0 <= i < |r| ==> sep !in r[i]
    decreases |s|
  {
    match IndexOf(s, sep)
    case None => [s]
    case Some(i) => [s[..i]] + Split(s[i + 1..], sep)
  }

  /** Joining the pieces of a split with the separator gives back the text. */
  lemma {:induction false} JoinSplit(s: string, sep: char)
    ensures Join([sep], Split(s, sep)) == s
    decreases |s|
  {
    match IndexOf(s, sep)
    case None =>
    case Some(i) =>
      var rest := Split(s[i + 1..], sep);
      JoinSplit(s[i + 1..], sep);
      JoinCons([sep], s[..i], rest);
      assert s == s[..i] + [sep] + s[i + 1..];
  }

  /** Splitting a join gives back the parts, provided no part holds the separator. */
  lemma {:induction false} SplitJoin(parts: seq<string>, sep: char)
    requires |parts| > 0
    requires forall i :: 0 <= i < |parts| ==> sep !in parts[i]
    ensures Split(Join([sep], parts), sep) == parts
    decreases |parts|
  {
    if |parts| > 1 {
      var rest := parts[1..];
      assert parts == [parts[0]] + rest;
      JoinCons([sep], parts[0], rest);
      var s := Join([sep], parts);
      var a := parts[0];
      assert s == a + [sep] + Join([sep], rest);
      assert s[|a|] == sep && s[..|a|] == a && s[|a| + 1..] == Join([sep], rest);
      assert sep !in s[..|a|];
      IndexOfFirst(s, sep, |a|);
      SplitJoin(rest, sep);
    } else {
      assert Join([sep], parts) == parts[0];
    }
  }

  /** The first occurrence is found where the element first appears. */
  lemma IndexOfFirst<T>(s: seq<T>, x: T, i: nat)
    requires i < |s| && s[i] == x && x !in s[..i]
    ensures IndexOf(s, x) == Some(i)
  {
  }

  /** Concatenation of a sequence of sequences, in order. */
  function Flatten<T>(ss: seq<seq<T>>): seq<T>
    decreases |ss|
  {
    if |ss| == 0 then [] else ss[0] + Flatten(ss[1..])
  }

  lemma FlattenAppend<T>(a: seq<seq<T>>, b: seq<seq<T>>)
    ensures Flatten(a + b) == Flatten(a) + Flatten(b)
  {
    if |a| == 0 {
      assert a + b == b;
    } else {
      assert (a + b)[1..] == a[1..] + b;
      FlattenAppend(a[1..], b);
    }
  }

  predicate StartsWith<T(==)>(s: seq<T>, prefix: seq<T>) {
    |prefix| <= |s| && s[..|prefix|] == prefix
  }

  predicate EndsWith<T(==)>(s: seq<T>, suffix: seq<T>) {
    |suffix| <= |s| && s[|s| - |suffix|..] == suffix
  }

  /** The elements of `s` that satisfy `keep`, in their original order. */
  function Filter<T>(s: seq<T>, keep: T -> bool): (r: seq<T>)
    ensures |r| <= |s|
    ensures forall i :: 0 <= i < |r| ==> r[i] in s && keep(r[i])
    ensures forall i :: 0 <= i < |s| && keep(s[i]) ==> s[i] in r
    decreases |s|
  {
    if |s| == 0 then []
    else if keep(s[0]) then [s[0]] + Filter(s[1..], keep)
    else Filter(s[1..], keep)
  }

  /** Filtering keeps exactly the one element that satisfies `keep`. */
  lemma {:induction false} FilterOne<T>(s: seq<T>, keep: T -> bool, k: nat)
    requires k < |s| && keep(s[k])
    requires forall i :: 0 <= i < |s| && i != k ==> !keep(s[i])
    ensures Filter(s, keep) == [s[k]]
    decreases |s|
  {
    if k > 0 {
      assert !keep(s[0]);
      FilterOne(s[1..], keep, k - 1);
    } else {
      FilterNone(s[1..], keep);
    }
  }

  /** Filtering keeps nothing when no element satisfies `keep`. */
  lemma {:induction false} FilterNone<T>(s: seq<T>, keep: T -> bool)
    requires forall i :: 0 <= i < |s| ==> !keep(s[i])
    ensures Filter(s, keep) == []
    decreases |s|
  {
    if |s| > 0 {
      FilterNone(s[1..], keep);
    }
  }

  /** The positions of `s`, from `lo` on, whose elements satisfy `keep`, in increasing order. */
  function KeptFrom<T>(s: seq<T>, keep: T -> bool, lo: nat): (r: seq<nat>)
    requires lo <= |s|
    ensures forall k :: 0 <= k < |r| ==> lo <= r[k] < |s| && keep(s[r[k]])
    ensures forall i :: lo <= i < |s| && keep(s[i]) ==> i in r
    ensures forall k, l :: 0 <= k < l < |r| ==> r[k] < r[l]
    decreases |s| - lo
  {
    if lo == |s| then []
    else if keep(s[lo]) then [lo] + KeptFrom(s, keep, lo + 1)
    else KeptFrom(s, keep, lo + 1)
  }

  /** Filtering picks out exactly the elements at the kept positions, in the order of those positions. */
  lemma {:induction false} FilterAtKept<T>(s: seq<T>, keep: T -> bool, lo: nat)
    requires lo <= |s|
    ensures |Filter(s[lo..], keep)| == |KeptFrom(s, keep, lo)|
    ensures forall k :: 0 <= k < |KeptFrom(s, keep, lo)| ==> Filter(s[lo..], keep)[k] == s[KeptFrom(s, keep, lo)[k]]
    decreases |s| - lo
  {
    if lo < |s| {
      FilterAtKept(s, keep, lo + 1);
      var f, at := Filter(s[lo + 1..], keep), KeptFrom(s, keep, lo + 1);
      assert s[lo..][1..] == s[lo + 1..];
      if keep(s[lo]) {
        assert Filter(s[lo..], keep) == [s[lo]] + f;
        assert KeptFrom(s, keep, lo) == [lo] + at;
      } else {
        assert Filter(s[lo..], keep) == f;
        assert KeptFrom(s, keep, lo) == at;
      }
    }
  }

  /** Filtering lists the elements at exactly the positions `keep` accepts, in increasing order of position. */
  lemma FilterPositions<T>(s: seq<T>, keep: T -> bool)
    ensures exists at: seq<nat> ::
      && |at| == |Filter(s, keep)|
      && (forall k :: 0 <= k < |at| ==> at[k] < |s| && Filter(s, keep)[k] == s[at[k]])
      && (forall k, l :: 0 <= k < l < |at| ==> at[k] < at[l])
      && (forall i :: 0 <= i < |s| ==> (i in at <==> keep(s[i])))
  {
    var at := KeptFrom(s, keep, 0);
    FilterAtKept(s, keep, 0);
    assert s[0..] == s;
    forall i | 0 <= i < |s| && i in at
      ensures keep(s[i])
    {
      var k :| 0 <= k < |at| && at[k] == i;
    }
  }

  /** Two selectors that agree on every element of `s` filter it alike. */
  lemma {:induction false} FilterAgree<T>(s: seq<T>, keep: T -> bool, keep': T -> bool)
    requires forall i :: 0 <= i < |s| ==> keep(s[i]) == keep'(s[i])
    ensures Filter(s, keep) == Filter(s, keep')
    decreases |s|
  {
    if |s| > 0 {
      FilterAgree(s[1..], keep, keep');
    }
  }

  function Reverse<T>(s: seq<T>): (r: seq<T>)
    ensures |r| == |s|
    ensures forall i :: 0 <= i < |s| ==> r[i] == s[|s| - 1 - i]
    decreases |s|
  {
    if |s| == 0 then [] else Reverse(s[1..]) + [s[0]]
  }

  /** The position of the first occurrence of `x` in `s`, as `list.index` finds it. */
  function IndexOf<T(==)>(s: seq<T>, x: T): (r: Option<nat>)
    ensures r.Some? ==> r.value < |s| && s[r.value] == x && x !in s[..r.value]
    ensures r.None? ==> x !in s
    decreases |s|
  {
    if |s| == 0 then None
    else if s[0] == x then Some(0)
    else match IndexOf(s[1..], x)
      case None => None
      case Some(i) => assert s[1..][..i] == s[1..i + 1]; Some(i + 1)
  }
}

=== FILE: errors.dfy ===
/**
 * The library's error taxonomy. Every `PartsError` has a brief, optional
 * details and an optional resolution; its string form joins the present
 * ones with newlines. `Failure` is what the modelled operations raise: a
 * `PartsError`, or one of the errors whose message text is defined outside
 * the modelled files, or a Python built-in exception.
 */
module Errors {
  import opened Common
  import opened PyValues

  datatype Error =
    | PartsError(brief: string, details: Option<string>, resolution: Option<string>)
    | PartDependencyCycle
    | InvalidPartName(partName: string)
    | InvalidArchitecture(archName: string)
    | PartSpecificationError(specPartName: string, message: string)
    | CopyTreeError(copyMessage: string)
    | CopyFileNotFound(name: string)
    | UndefinedPlugin(undefinedPartName: string)
    | InvalidPlugin(pluginName: Value, pluginPartName: string)
    | PackageListRefreshError(refreshMessage: string)
    | PackageFetchError(fetchMessage: string)
    | PackageNotFound(packageName: string)
    | PackageBroken(brokenPackage: string, deps: seq<string>)
    | ChecksumMismatch(expected: string, obtained: string)
  {
    function Brief(): string {
      match this
      case PartsError(b, _, _) => b
      case PartDependencyCycle => "A circular dependency chain was detected."
      case InvalidPartName(n) => "A part named " + ReprStr(n) + " is not defined in the parts list."
      case InvalidArchitecture(a) => "Architecture " + ReprStr(a) + " is not supported."
      case PartSpecificationError(n, _) => "Part " + ReprStr(n) + " validation failed."
      case CopyTreeError(m) => "Failed to copy or link file tree: " + m + "."
      case CopyFileNotFound(n) => "Failed to copy " + ReprStr(n) + ": no such file or directory."
      case UndefinedPlugin(n) => "Plugin not defined for part " + ReprStr(n) + "."
      case InvalidPlugin(p, n) => "Plugin " + Repr(p) + " in part " + ReprStr(n) + " is not registered."
      case PackageListRefreshError(m) => "Failed to refresh package list: " + m + "."
      case PackageFetchError(m) => "Failed to fetch package: " + m + "."
      case PackageNotFound(n) => "Package not found: " + n + "."
      case PackageBroken(n, deps) =>
        "Package " + ReprStr(n) + " has unmet dependencies: " + Join(", ", deps) + "."
      case ChecksumMismatch(e, o) => "Expected digest " + e + ", obtained " + o + "."
    }

    function Details(): Option<string> {
      match this
      case PartsError(_, d, _) => d
      case PartSpecificationError(_, m) => Some(m)
      case _ => None
    }

    function Resolution(): (r: Option<string>)
      ensures !PartsError? && r.Some? ==> |r.value| > 0
    {
      match this
      case PartsError(_, _, r) => r
      case PartDependencyCycle => Some("Review the parts definition to remove dependency cycles.")
      case InvalidPartName(_) => Some("Review the parts definition and make sure it's correct.")
      case InvalidArchitecture(_) => Some("Make sure the architecture name is correct.")
      case PartSpecificationError(n, _) => Some("Review part " + ReprStr(n) + " and make sure it's correct.")
      case CopyTreeError(_) => Some("Make sure paths and permissions are correct.")
      case UndefinedPlugin(n) => Some("Review part " + ReprStr(n) + " and make sure it's correct.")
      case InvalidPlugin(_, n) => Some("Review part " + ReprStr(n) + " and make sure it's correct.")
      case _ => None
    }

    /** `str(err)`. */
    function Str(): string {
      Render(Brief(), Details(), Resolution())
    }
  }

  /** An optional message component is shown when it is present and non-empty. */
  function Shown(c: Option<string>): seq<string> {
    if c.Some? && |c.value| > 0 then [c.value] else []
  }

  /** `PartsError.__str__`: the brief, then the shown details and resolution, one per line. */
  function Render(brief: string, details: Option<string>, resolution: Option<string>): string {
    Join("\n", [brief] + Shown(details) + Shown(resolution))
  }

  lemma RenderCases(brief: string, details: Option<string>, resolution: Option<string>)
    ensures Shown(details) == [] && Shown(resolution) == [] ==>
      Render(brief, details, resolution) == brief
    ensures Shown(details) != [] && Shown(resolution) == [] ==>
      Render(brief, details, resolution) == brief + "\n" + details.value
    ensures Shown(details) == [] && Shown(resolution) != [] ==>
      Render(brief, details, resolution) == brief + "\n" + resolution.value
    ensures Shown(details) != [] && Shown(resolution) != [] ==>
      Render(brief, details, resolution) == brief + "\n" + details.value + "\n" + resolution.value
  {
    if Shown(details) != [] && Shown(resolution) != [] {
      JoinSnoc("\n", [brief], details.value);
      assert [brief] + [details.value] + [resolution.value] == [brief, details.value] + [resolution.value];
      JoinSnoc("\n", [brief, details.value], resolution.value);
    } else if Shown(details) != [] {
      assert [brief] + Shown(details) + Shown(resolution) == [brief] + [details.value];
      JoinSnoc("\n", [brief], details.value);
    } else if Shown(resolution) != [] {
      assert [brief] + Shown(details) + Shown(resolution) == [brief] + [resolution.value];
      JoinSnoc("\n", [brief], resolution.value);
    }
  }

  /** Errors that set neither details nor resolution print as their brief alone. */
  lemma BriefOnlyErrors(e: Error)
    requires e.PackageListRefreshError? || e.PackageFetchError? || e.PackageNotFound?
          || e.PackageBroken? || e.ChecksumMismatch? || e.CopyFileNotFound?
    ensures e.Details() == None && e.Resolution() == None
    ensures e.Str() == e.Brief()
  {
    RenderCases(e.Brief(), None, None);
  }

  /** Errors with a resolution and no details print as the brief and the resolution, one per line. */
  lemma BriefAndResolutionErrors(e: Error)
    requires e.PartDependencyCycle? || e.InvalidPartName? || e.InvalidArchitecture? || e.CopyTreeError?
          || e.UndefinedPlugin? || e.InvalidPlugin?
    ensures e.Details() == None && e.Resolution().Some?
    ensures e.Str() == e.Brief() + "\n" + e.Resolution().value
  {
    RenderBriefResolution(e.Brief(), e.Resolution().value);
  }

  lemma RenderBriefResolution(brief: string, resolution: string)
    requires |resolution| > 0
    ensures Render(brief, None, Some(resolution)) == brief + "\n" + resolution
  {
    RenderCases(brief, None, Some(resolution));
  }

  /** A details text is shown on its own line only when it is non-empty; the resolution always is. */
  lemma RenderOptionalDetails(brief: string, details: string, resolution: string)
    requires |resolution| > 0
    ensures Render(brief, Some(details), Some(resolution))
      == brief + "\n" + (if |details| > 0 then details + "\n" else "") + resolution
  {
    RenderCases(brief, Some(details), Some(resolution));
    if |details| > 0 {
      assert brief + "\n" + details + "\n" + resolution == brief + "\n" + (details + "\n") + resolution;
    } else {
      assert brief + "\n" + "" == brief + "\n";
    }
  }

  /** A part specification error prints its brief, message (when non-empty) and resolution. */
  lemma PartSpecificationErrorStr(partName: string, message: string)
    ensures var brief := "Part " + ReprStr(partName) + " validation failed.";
      var resolution := "Review part " + ReprStr(partName) + " and make sure it's correct.";
      PartSpecificationError(partName, message).Str()
        == brief + "\n" + (if |message| > 0 then message + "\n" else "") + resolution
  {
    var e := PartSpecificationError(partName, message);
    RenderOptionalDetails(e.Brief(), message, e.Resolution().value);
  }

  /** A pydantic error record is reported when it has a tuple `loc` and a non-empty `msg`. */
  predicate Reportable(entry: seq<(string, Value)>) {
    var loc := DictGet(entry, "loc");
    var msg := DictGet(entry, "msg");
    loc.Some? && msg.Some? && Truthy(loc.value) && Truthy(msg.value) && loc.value.VTuple?
  }

  /** One reported record: the comma-joined reprs of its location, then its message. */
  function FormatEntry(entry: seq<(string, Value)>): string
    requires Reportable(entry)
  {
    var loc := DictGet(entry, "loc").value;
    var msg := DictGet(entry, "msg").value;
    Join(",", ReprEach(loc.elems, loc)) + ": " + Str(msg)
  }

  /** The lines `from_validation_error` formats from an error list, in list order. */
  function FormatEntries(errorList: seq<seq<(string, Value)>>): seq<string>
    decreases |errorList|
  {
    if |errorList| == 0 then []
    else
      (if Reportable(errorList[0]) then [FormatEntry(errorList[0])] else [])
      + FormatEntries(errorList[1..])
  }

  /**
   * Formatting distributes over concatenation of error lists: each record
   * contributes its own line, or nothing when it is not reportable.
   */
  lemma {:induction false} FormatEntriesAppend(a: seq<seq<(string, Value)>>, b: seq<seq<(string, Value)>>)
    ensures FormatEntries(a + b) == FormatEntries(a) + FormatEntries(b)
    decreases |a|
  {
    if |a| > 0 {
      var head := if Reportable(a[0]) then [FormatEntry(a[0])] else [];
      assert (a + b)[0] == a[0] && (a + b)[1..] == a[1..] + b;
      assert FormatEntries(a + b) == head + FormatEntries(a[1..] + b);
      FormatEntriesAppend(a[1..], b);
      assert FormatEntries(a) == head + FormatEntries(a[1..]);
    } else {
      assert a + b == b;
    }
  }

  lemma FormatEntriesSingle(entry: seq<(string, Value)>)
    ensures Reportable(entry) ==> FormatEntries([entry]) == [FormatEntry(entry)]
    ensures !Reportable(entry) ==> FormatEntries([entry]) == []
  {
  }

  /** `PartSpecificationError.from_validation_error`. */
  function FromValidationError(partName: string, errorList: seq<seq<(string, Value)>>): (r: Error)
    ensures r.PartSpecificationError? && r.specPartName == partName
    ensures r.Details() == Some(r.message)
    ensures r.message == Join("\n", FormatEntries(errorList))
  {
    PartSpecificationError(partName, Join("\n", FormatEntries(errorList)))
  }

  /** Records that all fail to qualify leave an empty message. */
  lemma FromValidationErrorSkipsMalformed(partName: string, errorList: seq<seq<(string, Value)>>)
    requires forall i :: 0 <= i < |errorList| ==> !Reportable(errorList[i])
    ensures FromValidationError(partName, errorList).message == ""
  {
    SkipAll(errorList);
  }

  lemma {:induction false} SkipAll(errorList: seq<seq<(string, Value)>>)
    requires forall i :: 0 <= i < |errorList| ==> !Reportable(errorList[i])
    ensures FormatEntries(errorList) == []
    decreases |errorList|
  {
    if |errorList| > 0 {
      SkipAll(errorList[1..]);
    }
  }

  /** A record locating one plain field name is shown as `'field': message`. */
  lemma FormatSingleField(field: string, msg: string)
    requires PlainName(field)
    requires |msg| > 0
    ensures var e: seq<(string, Value)> := [("loc", VTuple([VStr(field)])), ("msg", VStr(msg))];
      Reportable(e) && FormatEntry(e) == "'" + field + "': " + msg
  {
    var e: seq<(string, Value)> := [("loc", VTuple([VStr(field)])), ("msg", VStr(msg))];
    assert DictGet(e, "loc") == Some(VTuple([VStr(field)]));
    assert DictGet(e, "msg") == Some(VStr(msg));
    var loc := VTuple([VStr(field)]);
    ReprPlain(field);
    assert ReprEach(loc.elems, loc) == [ReprStr(field)];
  }

  predicate PlainName(field: string) {
    forall i :: 0 <= i < |field| ==> field[i] != '\\' && field[i] != '\'' && field[i] != '"' && ' ' <= field[i] && field[i] as int < 127
  }

  /** Two single-field records give two lines, `'field': message`, in list order. */
  lemma FromValidationErrorTwoFields(partName: string, f1: string, m1: string, f2: string, m2: string)
    requires PlainName(f1) && PlainName(f2) && |m1| > 0 && |m2| > 0
    ensures FromValidationError(partName, [
        [("loc", VTuple([VStr(f1)])), ("msg", VStr(m1))],
        [("loc", VTuple([VStr(f2)])), ("msg", VStr(m2))]
      ]).message == "'" + f1 + "': " + m1 + "\n'" + f2 + "': " + m2
  {
    var e1: seq<(string, Value)> := [("loc", VTuple([VStr(f1)])), ("msg", VStr(m1))];
    var e2: seq<(string, Value)> := [("loc", VTuple([VStr(f2)])), ("msg", VStr(m2))];
    FormatSingleField(f1, m1);
    FormatSingleField(f2, m2);
    FormatTwoEntries(e1, e2);
  }

  /** Two reportable records give their two lines joined by a newline. */
  lemma FormatTwoEntries(e1: seq<(string, Value)>, e2: seq<(string, Value)>)
    requires Reportable(e1) && Reportable(e2)
    ensures Join("\n", FormatEntries([e1, e2])) == FormatEntry(e1) + "\n" + FormatEntry(e2)
  {
    FormatEntriesSingle(e1);
    FormatEntriesSingle(e2);
    FormatEntriesAppend([e1], [e2]);
    assert [e1] + [e2] == [e1, e2];
    JoinSnoc("\n", [FormatEntry(e1)], FormatEntry(e2));
  }

  /** What the modelled operations raise. */
  datatype Failure =
    | Parts(error: Error)
    | InvalidApplicationName(applicationName: string)
    | StagePackageNotFound(partName: string, stagePackage: string)
    | OverlayMountError(mountpoint: string, mountMessage: string)
    | OsReleaseIdError
    | OsReleaseNameError
    | OsReleaseVersionIdError
    | OsReleaseCodenameError
    | TypeError(typeMessage: string)
    | ValueError(valueMessage: string)
    | RuntimeError(runtimeMessage: string)
    | OSError(osMessage: string)
    | AttributeError(attributeMessage: string)
}

=== FILE: file_utils.dfy ===
/**
 * Reading a file in fixed-size blocks, and hashing a file by feeding those
 * blocks to one hasher. The hash algorithms are a parameter: each maps the
 * whole byte stream it was fed to its hexadecimal digest.
 */
module FileUtils {
  import opened Common
  import opened Errors

  /** The default block size, 1 MiB. */
  const DefaultBlockSize: int := 0x10_0000

  /**
   * `_file_reader_iter`: repeated `read(blockSize)` calls until one returns
   * nothing. A negative size reads the rest of the file at once; a zero size
   * reads nothing, so no block is produced.
   */
  function Blocks(content: seq<Byte>, blockSize: int): (r: seq<seq<Byte>>)
    ensures blockSize != 0 ==> Flatten(r) == content
    ensures blockSize == 0 || |content| == 0 ==> r == []
    ensures forall i :: 0 <= i < |r| ==> |r[i]| > 0
    ensures blockSize > 0 ==> forall i :: 0 <= i < |r| ==> |r[i]| <= blockSize
    ensures blockSize > 0 ==> forall i :: 0 <= i < |r| - 1 ==> |r[i]| == blockSize
    ensures blockSize < 0 && |content| > 0 ==> r == [content]
    decreases |content|
  {
    if blockSize == 0 || |content| == 0 then []
    else if blockSize < 0 then
      assert Flatten([content]) == content + Flatten([]);
      [content]
    else
      var n := if blockSize < |content| then blockSize else |content|;
      var rest := Blocks(content[n..], blockSize);
      var r := [content[..n]] + rest;
      assert r[1..] == rest;
      assert content == content[..n] + content[n..];
      assert forall i :: 1 <= i < |r| ==> r[i] == rest[i - 1];
      assert n < |content| ==> |rest| > 0;
      r
  }

  /** The blocks of a seven-byte file read four bytes at a time: four bytes, then the remaining three. */
  lemma BlocksExample(content: seq<Byte>)
    requires |content| == 7
    ensures Blocks(content, 4) == [content[..4], content[4..]]
  {
    assert Blocks(content[4..], 4) == [content[4..]] by {
      assert content[4..][..3] == content[4..];
      assert content[4..][3..] == [];
    }
  }

  /** The hash algorithms `hashlib` offers, each as the digest of everything fed to it. */
  type Algorithms = map<string, seq<Byte> -> string>

  /**
   * `calculate_hash`: an algorithm `hashlib` lacks is an attribute error;
   * otherwise the file's blocks are fed in order to one hasher, so the
   * digest is that of the whole file.
   */
  function CalculateHash(content: seq<Byte>, algorithm: string, algorithms: Algorithms): (r: Result<string, Failure>)
    ensures algorithm !in algorithms ==>
      r == Err(AttributeError("module 'hashlib' has no attribute '" + algorithm + "'"))
    ensures algorithm in algorithms ==> r == Ok(algorithms[algorithm](content))
  {
    if algorithm !in algorithms then Err(AttributeError("module 'hashlib' has no attribute '" + algorithm + "'"))
    else Ok(algorithms[algorithm](Flatten(Blocks(content, DefaultBlockSize))))
  }
}

=== FILE: layers.dfy ===
/**
 * Layer validation hashes: the byte string identifying a part's overlay
 * layer, its hexadecimal form as stored in the part's state directory, and
 * the chain that derives a part's hash from the previous layer's hash.
 * SHA-1 and the UTF-8 encoding of text are parameters.
 */
module Layers {
  import opened Common
  import opened PyValues
  import opened Errors

  /** A layer hash: the digest bytes. The default hash is empty. */
  datatype LayerHash = LayerHash(hashBytes: seq<Byte>)

  function EmptyHash(): LayerHash {
    LayerHash([])
  }

  /** The two lowercase hexadecimal digits of one byte, high nibble first. */
  function ByteHex(x: Byte): (r: string)
    ensures |r| == 2
  {
    [HexDigit(x / 16), HexDigit(x % 16)]
  }

  /** `bytes.hex()`: the digits of each byte in turn. */
  function Hex(b: seq<Byte>): (r: string)
    ensures |r| == 2 * |b|
    decreases |b|
  {
    if |b| == 0 then "" else ByteHex(b[0]) + Hex(b[1..])
  }

  /** Byte `i` is written at positions `2i` and `2i+1`. */
  lemma {:induction false} HexAt(b: seq<Byte>, i: nat)
    requires i < |b|
    ensures Hex(b)[2 * i] == HexDigit(b[i] / 16) && Hex(b)[2 * i + 1] == HexDigit(b[i] % 16)
    decreases |b|
  {
    if i > 0 {
      HexAt(b[1..], i - 1);
      AfterPair(ByteHex(b[0]), Hex(b[1..]), 2 * (i - 1));
      AfterPair(ByteHex(b[0]), Hex(b[1..]), 2 * (i - 1) + 1);
    }
  }

  lemma AfterPair(x: string, y: string, k: nat)
    requires |x| == 2 && k < |y|
    ensures (x + y)[k + 2] == y[k]
  {
  }

  /** `repr()` of a layer hash is its hexadecimal form. */
  function Repr(h: LayerHash): string {
    Hex(h.hashBytes)
  }

  /** The value of a hexadecimal digit of either case. */
  function HexValue(c: char): (r: Option<nat>)
    ensures r.Some? ==> r.value < 16
  {
    if '0' <= c <= '9' then Some(c as nat - '0' as nat)
    else if 'a' <= c <= 'f' then Some(c as nat - 'a' as nat + 10)
    else if 'A' <= c <= 'F' then Some(c as nat - 'A' as nat + 10)
    else None
  }

  lemma HexValueOfDigit(n: nat)
    requires n < 16
    ensures HexValue(HexDigit(n)) == Some(n)
  {
    var digits := "0123456789abcdef";
    assert HexDigit(n) == digits[n];
    if n < 10 {
      assert digits[n] as nat == '0' as nat + n;
    } else {
      assert digits[n] as nat == 'a' as nat + n - 10;
    }
  }

  /** The ASCII whitespace `bytes.fromhex` skips between byte pairs. */
  predicate IsAsciiSpace(c: char) {
    c == ' ' || c == '\t' || c == '\n' || c as int == 11 || c as int == 12 || c == '\r'
  }

  function NonHexAt(position: nat): Failure {
    ValueError("non-hexadecimal number found in fromhex() arg at position " + ReprInt(position))
  }

  /**
   * `bytes.fromhex` from position `pos` of the argument: whitespace before a
   * pair is skipped, and each pair of digits of either case is one byte.
   */
  function FromHexAt(s: string, pos: nat): (r: Result<seq<Byte>, Failure>)
    ensures r.Ok? ==> |r.value| <= |s| / 2
    ensures r.Err? ==> r.error.ValueError?
    decreases |s|
  {
    if |s| == 0 then Ok([])
    else if IsAsciiSpace(s[0]) then FromHexAt(s[1..], pos + 1)
    else if HexValue(s[0]).None? then Err(NonHexAt(pos))
    else if |s| == 1 || HexValue(s[1]).None? then Err(NonHexAt(pos + 1))
    else
      var rest :- FromHexAt(s[2..], pos + 2);
      Ok([HexValue(s[0]).value * 16 + HexValue(s[1]).value] + rest)
  }

  function FromHex(s: string): Result<seq<Byte>, Failure> {
    FromHexAt(s, 0)
  }

  lemma ByteRecompose(x: Byte)
    ensures (x / 16) * 16 + x % 16 == x
  {
  }

  /** A byte's two digits are read back as that byte. */
  lemma ByteHexDecodes(x: Byte)
    ensures !IsAsciiSpace(ByteHex(x)[0])
    ensures HexValue(ByteHex(x)[0]) == Some(x / 16) && HexValue(ByteHex(x)[1]) == Some(x % 16)
    ensures HexValue(ByteHex(x)[0]).value * 16 + HexValue(ByteHex(x)[1]).value == x
  {
    HexValueOfDigit(x / 16);
    HexValueOfDigit(x % 16);
    ByteRecompose(x);
  }

  /** Decoding reads a byte's two digits and goes on after them. */
  lemma FromHexAtByte(x: Byte, t: string, pos: nat)
    ensures FromHexAt(t, pos + 2).Ok? ==> FromHexAt(ByteHex(x) + t, pos) == Ok([x] + FromHexAt(t, pos + 2).value)
  {
    var s := ByteHex(x) + t;
    ByteHexDecodes(x);
    assert s[0] == ByteHex(x)[0] && s[1] == ByteHex(x)[1];
    assert s[2..] == t;
  }

  /** Decoding the hexadecimal form gives back the bytes. */
  lemma {:induction false} FromHexHex(b: seq<Byte>, pos: nat)
    ensures FromHexAt(Hex(b), pos) == Ok(b)
    decreases |b|
  {
    if |b| > 0 {
      FromHexHex(b[1..], pos + 2);
      FromHexAtByte(b[0], Hex(b[1..]), pos);
      assert [b[0]] + b[1..] == b;
    }
  }

  /** The hexadecimal form is one-to-one: two hashes are equal exactly when their hex forms are. */
  lemma HexInjective(a: LayerHash, b: LayerHash)
    ensures Repr(a) == Repr(b) <==> a == b
  {
    FromHexHex(a.hashBytes, 0);
    FromHexHex(b.hashBytes, 0);
  }

  /** A character that ends a line when a file is read in text mode. */
  predicate LineEnd(c: char) {
    c == '\n' || c == '\r'
  }

  /** The position of the first line end, if there is one. */
  function FirstLineEnd(s: string): (r: Option<nat>)
    ensures r.Some? ==> r.value < |s| && LineEnd(s[r.value]) && forall j :: 0 <= j < r.value ==> !LineEnd(s[j])
    ensures r.None? ==> forall j :: 0 <= j < |s| ==> !LineEnd(s[j])
    decreases |s|
  {
    if |s| == 0 then None
    else if LineEnd(s[0]) then Some(0)
    else match FirstLineEnd(s[1..])
      case None => None
      case Some(i) => Some(i + 1)
  }

  /**
   * `file.readline()` on a file opened in text mode: universal newlines turn
   * `\r\n` and a lone `\r` into `\n`, and the line runs up to and including
   * the first of them, or is the whole text when there is none.
   */
  function ReadLine(content: string): (r: string)
    ensures (forall j :: 0 <= j < |content| ==> !LineEnd(content[j])) ==> r == content
    ensures (exists j :: 0 <= j < |content| && LineEnd(content[j])) ==>
      && 0 < |r| <= |content| && r[|r| - 1] == '\n' && LineEnd(content[|r| - 1])
      && r[..|r| - 1] == content[..|r| - 1]
      && forall j :: 0 <= j < |r| - 1 ==> !LineEnd(r[j])
  {
    match FirstLineEnd(content)
    case None => content
    case Some(i) => content[..i] + "\n"
  }

  /** A lone carriage return ends the line: `"ab\rzz"` reads as `"ab\n"` and loads the byte 0xab. */
  lemma CarriageReturnEndsLine()
    ensures ReadLine("ab\rzz") == "ab\n"
    ensures Load(Some("ab\rzz")) == Ok(LayerHash([0xab]))
  {
    var content := "ab\rzz";
    assert !LineEnd(content[0]) && !LineEnd(content[1]) && LineEnd(content[2]);
    assert FirstLineEnd(content) == Some(2);
    assert ReadLine(content) == "ab\n";
    OneByteLine();
  }

  /** The line `"ab\n"` decodes to the single byte 0xab; the newline is skipped as whitespace. */
  lemma OneByteLine()
    ensures FromHex("ab\n") == Ok([0xab])
  {
    var line := "ab\n";
    assert line[0] == 'a' && line[1] == 'b' && line[2..] == "\n";
    assert HexValue('a') == Some(10) && HexValue('b') == Some(11);
    assert FromHexAt(line[2..], 2) == Ok([]);
    assert !IsAsciiSpace(line[0]);
    var b: seq<Byte> := [10 * 16 + 11];
    assert FromHexAt(line, 0) == Ok(b + []);
    assert b + [] == [0xab];
  }

  /** What `save` writes to the part's `layer_hash` file. */
  function Save(h: LayerHash): string {
    Hex(h.hashBytes)
  }

  /**
   * `load`: a missing file gives the empty hash; otherwise the first line of
   * the file is decoded from hexadecimal, raising a value error when it is
   * not valid hexadecimal.
   */
  function Load(file: Option<string>): (r: Result<LayerHash, Failure>)
    ensures file.None? ==> r == Ok(EmptyHash())
    ensures file.Some? ==> (r.Ok? <==> FromHex(ReadLine(file.value)).Ok?)
    ensures r.Err? ==> r.error.ValueError?
    ensures r.Ok? && file.Some? ==> r.value.hashBytes == FromHex(ReadLine(file.value)).value
  {
    match file
    case None => Ok(EmptyHash())
    case Some(content) =>
      var b :- FromHex(ReadLine(content));
      Ok(LayerHash(b))
  }

  /** The hexadecimal form holds no line end. */
  lemma {:induction false} HexHasNoNewline(b: seq<Byte>)
    ensures forall j :: 0 <= j < |Hex(b)| ==> !LineEnd(Hex(b)[j])
    decreases |b|
  {
    if |b| > 0 {
      ByteHexDecodes(b[0]);
      HexHasNoNewline(b[1..]);
      assert Hex(b) == ByteHex(b[0]) + Hex(b[1..]);
    }
  }

  /** Saving a hash and loading it back gives an equal hash. */
  lemma SaveLoadRoundTrip(h: LayerHash)
    ensures Load(Some(Save(h))) == Ok(h)
  {
    HexHasNoNewline(h.hashBytes);
    FromHexHex(h.hashBytes, 0);
  }

  /** Bytes 10 and 100 are written `0a` and `64`: zero-padded, lowercase. */
  lemma HexExample()
    ensures Hex([10, 100]) == "0a64"
  {
    var b: seq<Byte> := [10, 100];
    assert HexDigit(0) == '0' && HexDigit(10) == 'a' && HexDigit(6) == '6' && HexDigit(4) == '4';
    assert Hex(b[1..]) == ByteHex(100) + Hex([]);
  }

  /** The overlay parameters of a part that enter its layer hash. */
  datatype OverlayParams = OverlayParams(packages: seq<string>, files: seq<string>, script: Option<string>)

  /** The bytes a sequence of text entries feeds to a hasher, one entry after another. */
  function EncodeAll(entries: seq<string>, encode: string -> seq<Byte>): seq<Byte>
    decreases |entries|
  {
    if |entries| == 0 then [] else encode(entries[0]) + EncodeAll(entries[1..], encode)
  }

  /** The script's contribution: nothing when it is absent or empty. */
  function ScriptBytes(script: Option<string>, encode: string -> seq<Byte>): (r: seq<Byte>)
    ensures (script.None? || script.value == "") ==> r == []
  {
    if script.Some? && script.value != "" then encode(script.value) else []
  }

  /**
   * `for_part`: three chained digests. The first covers the previous
   * layer's hash and the overlay packages, the second that digest and the
   * overlay files, the third that digest and the overlay script.
   */
  function ForPart(params: OverlayParams, previous: LayerHash, sha1: seq<Byte> -> seq<Byte>,
                   encode: string -> seq<Byte>): LayerHash
  {
    var d1 := sha1(previous.hashBytes + EncodeAll(params.packages, encode));
    var d2 := sha1(d1 + EncodeAll(params.files, encode));
    LayerHash(sha1(d2 + ScriptBytes(params.script, encode)))
  }

  /** An absent script and an empty one give the same layer hash. */
  lemma EmptyScriptIsNoScript(params: OverlayParams, previous: LayerHash, sha1: seq<Byte> -> seq<Byte>,
                              encode: string -> seq<Byte>)
    ensures ForPart(params.(script := None), previous, sha1, encode)
      == ForPart(params.(script := Some("")), previous, sha1, encode)
  {
  }

  lemma AppendCancel(x: seq<Byte>, y: seq<Byte>, p: seq<Byte>)
    requires x + p == y + p
    ensures x == y
  {
    assert |x| == |y|;
    assert x == (x + p)[..|x|];
    assert y == (y + p)[..|y|];
  }

  /**
   * With a collision-free digest, a layer's hash determines the previous
   * layer's hash: a change anywhere below a layer changes the layer's hash.
   */
  lemma ForPartDependsOnPrevious(params: OverlayParams, a: LayerHash, b: LayerHash,
                                 sha1: seq<Byte> -> seq<Byte>, encode: string -> seq<Byte>)
    requires forall x, y :: sha1(x) == sha1(y) ==> x == y
    requires ForPart(params, a, sha1, encode) == ForPart(params, b, sha1, encode)
    ensures a == b
  {
    var pk := EncodeAll(params.packages, encode);
    var fl := EncodeAll(params.files, encode);
    var sc := ScriptBytes(params.script, encode);
    var a1 := sha1(a.hashBytes + pk);
    var b1 := sha1(b.hashBytes + pk);
    var a2 := sha1(a1 + fl);
    var b2 := sha1(b1 + fl);
    assert sha1(a2 + sc) == sha1(b2 + sc);
    AppendCancel(a2, b2, sc);
    AppendCancel(a1, b1, fl);
    AppendCancel(a.hashBytes, b.hashBytes, pk);
  }
}

=== FILE: lifecycle.dfy ===
/**
 * Building the part list from the caller's parts mapping: the
 * application-name check, the shape checks on the mapping, and, per part,
 * plugin resolution and the mapping of validation failures to errors.
 */
module Lifecycle {
  import opened Common
  import opened PyValues
  import opened Errors

  predicate IsAsciiLetter(c: char) {
    ('A' <= c <= 'Z') || ('a' <= c <= 'z')
  }

  /** A character of the class `[0-9A-Za-z_]`. */
  predicate IsNameChar(c: char) {
    IsAsciiLetter(c) || ('0' <= c <= '9') || c == '_'
  }

  /** The end of the run of name characters starting at `i`. */
  function NameRunEnd(s: string, i: nat): (r: nat)
    requires i <= |s|
    ensures i <= r <= |s|
    ensures forall k :: i <= k < r ==> IsNameChar(s[k])
    ensures r < |s| ==> !IsNameChar(s[r])
    decreases |s| - i
  {
    if i < |s| && IsNameChar(s[i]) then NameRunEnd(s, i + 1) else i
  }

  /** Python's `$` without MULTILINE: the end of the text, or just before a final newline. */
  predicate DollarAt(s: string, i: nat) {
    i == |s| || (i == |s| - 1 && s[i] == '\n')
  }

  /**
   * `re.match("^[A-Za-z][0-9A-Za-z_]*$", name)` as the source writes it. The
   * starred class cannot match the characters `$` accepts, so the greedy run
   * is the only place the anchor can succeed.
   */
  predicate AppNameMatchesAsWritten(name: string) {
    |name| > 0 && IsAsciiLetter(name[0]) && DollarAt(name, NameRunEnd(name, 1))
  }

  /** The documented rule: a letter followed only by letters, digits and underscores. */
  predicate ValidApplicationName(name: string) {
    |name| > 0 && IsAsciiLetter(name[0]) && forall k :: 1 <= k < |name| ==> IsNameChar(name[k])
  }

  /** The check as written accepts exactly the valid names, and the valid names with one newline appended. */
  lemma AppNameAsWrittenSpec(name: string)
    ensures AppNameMatchesAsWritten(name) <==>
      ValidApplicationName(name)
      || (|name| > 1 && name[|name| - 1] == '\n' && ValidApplicationName(name[..|name| - 1]))
  {
    if |name| > 1 && name[|name| - 1] == '\n' && ValidApplicationName(name[..|name| - 1]) {
      var p := name[..|name| - 1];
      forall k | 1 <= k < |name| - 1
        ensures IsNameChar(name[k])
      {
        assert p[k] == name[k];
      }
    }
  }

  /** A name with a trailing newline gets through the check as written. */
  lemma AppNameTrailingNewline()
    ensures AppNameMatchesAsWritten("abc\n")
    ensures !ValidApplicationName("abc\n")
  {
    assert NameRunEnd("abc\n", 1) == 3;
  }

  /** Every valid name passes the check as written; the check only errs towards accepting. */
  lemma ValidNamesMatchAsWritten(name: string)
    requires ValidApplicationName(name)
    ensures AppNameMatchesAsWritten(name)
  {
    AppNameAsWrittenSpec(name);
  }

  /** The outcome of validating a part's properties against its plugin's schema. */
  datatype Validation =
    | Validated(properties: map<string, Value>)
    | ValidationFailed(errorList: seq<seq<(string, Value)>>)
    | ValueFailed(message: string)

  /** Validation as the plugin's properties class performs it, for a plugin name and a part spec. */
  type Validator = (string, seq<(string, Value)>) -> Validation

  /** A part as `_build_part` produces it: name, resolved plugin, spec and validated properties. */
  datatype BuiltPart = BuiltPart(
    name: string,
    plugin: string,
    spec: seq<(string, Value)>,
    pluginProperties: map<string, Value>)

  /** The `plugin` entry of a spec, or `""` when there is none. */
  function PluginField(spec: seq<(string, Value)>): Value {
    DictGet(spec, "plugin").GetOr(VStr(""))
  }

  /** Whether the registry knows a plugin of that name. */
  predicate Registered(plugin: Value, registry: set<string>) {
    plugin.VStr? && plugin.s in registry
  }

  /** The plugin a spec asks for: its `plugin` entry when truthy, otherwise the part's own name. */
  function ResolvedPlugin(name: string, spec: seq<(string, Value)>): Value {
    if Truthy(PluginField(spec)) then PluginField(spec) else VStr(name)
  }

  /**
   * `_build_part`: a spec that is not a mapping is malformed; an absent or
   * empty plugin field defaults the plugin to the part name; an unknown
   * plugin is an undefined plugin when defaulted and an invalid plugin when
   * given; validation failures become part specification errors.
   */
  function BuildPart(name: string, spec: Value, registry: set<string>, validate: Validator): (r: Result<BuiltPart, Failure>)
    ensures !spec.VDict? ==> r == Err(Parts(PartSpecificationError(name, "part definition is malformed")))
    ensures spec.VDict? && !Truthy(PluginField(spec.entries)) ==>
      (name !in registry <==> r == Err(Parts(UndefinedPlugin(name))))
    ensures spec.VDict? && Truthy(PluginField(spec.entries)) ==>
      (!Registered(PluginField(spec.entries), registry) <==>
         r == Err(Parts(InvalidPlugin(PluginField(spec.entries), name))))
    ensures r.Ok? ==>
      && spec.VDict?
      && r.value.name == name
      && r.value.spec == spec.entries
      && r.value.plugin in registry
      && r.value.plugin == ResolvedPlugin(name, spec.entries).s
      && validate(r.value.plugin, spec.entries) == Validated(r.value.pluginProperties)
    ensures r.Err? && r.error.Parts? && r.error.error.PartSpecificationError? && spec.VDict? ==>
      var v := validate(ResolvedPlugin(name, spec.entries).s, spec.entries);
      || (v.ValidationFailed? && r.error.error == FromValidationError(name, v.errorList))
      || (v.ValueFailed? && r.error.error == PartSpecificationError(name, v.message))
    ensures spec.VDict? && Registered(ResolvedPlugin(name, spec.entries), registry) ==>
      var plugin := ResolvedPlugin(name, spec.entries).s;
      var v := validate(plugin, spec.entries);
      && (v.Validated? ==> r == Ok(BuiltPart(name, plugin, spec.entries, v.properties)))
      && (v.ValidationFailed? ==> r == Err(Parts(FromValidationError(name, v.errorList))))
      && (v.ValueFailed? ==> r == Err(Parts(PartSpecificationError(name, v.message))))
  {
    if !spec.VDict? then Err(Parts(PartSpecificationError(name, "part definition is malformed")))
    else
      var plugin := ResolvedPlugin(name, spec.entries);
      if !Registered(plugin, registry) then
        if !Truthy(PluginField(spec.entries)) then Err(Parts(UndefinedPlugin(name)))
        else Err(Parts(InvalidPlugin(plugin, name)))
      else
        match validate(plugin.s, spec.entries)
        case Validated(props) => Ok(BuiltPart(name, plugin.s, spec.entries, props))
        case ValidationFailed(errorList) => Err(Parts(FromValidationError(name, errorList)))
        case ValueFailed(message) => Err(Parts(PartSpecificationError(name, message)))
  }

  /** A part whose plugin field names a registered plugin and whose properties validate is built. */
  lemma BuildPartSucceeds(name: string, entries: seq<(string, Value)>, plugin: string,
                          registry: set<string>, validate: Validator)
    requires PluginField(entries) == VStr(plugin) && |plugin| > 0 && plugin in registry
    requires validate(plugin, entries).Validated?
    ensures BuildPart(name, VDict(entries), registry, validate)
      == Ok(BuiltPart(name, plugin, entries, validate(plugin, entries).properties))
  {
  }

  /** A part without a plugin field, named after a registered plugin and whose properties validate, is built with that plugin. */
  lemma BuildPartDefaultedSucceeds(name: string, entries: seq<(string, Value)>,
                                   registry: set<string>, validate: Validator)
    requires !Truthy(PluginField(entries)) && name in registry
    requires validate(name, entries).Validated?
    ensures BuildPart(name, VDict(entries), registry, validate)
      == Ok(BuiltPart(name, name, entries, validate(name, entries).properties))
  {
  }

  /** Builds the parts in declaration order; the first failure stops the loop. */
  function BuildParts(partsData: seq<(string, Value)>, registry: set<string>, validate: Validator):
    (r: Result<seq<BuiltPart>, Failure>)
    ensures r.Ok? ==> |r.value| == |partsData|
    ensures r.Ok? ==> forall i :: 0 <= i < |partsData| ==>
      BuildPart(partsData[i].0, partsData[i].1, registry, validate) == Ok(r.value[i])
    ensures r.Err? ==> exists i :: (0 <= i < |partsData|
      && BuildPart(partsData[i].0, partsData[i].1, registry, validate) == Err(r.error)
      && forall j :: 0 <= j < i ==> BuildPart(partsData[j].0, partsData[j].1, registry, validate).Ok?)
    decreases |partsData|
  {
    if |partsData| == 0 then Ok([])
    else
      var first :- BuildPart(partsData[0].0, partsData[0].1, registry, validate);
      var rest := BuildParts(partsData[1..], registry, validate);
      if rest.Err? then
        BuildFailureShifts(partsData, registry, validate, rest.error);
        Err(rest.error)
      else
        assert forall i :: 1 <= i < |partsData| ==> partsData[1..][i - 1] == partsData[i];
        Ok([first] + rest.value)
  }

  /** A first failure in the tail, after a first part that builds, is the first failure of the whole list. */
  lemma BuildFailureShifts(partsData: seq<(string, Value)>, registry: set<string>, validate: Validator, e: Failure)
    requires |partsData| > 0 && BuildPart(partsData[0].0, partsData[0].1, registry, validate).Ok?
    requires exists i :: (0 <= i < |partsData[1..]|
      && BuildPart(partsData[1..][i].0, partsData[1..][i].1, registry, validate) == Err(e)
      && forall j :: 0 <= j < i ==> BuildPart(partsData[1..][j].0, partsData[1..][j].1, registry, validate).Ok?)
    ensures exists i :: (0 <= i < |partsData|
      && BuildPart(partsData[i].0, partsData[i].1, registry, validate) == Err(e)
      && forall j :: 0 <= j < i ==> BuildPart(partsData[j].0, partsData[j].1, registry, validate).Ok?)
  {
    var i :| 0 <= i < |partsData[1..]|
      && BuildPart(partsData[1..][i].0, partsData[1..][i].1, registry, validate) == Err(e)
      && forall j :: 0 <= j < i ==> BuildPart(partsData[1..][j].0, partsData[1..][j].1, registry, validate).Ok?;
    assert BuildPart(partsData[i + 1].0, partsData[i + 1].1, registry, validate) == Err(e);
    assert forall j :: 1 <= j < i + 1 ==> partsData[1..][j - 1] == partsData[j];
  }

  /** `type(v).__name__`, as Python names it in attribute errors. */
  function TypeName(v: Value): string {
    match v
    case VNone => "NoneType"
    case VBool(_) => "bool"
    case VInt(_) => "int"
    case VStr(_) => "str"
    case VList(_) => "list"
    case VTuple(_) => "tuple"
    case VDict(_) => "dict"
  }

  /**
   * The validation sequence of the `LifecycleManager` constructor: the
   * application name first, then the mapping's shape, then each part in
   * declaration order.
   */
  function NewLifecycleManager(allParts: Value, applicationName: string, registry: set<string>,
                               validate: Validator): (r: Result<seq<BuiltPart>, Failure>)
    ensures !ValidApplicationName(applicationName) ==> r == Err(InvalidApplicationName(applicationName))
    ensures ValidApplicationName(applicationName) && !allParts.VDict? ==>
      r == Err(TypeError("parts definition must be a dictionary"))
    ensures ValidApplicationName(applicationName) && allParts.VDict? && !HasKey(allParts.entries, "parts") ==>
      r == Err(ValueError("parts definition is missing"))
    ensures r.Ok? ==>
      && allParts.VDict?
      && DictGet(allParts.entries, "parts").Some?
      && DictGet(allParts.entries, "parts").value.VDict?
      && var data := DictGet(allParts.entries, "parts").value.entries;
         |r.value| == |data| && forall i :: 0 <= i < |data| ==> r.value[i].name == data[i].0
    ensures ValidApplicationName(applicationName) && allParts.VDict? && HasKey(allParts.entries, "parts") ==>
      var data := DictGet(allParts.entries, "parts").value;
      && (!data.VDict? ==> r == Err(AttributeError("'" + TypeName(data) + "' object has no attribute 'items'")))
      && (data.VDict? ==> r == BuildParts(data.entries, registry, validate))
  {
    if !ValidApplicationName(applicationName) then Err(InvalidApplicationName(applicationName))
    else if !allParts.VDict? then Err(TypeError("parts definition must be a dictionary"))
    else if !HasKey(allParts.entries, "parts") then Err(ValueError("parts definition is missing"))
    else
      var data := DictGet(allParts.entries, "parts").value;
      if !data.VDict? then
        Err(AttributeError("'" + TypeName(data) + "' object has no attribute 'items'"))
      else
        BuildParts(data.entries, registry, validate)
  }
}

=== FILE: migration.dfy ===
/**
 * Moving a step's files into a shared area (stage or prime) and taking
 * them out again. A directory tree is a map from relative paths to nodes;
 * a path `d + "/" + x` lies beneath directory `d`.
 */
module Migration {
  import opened Common
  import opened Ordering
  import opened Errors
  import opened StateManager

  datatype Node = File(content: string) | Symlink(target: string) | Dir

  type Tree = map<string, Node>

  /** Whether `k` lies (at any depth) beneath `d`. */
  predicate Under(k: string, d: string) {
    StartsWith(k, d + "/")
  }

  lemma UnderTransitive(m: string, k: string, d: string)
    requires Under(m, k) && Under(k, d)
    ensures Under(m, d)
  {
    assert m[..|d + "/"|] == m[..|k + "/"|][..|d + "/"|];
    assert k[..|d + "/"|] == (k + "/")[..|d + "/"|];
  }

  /** A path beneath `d` sorts after `d`. */
  lemma UnderSortsAfter(k: string, d: string)
    requires Under(k, d)
    ensures LexLt(d, k)
  {
    var rest := k[|d|..];
    assert k == d + rest;
    PrefixSortsFirst(d, rest);
  }

  // ---------------------------------------------------------------------
  // migrate_files

  datatype MigrationOp = CreateDir(dirPath: string) | LinkFile(filePath: string)

  /** The directory loop: each directory is created (or kept) in the given order. */
  function MakeDirs(dest: Tree, order: seq<string>): (r: Result<(seq<MigrationOp>, Tree), Failure>)
    ensures r.Ok? <==> forall d :: d in order && d in dest ==> dest[d].Dir?
    ensures r.Ok? ==> |r.value.0| == |order|
    ensures r.Ok? ==> forall i :: 0 <= i < |order| ==> r.value.0[i] == CreateDir(order[i])
    ensures r.Ok? ==> forall d :: d in order ==> d in r.value.1 && r.value.1[d].Dir?
    ensures r.Ok? ==> forall k :: k !in order ==>
      (k in r.value.1 <==> k in dest) && (k in dest ==> r.value.1[k] == dest[k])
    decreases |order|
  {
    if |order| == 0 then Ok(([], dest))
    else
      var d := order[0];
      if d in dest && !dest[d].Dir? then Err(OSError("File exists: " + d))
      else
        assert order == [d] + order[1..];
        var rest :- MakeDirs(dest[d := Dir], order[1..]);
        Ok(([CreateDir(d)] + rest.0, rest.1))
  }

  /** Whether the file loop skips `f` (missing with `missingOk`, or a symlink already at the destination). */
  predicate Skipped(f: string, src: Tree, dest: Tree, missingOk: bool) {
    (missingOk && f !in src) || (f in dest && dest[f].Symlink?)
  }

  /** Whether linking `f` fails: the destination is a directory, or the source is missing or a directory. */
  predicate LinkFails(f: string, src: Tree, dest: Tree) {
    (f in dest && dest[f].Dir?) || f !in src || src[f].Dir?
  }

  /** The file loop: each file is linked from the source unless skipped. */
  function LinkFiles(src: Tree, dest: Tree, order: seq<string>, missingOk: bool):
    (r: Result<(seq<MigrationOp>, Tree), Failure>)
    ensures r.Ok? <==> forall f :: f in order ==> Skipped(f, src, dest, missingOk) || !LinkFails(f, src, dest)
    ensures r.Ok? ==> forall i :: 0 <= i < |r.value.0| ==> r.value.0[i].LinkFile? && r.value.0[i].filePath in order
    ensures r.Ok? ==> forall f :: f in order && !Skipped(f, src, dest, missingOk) ==>
      f in src && f in r.value.1 && r.value.1[f] == src[f]
    ensures r.Ok? ==> forall k :: (k !in order || Skipped(k, src, dest, missingOk)) ==>
      (k in r.value.1 <==> k in dest) && (k in dest ==> r.value.1[k] == dest[k])
    decreases |order|
  {
    if |order| == 0 then Ok(([], dest))
    else
      var f := order[0];
      assert order == [f] + order[1..];
      if Skipped(f, src, dest, missingOk) then LinkFiles(src, dest, order[1..], missingOk)
      else if f in dest && dest[f].Dir? then Err(OSError("Is a directory: " + f))
      else if f !in src then Err(OSError("No such file or directory: " + f))
      else if src[f].Dir? then Err(OSError("Is a directory: " + f))
      else
        var dest' := dest[f := src[f]];
        LinkKeepsOutcomes(f, src, dest, missingOk, order[1..]);
        var rest :- LinkFiles(src, dest', order[1..], missingOk);
        LinkStep(f, src, dest, missingOk, order[1..], rest.0, rest.1);
        Ok(([LinkFile(f)] + rest.0, rest.1))
  }

  /** After linking `f`, the remaining files all link exactly when all of `[f] + rest` did before. */
  lemma LinkKeepsOutcomes(f: string, src: Tree, dest: Tree, missingOk: bool, rest: seq<string>)
    requires f in src && !LinkFails(f, src, dest)
    ensures (forall g :: g in rest ==> Skipped(g, src, dest[f := src[f]], missingOk) || !LinkFails(g, src, dest[f := src[f]]))
        <==> (forall g :: g in [f] + rest ==> Skipped(g, src, dest, missingOk) || !LinkFails(g, src, dest))
  {
    var dest' := dest[f := src[f]];
    forall g | g in rest
      ensures Skipped(g, src, dest', missingOk) || !LinkFails(g, src, dest')
          <==> Skipped(g, src, dest, missingOk) || !LinkFails(g, src, dest)
    {
    }
    assert forall g :: g in [f] + rest <==> g == f || g in rest;
  }

  /** Linking `f` and then the files of `rest` leaves what the loop promises for `[f] + rest`. */
  lemma LinkStep(f: string, src: Tree, dest: Tree, missingOk: bool, rest: seq<string>,
                 ops: seq<MigrationOp>, tree: Tree)
    requires f in src && !Skipped(f, src, dest, missingOk) && !LinkFails(f, src, dest)
    requires forall i :: 0 <= i < |ops| ==> ops[i].LinkFile? && ops[i].filePath in rest
    requires forall g :: g in rest && !Skipped(g, src, dest[f := src[f]], missingOk) ==>
      g in src && g in tree && tree[g] == src[g]
    requires forall k :: (k !in rest || Skipped(k, src, dest[f := src[f]], missingOk)) ==>
      (k in tree <==> k in dest[f := src[f]]) && (k in dest[f := src[f]] ==> tree[k] == dest[f := src[f]][k])
    ensures forall i :: 0 <= i < |[LinkFile(f)] + ops| ==>
      ([LinkFile(f)] + ops)[i].LinkFile? && ([LinkFile(f)] + ops)[i].filePath in [f] + rest
    ensures forall g :: g in [f] + rest && !Skipped(g, src, dest, missingOk) ==>
      g in src && g in tree && tree[g] == src[g]
    ensures forall k :: (k !in [f] + rest || Skipped(k, src, dest, missingOk)) ==>
      (k in tree <==> k in dest) && (k in dest ==> tree[k] == dest[k])
  {
    var all := [LinkFile(f)] + ops;
    forall i | 0 <= i < |all| ensures all[i].LinkFile? && all[i].filePath in [f] + rest {
      if i > 0 {
        assert all[i] == ops[i - 1];
      }
    }
  }

  /** Whether the file loop links `f` rather than skipping it. */
  function Unskipped(src: Tree, dest: Tree, missingOk: bool): string -> bool {
    f => !Skipped(f, src, dest, missingOk)
  }

  /** `ops` links the files of `files`, one operation each, in that order. */
  predicate LinkOps(ops: seq<MigrationOp>, files: seq<string>) {
    |ops| == |files| && forall i :: 0 <= i < |files| ==> ops[i] == LinkFile(files[i])
  }

  /** Linking `f` first puts its operation in front. */
  lemma LinkOpsCons(f: string, ops: seq<MigrationOp>, files: seq<string>)
    requires LinkOps(ops, files)
    ensures LinkOps([LinkFile(f)] + ops, [f] + files)
  {
  }

  /** No element repeats. */
  predicate Distinct(s: seq<string>) {
    forall i, j :: 0 <= i < j < |s| ==> s[i] != s[j]
  }

  /** The tail of a list without repeats has none, and does not hold its head. */
  lemma DistinctTail(s: seq<string>)
    requires |s| > 0 && Distinct(s)
    ensures Distinct(s[1..]) && s[0] !in s[1..]
  {
    forall i, j | 0 <= i < j < |s[1..]| ensures s[1..][i] != s[1..][j] {
      assert s[1..][i] == s[i + 1] && s[1..][j] == s[j + 1];
    }
  }

  /**
   * Over a list without repeats, the file loop links exactly the files it
   * does not skip, one operation each, in the order of the list.
   */
  lemma {:induction false} LinkFilesOps(src: Tree, dest: Tree, order: seq<string>, missingOk: bool)
    requires Distinct(order)
    ensures LinkFiles(src, dest, order, missingOk).Ok? ==>
      LinkOps(LinkFiles(src, dest, order, missingOk).value.0, Filter(order, Unskipped(src, dest, missingOk)))
    decreases |order|
  {
    if |order| > 0 && LinkFiles(src, dest, order, missingOk).Ok? {
      var f, rest := order[0], order[1..];
      DistinctTail(order);
      LinkFilesFirst(src, dest, order, missingOk);
      if Skipped(f, src, dest, missingOk) {
        LinkFilesOps(src, dest, rest, missingOk);
      } else {
        var dest' := dest[f := src[f]];
        LinkFilesOps(src, dest', rest, missingOk);
        forall i | 0 <= i < |rest|
          ensures Unskipped(src, dest, missingOk)(rest[i]) == Unskipped(src, dest', missingOk)(rest[i])
        {
          assert rest[i] != f;
        }
        FilterAgree(rest, Unskipped(src, dest, missingOk), Unskipped(src, dest', missingOk));
        LinkOpsCons(f, LinkFiles(src, dest', rest, missingOk).value.0, Filter(rest, Unskipped(src, dest, missingOk)));
      }
    }
  }

  /** One turn of the file loop: a skipped file adds nothing, a linked one adds its operation in front. */
  lemma LinkFilesFirst(src: Tree, dest: Tree, order: seq<string>, missingOk: bool)
    requires |order| > 0 && LinkFiles(src, dest, order, missingOk).Ok?
    ensures var f := order[0];
      var r := LinkFiles(src, dest, order, missingOk);
      var keep := Unskipped(src, dest, missingOk);
      if Skipped(f, src, dest, missingOk) then
        && r == LinkFiles(src, dest, order[1..], missingOk)
        && Filter(order, keep) == Filter(order[1..], keep)
      else
        && f in src
        && var rest := LinkFiles(src, dest[f := src[f]], order[1..], missingOk);
        && rest.Ok? && r.value.0 == [LinkFile(f)] + rest.value.0
        && Filter(order, keep) == [f] + Filter(order[1..], keep)
  {
  }

  /**
   * Whether the file loop gets past `f` once the directory loop has run: it
   * is skipped (missing with `missingOk`, or a symlink at the destination
   * that no listed directory replaced), or it is a non-directory of the
   * source landing where neither a listed nor an existing directory stands.
   */
  predicate FileMigrates(f: string, dirs: set<string>, src: Tree, dest: Tree, missingOk: bool) {
    || (missingOk && f !in src)
    || (f !in dirs && f in dest && dest[f].Symlink?)
    || (f in src && !src[f].Dir? && f !in dirs && !(f in dest && dest[f].Dir?))
  }

  /** When `migrate_files` completes: no listed directory is blocked by a non-directory, and every listed file gets through. */
  predicate MigrationSucceeds(files: set<string>, dirs: set<string>, src: Tree, dest: Tree, missingOk: bool) {
    && (forall d :: d in dirs && d in dest ==> dest[d].Dir?)
    && (forall f :: f in files ==> FileMigrates(f, dirs, src, dest, missingOk))
  }

  /** The two loops' success conditions, stated against the original destination. */
  lemma MigrateOutcome(files: set<string>, dirs: set<string>, src: Tree, dest: Tree, missingOk: bool)
    ensures MigrationSucceeds(files, dirs, src, dest, missingOk) <==>
      && MakeDirs(dest, Sorted(dirs)).Ok?
      && LinkFiles(src, MakeDirs(dest, Sorted(dirs)).value.1, Sorted(files), missingOk).Ok?
  {
    var dirOrder := Sorted(dirs);
    var made := MakeDirs(dest, dirOrder);
    if made.Ok? {
      var tree := made.value.1;
      forall f | f in files
        ensures (Skipped(f, src, tree, missingOk) || !LinkFails(f, src, tree)) <==>
                FileMigrates(f, dirs, src, dest, missingOk)
      {
        FileOutcome(f, dirs, dirOrder, src, dest, tree, missingOk);
      }
      LinkOutcome(files, dirs, Sorted(files), src, dest, tree, missingOk);
    }
  }

  /** Whether the file loop gets past `f`, over the tree the directory loop left, stated against the original destination. */
  lemma FileOutcome(f: string, dirs: set<string>, dirOrder: seq<string>, src: Tree, dest: Tree, tree: Tree, missingOk: bool)
    requires forall x :: x in dirOrder <==> x in dirs
    requires forall d :: d in dirOrder ==> d in tree && tree[d].Dir?
    requires forall k :: k !in dirOrder ==> (k in tree <==> k in dest) && (k in dest ==> tree[k] == dest[k])
    ensures (Skipped(f, src, tree, missingOk) || !LinkFails(f, src, tree)) <==>
            FileMigrates(f, dirs, src, dest, missingOk)
  {
    assert f in dirOrder <==> f in dirs;
  }

  /** The file loop's success condition over a sorted file list is the condition over the set. */
  lemma LinkOutcome(files: set<string>, dirs: set<string>, fileOrder: seq<string>, src: Tree, dest: Tree, tree: Tree,
                    missingOk: bool)
    requires forall x :: x in fileOrder <==> x in files
    requires forall f :: f in files ==>
      ((Skipped(f, src, tree, missingOk) || !LinkFails(f, src, tree)) <==> FileMigrates(f, dirs, src, dest, missingOk))
    requires forall d :: d in dirs && d in dest ==> dest[d].Dir?
    ensures LinkFiles(src, tree, fileOrder, missingOk).Ok? <==> MigrationSucceeds(files, dirs, src, dest, missingOk)
  {
  }

  /**
   * `migrate_files`: every listed directory is created, in sorted order,
   * before any file is handled; then each listed file, in sorted order, is
   * skipped or linked over whatever the destination held.
   */
  function MigrateFiles(files: set<string>, dirs: set<string>, src: Tree, dest: Tree, missingOk: bool):
    (r: Result<(seq<MigrationOp>, Tree), Failure>)
    ensures r.Ok? <==> MigrationSucceeds(files, dirs, src, dest, missingOk)
    ensures r.Ok? ==>
      && |r.value.0| >= |dirs|
      && (forall i :: 0 <= i < |dirs| ==> r.value.0[i] == CreateDir(Sorted(dirs)[i]))
      && (forall i :: |dirs| <= i < |r.value.0| ==> r.value.0[i].LinkFile? && r.value.0[i].filePath in files)
    ensures r.Ok? ==> forall d :: d in dirs && d !in files ==> d in r.value.1 && r.value.1[d].Dir?
    ensures r.Ok? ==> forall f :: f in files && f in src && !(f in dest && dest[f].Symlink?) ==>
      f in r.value.1 && r.value.1[f] == src[f]
    ensures r.Ok? ==> forall f :: f in dest && dest[f].Symlink? ==> f in r.value.1 && r.value.1[f] == dest[f]
    ensures r.Ok? ==> forall k :: k !in files && k !in dirs ==>
      (k in r.value.1 <==> k in dest) && (k in dest ==> r.value.1[k] == dest[k])
    ensures r.Ok? && missingOk ==> forall f :: f in files && f !in src && f !in dirs ==>
      (f in r.value.1 <==> f in dest) && (f in dest ==> r.value.1[f] == dest[f])
  {
    var madeDirs := MakeDirs(dest, Sorted(dirs));
    if madeDirs.Err? then
      MigrateOutcome(files, dirs, src, dest, missingOk);
      Err(madeDirs.error)
    else
      var made := madeDirs.value;
      var linkedFiles := LinkFiles(src, made.1, Sorted(files), missingOk);
      if linkedFiles.Err? then
        MigrateOutcome(files, dirs, src, dest, missingOk);
        Err(linkedFiles.error)
      else
        var linked := linkedFiles.value;
        MigrateOpsOrder(dirs, files, Sorted(dirs), Sorted(files), made.0, linked.0);
        MigrateTreeContents(files, dirs, src, dest, missingOk, Sorted(dirs), Sorted(files), made.1, linked.1);
        MigrateOutcome(files, dirs, src, dest, missingOk);
        Ok((made.0 + linked.0, linked.1))
  }

  /**
   * After its directory operations, `migrate_files` links each listed file
   * it does not skip exactly once, in sorted order.
   */
  lemma MigrateLinksSorted(files: set<string>, dirs: set<string>, src: Tree, dest: Tree, missingOk: bool)
    ensures var r := MigrateFiles(files, dirs, src, dest, missingOk);
      r.Ok? ==>
        && (forall i, j :: |dirs| <= i < j < |r.value.0| ==> LexLt(r.value.0[i].filePath, r.value.0[j].filePath))
        && (forall f :: LinkFile(f) in r.value.0[|dirs|..] <==> f in files && !Skipped(f, src, dest, missingOk))
  {
    var r := MigrateFiles(files, dirs, src, dest, missingOk);
    if r.Ok? {
      var made := MakeDirs(dest, Sorted(dirs)).value;
      var fileOrder := Sorted(files);
      var linked := LinkFiles(src, made.1, fileOrder, missingOk).value;
      assert r.value.0 == made.0 + linked.0;
      assert r.value.0[|dirs|..] == linked.0;
      assert Distinct(fileOrder);
      LinkFilesOps(src, made.1, fileOrder, missingOk);
      var keep := Unskipped(src, made.1, missingOk);
      FilterKeepsSorted(fileOrder, keep);
      forall f | f in files
        ensures Skipped(f, src, made.1, missingOk) == Skipped(f, src, dest, missingOk)
      {
        assert f in Sorted(dirs) <==> f in dirs;
      }
      LinkedSortedAndExact(linked.0, Filter(fileOrder, keep), fileOrder, keep);
    }
  }

  /** Operations that link a sorted selection are sorted, and link exactly what was selected. */
  lemma LinkedSortedAndExact(ops: seq<MigrationOp>, linked: seq<string>, order: seq<string>, keep: string -> bool)
    requires LinkOps(ops, linked) && StrictlySorted(linked) && linked == Filter(order, keep)
    ensures forall i, j :: 0 <= i < j < |ops| ==> LexLt(ops[i].filePath, ops[j].filePath)
    ensures forall f :: LinkFile(f) in ops <==> f in order && keep(f)
  {
    forall f | f in order && keep(f)
      ensures LinkFile(f) in ops
    {
      var k :| 0 <= k < |order| && order[k] == f;
      var i :| 0 <= i < |linked| && linked[i] == f;
      assert ops[i] == LinkFile(f);
    }
  }

  /** The directory operations come first, in directory order, and only file links follow. */
  lemma MigrateOpsOrder(dirs: set<string>, files: set<string>, dirOrder: seq<string>, fileOrder: seq<string>,
                        dirOps: seq<MigrationOp>, fileOps: seq<MigrationOp>)
    requires |dirOrder| == |dirs| && (forall x :: x in fileOrder <==> x in files)
    requires |dirOps| == |dirOrder| && forall i :: 0 <= i < |dirOrder| ==> dirOps[i] == CreateDir(dirOrder[i])
    requires forall i :: 0 <= i < |fileOps| ==> fileOps[i].LinkFile? && fileOps[i].filePath in fileOrder
    ensures var ops := dirOps + fileOps;
      && |ops| >= |dirs|
      && (forall i :: 0 <= i < |dirs| ==> ops[i] == CreateDir(dirOrder[i]))
      && (forall i :: |dirs| <= i < |ops| ==> ops[i].LinkFile? && ops[i].filePath in files)
  {
    var ops := dirOps + fileOps;
    forall i | |dirs| <= i < |ops| ensures ops[i].LinkFile? && ops[i].filePath in files {
      assert ops[i] == fileOps[i - |dirs|];
    }
  }

  /**
   * What the tree holds once the directory loop (over `dirOrder`) produced
   * `made` from `dest` and the file loop (over `fileOrder`) produced `linked`
   * from `made`.
   */
  lemma MigrateTreeContents(files: set<string>, dirs: set<string>, src: Tree, dest: Tree, missingOk: bool,
                            dirOrder: seq<string>, fileOrder: seq<string>, made: Tree, linked: Tree)
    requires (forall x :: x in dirOrder <==> x in dirs) && (forall x :: x in fileOrder <==> x in files)
    requires forall d :: d in dirOrder && d in dest ==> dest[d].Dir?
    requires forall d :: d in dirOrder ==> d in made && made[d].Dir?
    requires forall k :: k !in dirOrder ==> (k in made <==> k in dest) && (k in dest ==> made[k] == dest[k])
    requires forall f :: f in fileOrder && !Skipped(f, src, made, missingOk) ==>
      f in src && f in linked && linked[f] == src[f]
    requires forall k :: (k !in fileOrder || Skipped(k, src, made, missingOk)) ==>
      (k in linked <==> k in made) && (k in made ==> linked[k] == made[k])
    ensures forall d :: d in dirs && d !in files ==> d in linked && linked[d].Dir?
    ensures forall f :: f in files && f in src && !(f in dest && dest[f].Symlink?) ==>
      f in linked && linked[f] == src[f]
    ensures forall f :: f in dest && dest[f].Symlink? ==> f in linked && linked[f] == dest[f]
    ensures forall k :: k !in files && k !in dirs ==>
      (k in linked <==> k in dest) && (k in dest ==> linked[k] == dest[k])
    ensures missingOk ==> forall f :: f in files && f !in src && f !in dirs ==>
      (f in linked <==> f in dest) && (f in dest ==> linked[f] == dest[f])
  {
  }

  /** The last migration wins: a file staged earlier is replaced by the newly installed one. */
  lemma MigrateOverwrites(name: string, staged: string, installed: string)
    ensures var r := MigrateFiles({name}, {}, map[name := File(installed)], map[name := File(staged)], false);
      r.Ok? && r.value.1 == map[name := File(installed)]
  {
    var r := MigrateFiles({name}, {}, map[name := File(installed)], map[name := File(staged)], false);
    assert Sorted({name}) == [name];
    assert r.Ok?;
    assert r.value.1.Keys == {name};
  }

  // ---------------------------------------------------------------------
  // _clean_migrated_files

  /** A directory is empty when no entry lies beneath it. */
  predicate EmptyDir(tree: Tree, d: string) {
    forall k :: k in tree ==> !Under(k, d)
  }

  /** The directory loop: an empty directory is removed; a missing one is skipped. */
  function CleanDirs(tree: Tree, order: seq<string>): (r: Result<Tree, Failure>)
    ensures r.Ok? <==> forall d :: d in order && d in tree ==> tree[d].Dir?
    ensures r.Ok? ==> forall k :: k in r.value ==> k in tree && r.value[k] == tree[k]
    ensures r.Ok? ==> forall k :: k in tree && k !in r.value ==> k in order && tree[k].Dir?
    ensures r.Ok? ==> forall d, k :: d in tree && d !in r.value && k in r.value ==> !Under(k, d)
    decreases |order|
  {
    if |order| == 0 then Ok(tree)
    else
      var d := order[0];
      assert order == [d] + order[1..];
      if d !in tree then CleanDirs(tree, order[1..])
      else if !tree[d].Dir? then Err(OSError("Not a directory: " + d))
      else if EmptyDir(tree, d) then CleanDirs(tree - {d}, order[1..])
      else CleanDirs(tree, order[1..])
  }

  /**
   * The file loop of `_clean_migrated_files`, once no listed file is a
   * directory: each file in turn is unlinked, and a missing one is skipped.
   */
  function UnlinkEach(tree: Tree, order: seq<string>): (r: Tree)
    ensures forall k :: k in r <==> k in tree && k !in order
    ensures forall k :: k in r ==> r[k] == tree[k]
    decreases |order|
  {
    if |order| == 0 then tree
    else
      var unlinked := if order[0] in tree then tree - {order[0]} else tree;
      UnlinkEach(unlinked, order[1..])
  }

  /** The tree without the listed files. */
  function RemoveFiles(tree: Tree, files: set<string>): Tree {
    map k | k in tree && k !in files :: tree[k]
  }

  /** Unlinking the files of a set one by one, in whatever order the set yields them, removes exactly that set. */
  lemma UnlinkRemovesListed(tree: Tree, order: seq<string>, files: set<string>)
    requires forall k :: k in order <==> k in files
    ensures UnlinkEach(tree, order) == RemoveFiles(tree, files)
  {
    var r := UnlinkEach(tree, order);
    assert r.Keys == RemoveFiles(tree, files).Keys;
  }

  /**
   * `_clean_migrated_files`: removes the listed files (a missing one is
   * skipped, a directory is an error), then each listed directory that is
   * empty when examined, children before parents.
   */
  function CleanMigratedFiles(files: set<string>, dirs: set<string>, tree: Tree): (r: Result<Tree, Failure>)
    ensures r.Ok? <==>
      (forall f :: f in files && f in tree ==> !tree[f].Dir?)
      && (forall d :: d in dirs && d in tree && d !in files ==> tree[d].Dir?)
    ensures r.Ok? ==> forall k :: k in r.value ==> k in tree && r.value[k] == tree[k]
    ensures r.Ok? ==> forall k :: k in tree && k !in r.value ==> k in files || (k in dirs && tree[k].Dir?)
    ensures r.Ok? ==> forall f :: f in files ==> f !in r.value
  {
    var listedDirs := set f | f in files && f in tree && tree[f].Dir?;
    if listedDirs != {} then
      var f := MinOf(listedDirs);
      assert f in files && f in tree && tree[f].Dir?;
      Err(OSError("Is a directory: " + f))
    else
      assert forall f :: f in files && f in tree ==> f !in listedDirs;
      CleanDirsAfterFiles(files, dirs, tree)
  }

  /** The directory loop of `_clean_migrated_files`, run once the listed files are gone. */
  function CleanDirsAfterFiles(files: set<string>, dirs: set<string>, tree: Tree): (r: Result<Tree, Failure>)
    ensures r.Ok? <==> forall d :: d in dirs && d in tree && d !in files ==> tree[d].Dir?
    ensures r.Ok? ==> forall k :: k in r.value ==> k in tree && r.value[k] == tree[k]
    ensures r.Ok? ==> forall k :: k in tree && k !in r.value ==> k in files || (k in dirs && tree[k].Dir?)
    ensures r.Ok? ==> forall f :: f in files ==> f !in r.value
  {
    var t := RemoveFiles(tree, files);
    var order := Reverse(Sorted(dirs));
    ReverseSortedDecreasing(dirs);
    CleanDirs(t, order)
  }

  /** `sorted(dirs, reverse=True)` lists every directory after all paths beneath it. */
  predicate Decreasing(s: seq<string>) {
    forall i, j :: 0 <= i < j < |s| ==> LexLt(s[j], s[i])
  }

  lemma ReverseSortedDecreasing(dirs: set<string>)
    ensures Decreasing(Reverse(Sorted(dirs)))
    ensures forall d :: d in Reverse(Sorted(dirs)) <==> d in dirs
  {
    var s := Sorted(dirs);
    ReverseDecreasing(s);
    ReverseSameElements(s);
  }

  lemma ReverseDecreasing(s: seq<string>)
    requires StrictlySorted(s)
    ensures Decreasing(Reverse(s))
  {
    var r := Reverse(s);
    forall i, j | 0 <= i < j < |r|
      ensures LexLt(r[j], r[i])
    {
      var a, b := |s| - 1 - j, |s| - 1 - i;
      assert r[i] == s[b] && r[j] == s[a];
      assert LexLt(s[a], s[b]);
    }
  }

  lemma ReverseSameElements(s: seq<string>)
    ensures forall d :: d in Reverse(s) <==> d in s
  {
    var r := Reverse(s);
    forall d
      ensures d in r <==> d in s
    {
      if d in r {
        var i :| 0 <= i < |r| && r[i] == d;
        assert s[|s| - 1 - i] == d;
      }
      if d in s {
        var i :| 0 <= i < |s| && s[i] == d;
        assert r[|s| - 1 - i] == d;
      }
    }
  }

  /** Every entry beneath `d` is itself a listed directory. */
  predicate FullyListed(tree: Tree, dirs: set<string>, d: string) {
    forall k :: k in tree && Under(k, d) ==> k in dirs && tree[k].Dir?
  }

  lemma FullyListedBeneath(tree: Tree, dirs: set<string>, d: string, k: string)
    requires FullyListed(tree, dirs, d) && Under(k, d)
    ensures FullyListed(tree, dirs, k)
  {
    forall m | m in tree && Under(m, k)
      ensures m in dirs && tree[m].Dir?
    {
      UnderTransitive(m, k, d);
    }
  }

  /**
   * Visiting directories in decreasing order removes every listed directory
   * whose whole contents are listed directories: by the time a directory is
   * examined, everything beneath it has already been removed.
   */
  lemma {:induction false} CleanDirsComplete(tree0: Tree, dirs: set<string>, full: seq<string>, i: nat, tree: Tree)
    requires Decreasing(full) && i <= |full|
    requires forall x :: x in full <==> x in dirs
    requires forall d :: d in dirs && d in tree0 ==> tree0[d].Dir?
    requires forall k :: k in tree ==> k in tree0 && tree[k] == tree0[k]
    requires forall j :: 0 <= j < i && FullyListed(tree0, dirs, full[j]) ==> full[j] !in tree
    ensures CleanDirs(tree, full[i..]).Ok?
    ensures forall d :: d in dirs && FullyListed(tree0, dirs, d) ==> d !in CleanDirs(tree, full[i..]).value
    decreases |full| - i
  {
    if i == |full| {
      forall d | d in dirs && FullyListed(tree0, dirs, d)
        ensures d !in tree
      {
        var j :| 0 <= j < |full| && full[j] == d;
      }
    } else {
      var d := full[i];
      assert full[i..][0] == d && full[i..][1..] == full[i + 1..];
      if FullyListed(tree0, dirs, d) && d in tree {
        forall k | k in tree
          ensures !Under(k, d)
        {
          if Under(k, d) {
            var j :| 0 <= j < |full| && full[j] == k;
            UnderSortsAfter(k, d);
            if j >= i {
              if j > i {
                LexAntisymmetric(d, k);
              }
              assert false;
            }
            FullyListedBeneath(tree0, dirs, d, k);
          }
        }
        assert EmptyDir(tree, d);
      }
      var tree' := if d in tree && EmptyDir(tree, d) then tree - {d} else tree;
      CleanDirsComplete(tree0, dirs, full, i + 1, tree');
    }
  }

  /**
   * A listed directory whose contents are all listed files or listed
   * directories is removed, however deeply they nest.
   */
  lemma CleanMigratedFilesRemovesListedTrees(files: set<string>, dirs: set<string>, tree: Tree, d: string)
    requires forall f :: f in files && f in tree ==> !tree[f].Dir?
    requires forall x :: x in dirs && x in tree && x !in files ==> tree[x].Dir?
    requires d in dirs
    requires forall k :: k in tree && Under(k, d) ==> k in files || (k in dirs && tree[k].Dir?)
    ensures CleanMigratedFiles(files, dirs, tree).Ok?
    ensures d !in CleanMigratedFiles(files, dirs, tree).value
  {
    var t := RemoveFiles(tree, files);
    var order := Reverse(Sorted(dirs));
    ReverseSortedDecreasing(dirs);
    assert CleanMigratedFiles(files, dirs, tree) == CleanDirs(t, order);
    assert order[0..] == order;
    assert FullyListed(t, dirs, d);
    CleanDirsComplete(t, dirs, order, 0, t);
  }

  // ---------------------------------------------------------------------
  // clean_shared_area

  /** Whether some other part with a state lists `x` among its files (or, with `dir`, its directories). */
  predicate ListedByOther(partStates: map<string, Option<StepState>>, partName: string, x: string, dir: bool) {
    exists n :: n in partStates && OtherLists(partStates, partName, n, x, dir)
  }

  /** Whether part `n`, not `partName` itself, has a state that lists `x`. */
  predicate OtherLists(partStates: map<string, Option<StepState>>, partName: string, n: string, x: string, dir: bool) {
    n in partStates && n != partName && partStates[n].Some?
    && (if dir then x in partStates[n].value.directories else x in partStates[n].value.files)
  }

  /**
   * The subtraction loop of `clean_shared_area` over the parts `names`, in
   * that order: each other part with a state takes its entries out of `xs`.
   */
  function SubtractOthers(partStates: map<string, Option<StepState>>, partName: string, names: seq<string>,
                          xs: set<string>, dir: bool): (r: set<string>)
    ensures forall x :: x in r <==>
      x in xs && forall i :: 0 <= i < |names| ==> !OtherLists(partStates, partName, names[i], x, dir)
    decreases |names|
  {
    if |names| == 0 then xs
    else
      var n := names[0];
      var left := if n in partStates && n != partName && partStates[n].Some? then
          xs - (if dir then partStates[n].value.directories else partStates[n].value.files)
        else xs;
      SubtractOthers(partStates, partName, names[1..], left, dir)
  }

  /**
   * The members of `xs` left once the loop has visited every part: those no
   * other part with a state lists. Subtraction commutes, so the order of the
   * mapping's entries does not matter.
   */
  function Unshared(partStates: map<string, Option<StepState>>, partName: string, xs: set<string>, dir: bool):
    set<string>
  {
    set x | x in xs && !ListedByOther(partStates, partName, x, dir)
  }

  /**
   * A loop that visits every part of the mapping, in any order, leaves
   * exactly the entries of `xs` that no other part with a state lists.
   */
  lemma SubtractEveryOther(partStates: map<string, Option<StepState>>, partName: string, names: seq<string>,
                           xs: set<string>, dir: bool)
    requires forall n :: n in partStates ==> n in names
    ensures SubtractOthers(partStates, partName, names, xs, dir) == Unshared(partStates, partName, xs, dir)
  {
    var r := SubtractOthers(partStates, partName, names, xs, dir);
    forall x | x in xs && ListedByOther(partStates, partName, x, dir)
      ensures x !in r
    {
      var n :| n in partStates && OtherLists(partStates, partName, n, x, dir);
      var i :| 0 <= i < |names| && names[i] == n;
    }
  }

  /**
   * `clean_shared_area`: nothing happens for a part without an entry; a part
   * whose entry holds no state fails on reading it. Otherwise the part's
   * files and directories that no other part lists are cleaned, and the
   * part's own state keeps only those (the source narrows that set in place).
   */
  function CleanSharedArea(partName: string, partStates: map<string, Option<StepState>>, tree: Tree):
    (r: Result<(Tree, map<string, Option<StepState>>), Failure>)
    ensures partName !in partStates ==> r == Ok((tree, partStates))
    ensures partName in partStates && partStates[partName].None? ==> r.Err? && r.error.AttributeError?
    ensures r.Ok? ==> forall k :: k in r.value.0 ==> k in tree && r.value.0[k] == tree[k]
    ensures r.Ok? && partName in partStates ==> forall k :: k in tree && k !in r.value.0 ==>
      || (k in partStates[partName].value.files && !ListedByOther(partStates, partName, k, false))
      || (k in partStates[partName].value.directories && !ListedByOther(partStates, partName, k, true))
    ensures r.Ok? ==> r.value.1.Keys == partStates.Keys
    ensures r.Ok? ==> forall n :: n in partStates && n != partName ==> r.value.1[n] == partStates[n]
    ensures r.Ok? && partName in partStates ==>
      var own := partStates[partName].value;
      r.value.1[partName] == Some(own.(files := Unshared(partStates, partName, own.files, false),
                                       directories := Unshared(partStates, partName, own.directories, true)))
  {
    if partName !in partStates then Ok((tree, partStates))
    else match partStates[partName]
      case None => Err(AttributeError("'NoneType' object has no attribute 'files'"))
      case Some(state) =>
        var files := Unshared(partStates, partName, state.files, false);
        var dirs := Unshared(partStates, partName, state.directories, true);
        var cleaned :- CleanMigratedFiles(files, dirs, tree);
        Ok((cleaned, partStates[partName := Some(state.(files := files, directories := dirs))]))
  }

  function StageState(files: set<string>): StepState {
    StepState(Steps.STAGE, map[], map[], files, {})
  }

  /** The stage states of the shared-area unit test: both parts stage `foo.txt`, the second also `bar.txt`. */
  function ScenarioStates(): map<string, Option<StepState>> {
    map["p1" := Some(StageState({"foo.txt"})), "p2" := Some(StageState({"foo.txt", "bar.txt"}))]
  }

  /** The shared stage area of the unit test. */
  function ScenarioTree(): Tree {
    map["foo.txt" := File("content"), "bar.txt" := File("other content")]
  }

  /** Cleaning the first part removes nothing, and its state is narrowed to nothing. */
  lemma ScenarioFirstClean()
    ensures var first := CleanSharedArea("p1", ScenarioStates(), ScenarioTree());
      && first.Ok? && first.value.0 == ScenarioTree()
      && first.value.1 == ScenarioStates()["p1" := Some(StageState({}))]
  {
    var states := ScenarioStates();
    assert ListedByOther(states, "p1", "foo.txt", false) by {
      assert "p2" in states && OtherLists(states, "p1", "p2", "foo.txt", false);
    }
    var own := states["p1"].value;
    assert own == StageState({"foo.txt"});
    assert Unshared(states, "p1", own.files, false) == {};
    assert Unshared(states, "p1", own.directories, true) == {};
    assert own.(files := {}, directories := {}) == StageState({});
    CleanAllShared("p1", states, ScenarioTree());
    var first := CleanSharedArea("p1", states, ScenarioTree());
    assert first == Ok((ScenarioTree(), states["p1" := Some(StageState({}))]));
  }

  /** A part all of whose entries another part also lists removes nothing, and keeps nothing in its state. */
  lemma CleanAllShared(partName: string, partStates: map<string, Option<StepState>>, tree: Tree)
    requires partName in partStates && partStates[partName].Some?
    requires Unshared(partStates, partName, partStates[partName].value.files, false) == {}
    requires Unshared(partStates, partName, partStates[partName].value.directories, true) == {}
    ensures CleanSharedArea(partName, partStates, tree)
      == Ok((tree, partStates[partName := Some(partStates[partName].value.(files := {}, directories := {}))]))
  {
    CleanNothing(tree);
  }

  /** Cleaning no files and no directories leaves the tree as it is. */
  lemma CleanNothing(tree: Tree)
    ensures CleanMigratedFiles({}, {}, tree) == Ok(tree)
  {
    var r := CleanMigratedFiles({}, {}, tree);
    assert r.Ok?;
    forall k | k in tree
      ensures k in r.value
    {
    }
    assert r.value.Keys == tree.Keys;
    assert r.value == tree;
  }

  /** Cleaning the second part against the narrowed states removes both files. */
  lemma ScenarioSecondClean()
    ensures var second := CleanSharedArea("p2", ScenarioStates()["p1" := Some(StageState({}))], ScenarioTree());
      second.Ok? && second.value.0 == map[]
  {
    var states2 := ScenarioStates()["p1" := Some(StageState({}))];
    assert !ListedByOther(states2, "p2", "foo.txt", false);
    assert !ListedByOther(states2, "p2", "bar.txt", false);
    assert Unshared(states2, "p2", {"foo.txt", "bar.txt"}, false) == {"foo.txt", "bar.txt"};
    var second := CleanSharedArea("p2", states2, ScenarioTree());
    assert second.Ok?;
    assert second.value.0.Keys == {};
  }

  /**
   * Two parts stage `foo.txt`; only the second also stages `bar.txt`.
   * Cleaning the first leaves both files; cleaning the second afterwards,
   * against the states the first cleaning narrowed, removes both.
   */
  lemma CleanSharedAreaScenario()
    ensures var first := CleanSharedArea("p1", ScenarioStates(), ScenarioTree());
      && first.Ok? && first.value.0 == ScenarioTree()
      && var second := CleanSharedArea("p2", first.value.1, first.value.0);
      && second.Ok? && second.value.0 == map[]
  {
    ScenarioFirstClean();
    ScenarioSecondClean();
  }
}

=== FILE: ordering.dfy ===
/**
 * Python's ordering of `str` values (lexicographic by code point) and
 * `sorted()` over a set of strings, which the shared-area migration and
 * cleaning rely on to visit paths in a fixed order.
 */
module Ordering {
  import opened Common

  /** `a <= b` for Python strings. */
  predicate LexLe(a: string, b: string)
    decreases |a|
  {
    |a| == 0 || (|b| > 0 && (a[0] < b[0] || (a[0] == b[0] && LexLe(a[1..], b[1..]))))
  }

  predicate LexLt(a: string, b: string) {
    LexLe(a, b) && a != b
  }

  lemma {:induction false} LexReflexive(a: string)
    ensures LexLe(a, a)
    decreases |a|
  {
    if |a| > 0 {
      LexReflexive(a[1..]);
    }
  }

  lemma {:induction false} LexTotal(a: string, b: string)
    ensures LexLe(a, b) || LexLe(b, a)
    decreases |a|
  {
    if |a| > 0 && |b| > 0 && a[0] == b[0] {
      LexTotal(a[1..], b[1..]);
    }
  }

  lemma {:induction false} LexAntisymmetric(a: string, b: string)
    requires LexLe(a, b) && LexLe(b, a)
    ensures a == b
    decreases |a|
  {
    if |a| > 0 {
      LexAntisymmetric(a[1..], b[1..]);
      assert a == [a[0]] + a[1..];
      assert b == [b[0]] + b[1..];
    }
  }

  lemma {:induction false} LexTransitive(a: string, b: string, c: string)
    requires LexLe(a, b) && LexLe(b, c)
    ensures LexLe(a, c)
    decreases |a|
  {
    if |a| > 0 && a[0] == b[0] && b[0] == c[0] {
      LexTransitive(a[1..], b[1..], c[1..]);
    }
  }

  /** A string sorts no later than any extension of it: parents before children. */
  lemma {:induction false} PrefixSortsFirst(a: string, rest: string)
    ensures LexLe(a, a + rest)
    ensures |rest| > 0 ==> LexLt(a, a + rest)
    decreases |a|
  {
    if |a| > 0 {
      assert (a + rest)[1..] == a[1..] + rest;
      PrefixSortsFirst(a[1..], rest);
    }
  }

  lemma LexAntisymmetricAll()
    ensures forall a, b :: LexLe(a, b) && LexLe(b, a) ==> a == b
  {
    forall a, b | LexLe(a, b) && LexLe(b, a)
      ensures a == b
    {
      LexAntisymmetric(a, b);
    }
  }

  ghost predicate IsLeast(m: string, s: set<string>) {
    m in s && forall y :: y in s ==> LexLe(m, y)
  }

  lemma {:induction false} LeastExists(s: set<string>)
    requires s != {}
    ensures exists m :: IsLeast(m, s)
    decreases |s|
  {
    var x :| x in s;
    if s == {x} {
      LexReflexive(x);
      assert IsLeast(x, s);
    } else {
      LeastExists(s - {x});
      var m :| IsLeast(m, s - {x});
      LexTotal(x, m);
      if LexLe(x, m) {
        LexReflexive(x);
        forall y | y in s
          ensures LexLe(x, y)
        {
          if y != x {
            LexTransitive(x, m, y);
          }
        }
        assert IsLeast(x, s);
      } else {
        assert LexLe(m, x);
        assert IsLeast(m, s);
      }
    }
  }

  /** The least string of a non-empty set. */
  function MinOf(s: set<string>): (m: string)
    requires s != {}
    ensures m in s
    ensures forall y :: y in s ==> LexLe(m, y)
  {
    LeastExists(s);
    LexAntisymmetricAll();
    var m :| m in s && forall y :: y in s ==> LexLe(m, y);
    m
  }

  /** `sorted(s)`: the elements of `s`, each once, in ascending order. */
  function Sorted(s: set<string>): (r: seq<string>)
    ensures |r| == |s|
    ensures forall x :: x in r <==> x in s
    ensures StrictlySorted(r)
    decreases |s|
  {
    if s == {} then []
    else
      var m := MinOf(s);
      [m] + Sorted(s - {m})
  }

  predicate StrictlySorted(r: seq<string>) {
    forall i, j :: 0 <= i < j < |r| ==> LexLt(r[i], r[j])
  }

  /** Filtering a sorted sequence leaves it sorted. */
  lemma {:induction false} FilterKeepsSorted(s: seq<string>, keep: string -> bool)
    requires StrictlySorted(s)
    ensures StrictlySorted(Filter(s, keep))
    decreases |s|
  {
    if |s| > 0 {
      FilterKeepsSorted(s[1..], keep);
      var rest := Filter(s[1..], keep);
      forall j | 0 <= j < |rest|
        ensures LexLt(s[0], rest[j])
      {
        var k :| 0 <= k < |s[1..]| && s[1..][k] == rest[j];
        assert s[k + 1] == rest[j];
      }
      if keep(s[0]) {
        SortedCons(s[0], rest);
      }
    }
  }

  /** A head below every element of a sorted tail gives a sorted sequence. */
  lemma SortedCons(x: string, rest: seq<string>)
    requires StrictlySorted(rest) && forall j :: 0 <= j < |rest| ==> LexLt(x, rest[j])
    ensures StrictlySorted([x] + rest)
  {
    var t := [x] + rest;
    forall i, j | 0 <= i < j < |t|
      ensures LexLt(t[i], t[j])
    {
      assert t[j] == rest[j - 1];
      if i > 0 {
        assert t[i] == rest[i - 1];
      }
    }
  }
}

=== FILE: os_utils.dfy ===
/**
 * The os-release reader: the `KEY=value` table built from the file's lines,
 * the accessors that raise their own error when a key is missing, the
 * codename fallback for old Ubuntu releases, and the dumb-terminal test.
 */
module OsUtils {
  import opened Common
  import opened Errors

  /** `str.isspace()` for one character. */
  predicate IsPyWhitespace(c: char) {
    var n := c as int;
    || (9 <= n <= 13) || (28 <= n <= 32) || n == 0x85 || n == 0xA0 || n == 0x1680
    || (0x2000 <= n <= 0x200A) || n == 0x2028 || n == 0x2029 || n == 0x202F || n == 0x205F || n == 0x3000
  }

  /** `s.rstrip()`: the longest prefix that does not end in whitespace. */
  function RStrip(s: string): (r: string)
    ensures StartsWith(s, r)
    ensures forall k :: |r| <= k < |s| ==> IsPyWhitespace(s[k])
    ensures |r| == 0 || !IsPyWhitespace(r[|r| - 1])
    decreases |s|
  {
    if |s| > 0 && IsPyWhitespace(s[|s| - 1]) then RStrip(s[..|s| - 1]) else s
  }

  /** `s.lstrip(c)` for one character. */
  function LStripChar(s: string, c: char): (r: string)
    ensures EndsWith(s, r)
    ensures forall k :: 0 <= k < |s| - |r| ==> s[k] == c
    ensures |r| == 0 || r[0] != c
    decreases |s|
  {
    if |s| > 0 && s[0] == c then LStripChar(s[1..], c) else s
  }

  /** `s.rstrip(c)` for one character. */
  function RStripChar(s: string, c: char): (r: string)
    ensures StartsWith(s, r)
    ensures forall k :: |r| <= k < |s| ==> s[k] == c
    ensures |r| == 0 || r[|r| - 1] != c
    decreases |s|
  {
    if |s| > 0 && s[|s| - 1] == c then RStripChar(s[..|s| - 1], c) else s
  }

  /** `r` sits at offset `i` of `s`, with only `c` before and after it. */
  predicate StrippedAt(s: string, c: char, i: nat, r: string) {
    && i + |r| <= |s| && s[i..i + |r|] == r
    && (forall k :: 0 <= k < i ==> s[k] == c)
    && (forall k :: i + |r| <= k < |s| ==> s[k] == c)
  }

  /** `s.strip(c)`: the middle of `s` once every leading and trailing `c` is removed. */
  function StripChar(s: string, c: char): (r: string)
    ensures exists i :: StrippedAt(s, c, i, r)
    ensures |r| == 0 || (r[0] != c && r[|r| - 1] != c)
  {
    var left := LStripChar(s, c);
    var r := RStripChar(left, c);
    StripCharWindow(s, c, left, r);
    assert |r| > 0 ==> r[0] == left[0];
    r
  }

  /** Stripping from the left and then from the right leaves a window of `s` with only `c` around it. */
  lemma StripCharWindow(s: string, c: char, left: string, r: string)
    requires EndsWith(s, left) && forall k :: 0 <= k < |s| - |left| ==> s[k] == c
    requires StartsWith(left, r) && forall k :: |r| <= k < |left| ==> left[k] == c
    ensures StrippedAt(s, c, |s| - |left|, r)
  {
    var i := |s| - |left|;
    assert s[i..] == left;
    assert s[i..i + |r|] == left[..|r|];
    forall k | i + |r| <= k < |s| ensures s[k] == c {
      assert s[k] == s[i..][k - i];
    }
  }

  /** One line of the file: a `key=value` entry when the right-stripped line has exactly one `=`. */
  function ParseLine(line: string): (r: Option<(string, string)>)
    ensures r.Some? <==> |Split(RStrip(line), '=')| == 2
    ensures r.Some? ==> '=' !in r.value.0 && r.value.0 == Split(RStrip(line), '=')[0]
    ensures r.Some? ==> r.value.1 == StripChar(Split(RStrip(line), '=')[1], '"')
  {
    var entry := Split(RStrip(line), '=');
    if |entry| == 2 then Some((entry[0], StripChar(entry[1], '"'))) else None
  }

  /** The table built from the lines in order; a later entry for a key replaces an earlier one. */
  function ParseLines(lines: seq<string>): (r: map<string, string>)
    ensures forall k :: k in r <==> exists i :: 0 <= i < |lines| && ParseLine(lines[i]).Some? && ParseLine(lines[i]).value.0 == k
    decreases |lines|
  {
    if |lines| == 0 then map[]
    else
      var init := ParseLines(lines[..|lines| - 1]);
      assert forall i :: 0 <= i < |lines| - 1 ==> lines[..|lines| - 1][i] == lines[i];
      match ParseLine(lines[|lines| - 1])
      case None => init
      case Some((key, value)) => init[key := value]
  }

  /** The value a key gets is the one from the last line that defines it. */
  lemma {:induction false} LastEntryWins(lines: seq<string>, key: string, i: nat)
    requires i < |lines| && ParseLine(lines[i]).Some? && ParseLine(lines[i]).value.0 == key
    requires forall j :: i < j < |lines| ==> ParseLine(lines[j]).None? || ParseLine(lines[j]).value.0 != key
    ensures key in ParseLines(lines) && ParseLines(lines)[key] == ParseLine(lines[i]).value.1
    decreases |lines|
  {
    if i < |lines| - 1 {
      var init := lines[..|lines| - 1];
      assert init[i] == lines[i];
      forall j | i < j < |init| ensures ParseLine(init[j]).None? || ParseLine(init[j]).value.0 != key {
        assert init[j] == lines[j];
      }
      LastEntryWins(init, key, i);
    }
  }

  /**
   * The `OsRelease` constructor: a missing file gives an empty table,
   * otherwise the file's lines are parsed in order.
   */
  function ReadOsRelease(file: Option<string>): map<string, string> {
    match file
    case None => map[]
    case Some(content) => ParseLines(Split(content, '\n'))
  }

  /**
   * A missing file gives an empty table; otherwise a key read from some line
   * of the file gets the value of the last line that defines it.
   */
  lemma ReadOsReleaseLastEntry(content: string, key: string, i: nat)
    requires var lines := Split(content, '\n');
      && i < |lines| && ParseLine(lines[i]).Some? && ParseLine(lines[i]).value.0 == key
      && forall j :: i < j < |lines| ==> ParseLine(lines[j]).None? || ParseLine(lines[j]).value.0 != key
    ensures ReadOsRelease(None) == map[]
    ensures key in ReadOsRelease(Some(content))
    ensures ReadOsRelease(Some(content))[key] == ParseLine(Split(content, '\n')[i]).value.1
  {
    LastEntryWins(Split(content, '\n'), key, i);
  }

  /** A stored value, or the given error when the key is missing. */
  function Lookup(table: map<string, string>, key: string, missing: Failure): (r: Result<string, Failure>)
    ensures r.Ok? <==> key in table
    ensures r.Ok? ==> r.value == table[key]
    ensures r.Err? ==> r.error == missing
  {
    if key in table then Ok(table[key]) else Err(missing)
  }

  function Id(table: map<string, string>): Result<string, Failure> {
    Lookup(table, "ID", OsReleaseIdError)
  }

  function Name(table: map<string, string>): Result<string, Failure> {
    Lookup(table, "NAME", OsReleaseNameError)
  }

  function VersionId(table: map<string, string>): Result<string, Failure> {
    Lookup(table, "VERSION_ID", OsReleaseVersionIdError)
  }

  /** The codenames of the Ubuntu releases that predate the codename field. */
  const UbuntuCodenames: map<string, string> :=
    map["17.10" := "artful", "17.04" := "zesty", "16.04" := "xenial", "14.04" := "trusty"]

  /**
   * `version_codename`: the codename field when present, otherwise the
   * codename of the release's version ID when the table knows it, otherwise
   * a codename error.
   */
  function VersionCodename(table: map<string, string>): (r: Result<string, Failure>)
    ensures "VERSION_CODENAME" in table ==> r == Ok(table["VERSION_CODENAME"])
    ensures "VERSION_CODENAME" !in table ==>
      (r.Ok? <==> "VERSION_ID" in table && table["VERSION_ID"] in UbuntuCodenames)
    ensures "VERSION_CODENAME" !in table && r.Ok? ==> r.value == UbuntuCodenames[table["VERSION_ID"]]
    ensures r.Err? ==> r.error == OsReleaseCodenameError
  {
    if "VERSION_CODENAME" in table then Ok(table["VERSION_CODENAME"])
    else if "VERSION_ID" in table && table["VERSION_ID"] in UbuntuCodenames then
      Ok(UbuntuCodenames[table["VERSION_ID"]])
    else Err(OsReleaseCodenameError)
  }

  /** A 16.04 release without a codename field is recognised as xenial. */
  lemma XenialFallback(table: map<string, string>)
    requires "VERSION_CODENAME" !in table && "VERSION_ID" in table && table["VERSION_ID"] == "16.04"
    ensures VersionCodename(table) == Ok("xenial")
  {
  }

  /** Quotes around a value are dropped, and the line's newline goes with the right-strip. */
  lemma ParseLineQuoted()
    ensures ParseLine("ID=\"ubuntu\"\n") == Some(("ID", "ubuntu"))
  {
    QuotedLineRStrip();
    QuotedLineSplit();
    QuotedValueStrip();
  }

  lemma QuotedLineRStrip()
    ensures RStrip("ID=\"ubuntu\"\n") == "ID=\"ubuntu\""
  {
    var line := "ID=\"ubuntu\"\n";
    var s := "ID=\"ubuntu\"";
    assert line[..|line| - 1] == s;
    assert RStrip(s) == s;
  }

  lemma QuotedLineSplit()
    ensures Split("ID=\"ubuntu\"", '=') == ["ID", "\"ubuntu\""]
  {
    var parts := ["ID", "\"ubuntu\""];
    JoinSnoc("=", ["ID"], "\"ubuntu\"");
    assert ["ID"] + ["\"ubuntu\""] == parts;
    assert Join("=", parts) == "ID" + "=" + "\"ubuntu\"";
    assert "ID" + "=" + "\"ubuntu\"" == "ID=\"ubuntu\"";
    assert '=' !in parts[0] && '=' !in parts[1];
    SplitJoin(parts, '=');
  }

  lemma QuotedValueStrip()
    ensures StripChar("\"ubuntu\"", '"') == "ubuntu"
  {
    var v := "\"ubuntu\"";
    var left := LStripChar(v, '"');
    assert left == v[1..];
    assert left[..|left| - 1] == "ubuntu";
  }

  /** A line with a second `=` yields three fields and is ignored. */
  lemma ParseLineTwoEquals()
    ensures ParseLine("A=b=c").None?
  {
    var w := "A=b=c";
    assert RStrip(w) == w;
    IndexOfFirst(w, '=', 1);
    IndexOfFirst(w[2..], '=', 1);
    assert w[2..][2..] == "c";
    assert |Split(w, '=')| == 3;
  }

  /** `is_dumb_terminal`: output is not a terminal, or the terminal type is `dumb`. */
  function IsDumbTerminal(stdoutIsTty: bool, environ: map<string, string>): (r: bool)
    ensures !stdoutIsTty ==> r
    ensures stdoutIsTty ==> (r <==> "TERM" in environ && environ["TERM"] == "dumb")
  {
    var term := if "TERM" in environ then environ["TERM"] else "";
    !stdoutIsTty || term == "dumb"
  }
}

=== FILE: overlay_fs.dfy ===
/**
 * An overlay filesystem description (lower directories, upper directory,
 * work directory) and its mounted state. The mount and unmount commands are
 * parameters: each reports the error message of a failed command, or
 * nothing on success.
 */
module OverlayFs {
  import opened Common
  import opened Errors

  /** The lower-directory argument: a single directory or a list of them. */
  datatype LowerArg = OneDir(dir: string) | DirList(dirs: seq<string>)

  /** An overlay filesystem and the mountpoint it is mounted on, if any. */
  datatype OverlayFS = OverlayFS(
    lowerDirs: seq<string>,
    upperDir: string,
    workDir: string,
    mountpoint: Option<string>)

  /** The arguments of the mount command: device, mountpoint, type flag and option flag. */
  datatype MountCall = MountCall(device: string, target: string, typeFlag: string, optionFlag: string)

  /** Runs the mount command; the error message when it fails. */
  type Mounter = MountCall -> Option<string>

  /** Runs the unmount command on a mountpoint; the error message when it fails. */
  type Unmounter = string -> Option<string>

  /** The constructor: a single lower directory becomes a one-element list; nothing is mounted yet. */
  function NewOverlayFS(lower: LowerArg, upper: string, work: string): (r: OverlayFS)
    ensures r.mountpoint.None? && r.upperDir == upper && r.workDir == work
    ensures lower.OneDir? ==> r.lowerDirs == [lower.dir]
    ensures lower.DirList? ==> r.lowerDirs == lower.dirs
  {
    match lower
    case OneDir(d) => OverlayFS([d], upper, work, None)
    case DirList(ds) => OverlayFS(ds, upper, work, None)
  }

  /** The option flag: lower directories joined by `:`, then the upper and work directories. */
  function MountOptions(fs: OverlayFS): string {
    "-olowerdir=" + Join(":", fs.lowerDirs) + ",upperdir=" + fs.upperDir + ",workdir=" + fs.workDir
  }

  /** The mount command `mount` issues for a mountpoint. */
  function MountCallFor(fs: OverlayFS, mountpoint: string): MountCall {
    MountCall("overlay", mountpoint, "-toverlay", MountOptions(fs))
  }

  /** The lower directories can be read back out of the option flag, provided none contains `:` or `,`. */
  lemma MountOptionsLowerDirs(fs: OverlayFS)
    requires |fs.lowerDirs| > 0
    requires forall i :: 0 <= i < |fs.lowerDirs| ==> ':' !in fs.lowerDirs[i] && ',' !in fs.lowerDirs[i]
    ensures var opts := MountOptions(fs);
      var field := Split(opts, ',')[0];
      && StartsWith(field, "-olowerdir=")
      && Split(field[|"-olowerdir="|..], ':') == fs.lowerDirs
  {
    var lower := Join(":", fs.lowerDirs);
    var head := "-olowerdir=" + lower;
    var tail := "upperdir=" + fs.upperDir + ",workdir=" + fs.workDir;
    JoinHasNo(fs.lowerDirs, ':', ',');
    assert MountOptions(fs) == head + [','] + tail;
    assert ',' !in head;
    IndexOfFirst(MountOptions(fs), ',', |head|);
    assert (head + [','] + tail)[..|head|] == head;
    assert head[|"-olowerdir="|..] == lower;
    assert ":" == [':'];
    SplitJoin(fs.lowerDirs, ':');
  }

  /** A character absent from every part and from the separator is absent from the join. */
  lemma {:induction false} JoinHasNo(parts: seq<string>, sep: char, c: char)
    requires c != sep
    requires forall i :: 0 <= i < |parts| ==> c !in parts[i]
    ensures c !in Join([sep], parts)
    decreases |parts|
  {
    if |parts| > 1 {
      JoinHasNo(parts[..|parts| - 1], sep, c);
    }
  }

  /**
   * `mount`: the mount command is run for the mountpoint; on success the
   * mountpoint is recorded, on failure an overlay mount error is raised and
   * the filesystem is left as it was.
   */
  function Mount(fs: OverlayFS, mountpoint: string, mounter: Mounter): (r: Result<OverlayFS, Failure>)
    ensures mounter(MountCallFor(fs, mountpoint)).None? <==> r.Ok?
    ensures r.Ok? ==> r.value == fs.(mountpoint := Some(mountpoint))
    ensures r.Err? ==> r.error == OverlayMountError(mountpoint, mounter(MountCallFor(fs, mountpoint)).value)
  {
    match mounter(MountCallFor(fs, mountpoint))
    case Some(message) => Err(OverlayMountError(mountpoint, message))
    case None => Ok(fs.(mountpoint := Some(mountpoint)))
  }

  /**
   * `unmount`: without a mountpoint nothing happens; otherwise the unmount
   * command runs, and success clears the mountpoint while failure raises and
   * keeps it.
   */
  function Unmount(fs: OverlayFS, unmounter: Unmounter): (r: Result<OverlayFS, Failure>)
    ensures fs.mountpoint.None? ==> r == Ok(fs)
    ensures fs.mountpoint.Some? && unmounter(fs.mountpoint.value).None? ==> r == Ok(fs.(mountpoint := None))
    ensures fs.mountpoint.Some? && unmounter(fs.mountpoint.value).Some? ==>
      r == Err(OverlayMountError(fs.mountpoint.value, unmounter(fs.mountpoint.value).value))
  {
    match fs.mountpoint
    case None => Ok(fs)
    case Some(mp) =>
      match unmounter(mp)
      case Some(message) => Err(OverlayMountError(mp, message))
      case None => Ok(fs.(mountpoint := None))
  }

  /** Mounting and then unmounting, both successfully, returns an unmounted filesystem to where it was. */
  lemma MountUnmountRoundTrip(fs: OverlayFS, mountpoint: string, mounter: Mounter, unmounter: Unmounter)
    requires fs.mountpoint.None?
    requires mounter(MountCallFor(fs, mountpoint)).None? && unmounter(mountpoint).None?
    ensures Mount(fs, mountpoint, mounter).Ok?
    ensures Unmount(Mount(fs, mountpoint, mounter).value, unmounter) == Ok(fs)
  {
  }

  /** After one successful unmount a second one does nothing, whatever the command would do. */
  lemma UnmountIdempotent(fs: OverlayFS, unmounter: Unmounter, again: Unmounter)
    requires Unmount(fs, unmounter).Ok?
    ensures Unmount(Unmount(fs, unmounter).value, again) == Unmount(fs, unmounter)
  {
  }
}

=== FILE: overlay_manager.dfy ===
/**
 * The overlay manager: which layer directories are stacked below and above
 * when a part's layer or the package cache is mounted, and the manager's
 * record of the filesystem it mounted.
 */
module OverlayManager {
  import opened Common
  import opened Errors
  import opened Parts
  import opened OverlayFs

  /** The project's overlay directories. */
  datatype OverlayDirs = OverlayDirs(mountDir: string, packagesDir: string, workDir: string)

  /** The manager: the parts, their layer directories in part order, the base layer and the current filesystem. */
  datatype Manager = Manager(
    partList: seq<Part>,
    layerDirs: seq<string>,
    dirs: OverlayDirs,
    baseLayerDir: Option<string>,
    overlayFs: Option<OverlayFS>)

  /** The manager after an operation, and what the operation raised, if anything. */
  datatype Transition = Transition(manager: Manager, failure: Option<Failure>)

  /** The constructor: one layer directory per part, in part-list order, and nothing mounted. */
  function NewManager(partList: seq<Part>, layerDirOf: Part -> string, dirs: OverlayDirs,
                      baseLayerDir: Option<string>): (r: Manager)
    ensures |r.layerDirs| == |partList|
    ensures forall i :: 0 <= i < |partList| ==> r.layerDirs[i] == layerDirOf(partList[i])
    ensures r.partList == partList && r.dirs == dirs && r.baseLayerDir == baseLayerDir && r.overlayFs.None?
  {
    Manager(partList, seq(|partList|, i requires 0 <= i < |partList| => layerDirOf(partList[i])),
            dirs, baseLayerDir, None)
  }

  /** Whether the manager's layer directories line up with its parts. */
  predicate WellFormed(m: Manager) {
    |m.layerDirs| == |m.partList|
  }

  const NoBaseLayer: string := "request to mount overlay without a base layer"
  const NoBaseLayerForCache: string := "request to mount the overlay package cache without a base layer"
  const LowerDirsKeyword: string := "__init__() got an unexpected keyword argument 'lower_dirs'"

  /**
   * The stack below a part's layer, bottom first: the base layer, the
   * package cache when enabled, then the layers of every earlier part.
   */
  function StackBelow(base: string, packagesDir: string, pkgCache: bool, layerDirs: seq<string>, index: nat):
    (r: seq<string>)
    requires index <= |layerDirs|
  {
    [base] + (if pkgCache then [packagesDir] else []) + layerDirs[..index]
  }

  /**
   * The overlay filesystem `mount_layer` sets up for the part at `index`:
   * the lower directories are the stack below, top first, and the part's own
   * layer is the upper directory.
   */
  function LayerFs(m: Manager, base: string, index: nat, pkgCache: bool): (r: OverlayFS)
    requires index < |m.layerDirs|
    ensures r.upperDir == m.layerDirs[index] && r.workDir == m.dirs.workDir && r.mountpoint.None?
    ensures |r.lowerDirs| == index + 1 + (if pkgCache then 1 else 0)
    ensures r.lowerDirs[|r.lowerDirs| - 1] == base
    ensures pkgCache ==> r.lowerDirs[|r.lowerDirs| - 2] == m.dirs.packagesDir
    ensures forall j :: 0 <= j < index ==> r.lowerDirs[j] == m.layerDirs[index - 1 - j]
  {
    NewOverlayFS(DirList(Reverse(StackBelow(base, m.dirs.packagesDir, pkgCache, m.layerDirs, index))),
                 m.layerDirs[index], m.dirs.workDir)
  }

  /**
   * `mount_layer` with the intended constructor keyword: without a base
   * layer nothing is mounted; a part missing from the list is a value
   * error; otherwise the filesystem is recorded and then mounted on the
   * overlay mount directory, so a failed mount leaves it recorded but unmounted.
   */
  function MountLayer(m: Manager, part: Part, pkgCache: bool, mounter: Mounter): (r: Transition)
    requires WellFormed(m)
    ensures m.baseLayerDir.None? ==> r == Transition(m, Some(RuntimeError(NoBaseLayer)))
    ensures m.baseLayerDir.Some? && part !in m.partList ==>
      r == Transition(m, Some(ValueError("part is not in list")))
    ensures m.baseLayerDir.Some? && part in m.partList ==>
      var index := IndexOf(m.partList, part).value;
      var fs := LayerFs(m, m.baseLayerDir.value, index, pkgCache);
      && r.manager.overlayFs.Some?
      && r.manager == m.(overlayFs := r.manager.overlayFs)
      && (r.failure.None? <==> mounter(MountCallFor(fs, m.dirs.mountDir)).None?)
      && (r.failure.None? ==> r.manager.overlayFs.value == fs.(mountpoint := Some(m.dirs.mountDir)))
      && (r.failure.Some? ==> r.manager.overlayFs.value == fs
                              && r.failure.value.OverlayMountError? && r.failure.value.mountpoint == m.dirs.mountDir)
  {
    if m.baseLayerDir.None? then Transition(m, Some(RuntimeError(NoBaseLayer)))
    else match IndexOf(m.partList, part)
      case None => Transition(m, Some(ValueError("part is not in list")))
      case Some(index) =>
        var fs := LayerFs(m, m.baseLayerDir.value, index, pkgCache);
        MountRecorded(m, fs, mounter)
  }

  /** Records `fs` as the current filesystem, then mounts it on the overlay mount directory. */
  function MountRecorded(m: Manager, fs: OverlayFS, mounter: Mounter): (r: Transition)
    ensures r.manager.overlayFs.Some?
    ensures r.manager == m.(overlayFs := r.manager.overlayFs)
    ensures r.failure.None? <==> mounter(MountCallFor(fs, m.dirs.mountDir)).None?
    ensures r.failure.None? ==> r.manager.overlayFs.value == fs.(mountpoint := Some(m.dirs.mountDir))
    ensures r.failure.Some? ==>
      r.manager.overlayFs.value == fs && r.failure == Some(Mount(fs, m.dirs.mountDir, mounter).error)
  {
    match Mount(fs, m.dirs.mountDir, mounter)
    case Ok(mounted) => Transition(m.(overlayFs := Some(mounted)), None)
    case Err(e) => Transition(m.(overlayFs := Some(fs)), Some(e))
  }

  /**
   * The stack of a part's layer mount: every earlier part's layer is a lower
   * directory, nearest first, under which sit the package cache (when
   * enabled) and the base layer; the part's own layer and later ones are not.
   */
  lemma LayerStackContents(m: Manager, base: string, index: nat, pkgCache: bool, d: string)
    requires index < |m.layerDirs|
    requires forall i, j :: 0 <= i < j < |m.layerDirs| ==> m.layerDirs[i] != m.layerDirs[j]
    requires d in m.layerDirs && d != base && d != m.dirs.packagesDir
    ensures d in LayerFs(m, base, index, pkgCache).lowerDirs <==> exists i :: 0 <= i < index && m.layerDirs[i] == d
  {
    var fs := LayerFs(m, base, index, pkgCache);
    var below := StackBelow(base, m.dirs.packagesDir, pkgCache, m.layerDirs, index);
    if d in fs.lowerDirs {
      var k :| 0 <= k < |fs.lowerDirs| && fs.lowerDirs[k] == d;
      assert fs.lowerDirs[k] == below[|below| - 1 - k];
      var off := if pkgCache then 2 else 1;
      assert below == [base] + (if pkgCache then [m.dirs.packagesDir] else []) + m.layerDirs[..index];
      var b := |below| - 1 - k;
      assert b >= off;
      assert below[b] == m.layerDirs[b - off];
    }
    if exists i :: 0 <= i < index && m.layerDirs[i] == d {
      var i :| 0 <= i < index && m.layerDirs[i] == d;
      assert fs.lowerDirs[index - 1 - i] == d;
    }
  }

  /** The overlay filesystem `mount_pkg_cache` sets up: the package cache over the base layer alone. */
  function PkgCacheFs(m: Manager, base: string): (r: OverlayFS)
    ensures r.lowerDirs == [base] && r.upperDir == m.dirs.packagesDir && r.workDir == m.dirs.workDir
    ensures r.mountpoint.None?
  {
    NewOverlayFS(DirList([base]), m.dirs.packagesDir, m.dirs.workDir)
  }

  /** `mount_pkg_cache` with the intended constructor keyword. */
  function MountPkgCache(m: Manager, mounter: Mounter): (r: Transition)
    ensures m.baseLayerDir.None? ==> r == Transition(m, Some(RuntimeError(NoBaseLayerForCache)))
    ensures m.baseLayerDir.Some? ==>
      var fs := PkgCacheFs(m, m.baseLayerDir.value);
      && r.manager.overlayFs.Some?
      && r.manager == m.(overlayFs := r.manager.overlayFs)
      && (r.failure.None? <==> mounter(MountCallFor(fs, m.dirs.mountDir)).None?)
      && (r.failure.None? ==> r.manager.overlayFs.value == fs.(mountpoint := Some(m.dirs.mountDir)))
  {
    if m.baseLayerDir.None? then Transition(m, Some(RuntimeError(NoBaseLayerForCache)))
    else MountRecorded(m, PkgCacheFs(m, m.baseLayerDir.value), mounter)
  }

  /**
   * `mount_layer` as written: it passes the lower directories under a
   * keyword the filesystem constructor does not accept, so once the base
   * layer and the part are found the call raises a type error and nothing
   * is recorded or mounted.
   */
  function MountLayerAsWritten(m: Manager, part: Part, pkgCache: bool, mounter: Mounter): (r: Transition)
    requires WellFormed(m)
    ensures r.manager == m
    ensures r.failure.Some?
    ensures m.baseLayerDir.None? ==> r.failure.value == RuntimeError(NoBaseLayer)
  {
    if m.baseLayerDir.None? then Transition(m, Some(RuntimeError(NoBaseLayer)))
    else match IndexOf(m.partList, part)
      case None => Transition(m, Some(ValueError("part is not in list")))
      case Some(_) => Transition(m, Some(TypeError(LowerDirsKeyword)))
  }

  /** `mount_pkg_cache` as written: the same keyword mismatch makes every call with a base layer raise. */
  function MountPkgCacheAsWritten(m: Manager, mounter: Mounter): (r: Transition)
    ensures r.manager == m
    ensures r.failure.Some?
    ensures m.baseLayerDir.None? ==> r.failure.value == RuntimeError(NoBaseLayerForCache)
  {
    if m.baseLayerDir.None? then Transition(m, Some(RuntimeError(NoBaseLayerForCache)))
    else Transition(m, Some(TypeError(LowerDirsKeyword)))
  }

  /**
   * The two mount operations as written never mount anything: for a manager
   * with a base layer and a listed part, where the intended version mounts
   * successfully, the version as written raises a type error instead.
   */
  lemma MountAsWrittenNeverMounts(m: Manager, part: Part, pkgCache: bool, mounter: Mounter)
    requires WellFormed(m) && m.baseLayerDir.Some? && part in m.partList
    ensures MountLayerAsWritten(m, part, pkgCache, mounter).failure == Some(TypeError(LowerDirsKeyword))
    ensures MountPkgCacheAsWritten(m, mounter).failure == Some(TypeError(LowerDirsKeyword))
    ensures MountLayerAsWritten(m, part, pkgCache, mounter).manager.overlayFs == m.overlayFs
    ensures mounter(MountCallFor(LayerFs(m, m.baseLayerDir.value, IndexOf(m.partList, part).value, pkgCache),
                                 m.dirs.mountDir)).None?
      ==> MountLayer(m, part, pkgCache, mounter).failure.None?
  {
  }

  /**
   * `unmount`: with nothing recorded it does nothing; otherwise the recorded
   * filesystem is unmounted and forgotten, and a failed unmount raises and
   * keeps it recorded.
   */
  function Unmount(m: Manager, unmounter: Unmounter): (r: Transition)
    ensures m.overlayFs.None? ==> r == Transition(m, None)
    ensures m.overlayFs.Some? ==>
      && (r.failure.None? <==> OverlayFs.Unmount(m.overlayFs.value, unmounter).Ok?)
      && (r.failure.None? ==> r.manager == m.(overlayFs := None))
      && (r.failure.Some? ==> r.manager == m)
  {
    match m.overlayFs
    case None => Transition(m, None)
    case Some(fs) =>
      match OverlayFs.Unmount(fs, unmounter)
      case Ok(_) => Transition(m.(overlayFs := None), None)
      case Err(e) => Transition(m, Some(e))
  }

  /** A successful layer mount followed by a successful unmount leaves nothing recorded and nothing mounted. */
  lemma MountLayerThenUnmount(m: Manager, part: Part, pkgCache: bool, mounter: Mounter, unmounter: Unmounter)
    requires WellFormed(m) && m.baseLayerDir.Some? && part in m.partList
    requires MountLayer(m, part, pkgCache, mounter).failure.None?
    requires unmounter(m.dirs.mountDir).None?
    ensures Unmount(MountLayer(m, part, pkgCache, mounter).manager, unmounter) == Transition(m.(overlayFs := None), None)
  {
  }

  /** The layer-mount unit test: mounting the second of two parts stacks the first over the base layer. */
  lemma TwoPartStack(m: Manager)
    requires m.layerDirs == ["parts/p1/layer", "parts/p2/layer"]
    ensures LayerFs(m, "base_dir", 1, false).lowerDirs == ["parts/p1/layer", "base_dir"]
    ensures LayerFs(m, "base_dir", 1, false).upperDir == "parts/p2/layer"
    ensures Join(":", LayerFs(m, "base_dir", 1, false).lowerDirs) == "parts/p1/layer:base_dir"
  {
    var fs := LayerFs(m, "base_dir", 1, false);
    assert fs.lowerDirs == ["parts/p1/layer", "base_dir"];
    JoinSnoc(":", ["parts/p1/layer"], "base_dir");
    assert ["parts/p1/layer"] + ["base_dir"] == fs.lowerDirs;
  }
}

=== FILE: overlays.dfy ===
/**
 * Visibility of a lower layer's entries through an upper layer that uses
 * OCI whiteout files (`.wh.<name>`) and opaque-directory markers
 * (`.wh..wh..opq`). Paths are sequences of components relative to the
 * layer's root; a layer is the map from those paths to what sits there.
 */
module Overlays {
  import opened Common

  type RelPath = seq<string>

  /** What a path names in a layer; a symbolic link records whether it leads to a directory. */
  datatype Entry = RegularFile | Directory | Link(toDir: bool)

  type Layer = map<RelPath, Entry>

  const WhiteoutPrefix: string := ".wh."
  const OpaqueMarker: string := ".wh..wh..opq"

  /** `path.is_dir()`, which follows symbolic links. */
  predicate IsDirAt(layer: Layer, p: RelPath) {
    p in layer && (layer[p] == Directory || layer[p] == Link(true))
  }

  /** The whiteout file that hides `p`: a sibling named `.wh.` followed by its name. */
  function OciWhiteout(p: RelPath): (r: RelPath)
    ensures |p| > 0 ==> |r| == |p| && r[..|p| - 1] == p[..|p| - 1]
    ensures |r| > 0 && StartsWith(r[|r| - 1], WhiteoutPrefix)
  {
    if |p| == 0 then [WhiteoutPrefix]
    else p[..|p| - 1] + [WhiteoutPrefix + p[|p| - 1]]
  }

  /** The path a whiteout file hides, when the name carries the whiteout prefix. */
  function WhitedOut(w: RelPath): (r: Option<RelPath>)
    ensures r.Some? <==> |w| > 0 && StartsWith(w[|w| - 1], WhiteoutPrefix)
  {
    if |w| > 0 && StartsWith(w[|w| - 1], WhiteoutPrefix) then
      Some(w[..|w| - 1] + [w[|w| - 1][|WhiteoutPrefix|..]])
    else None
  }

  /** A whiteout name determines the path it hides, and every whiteout-prefixed name hides some path. */
  lemma WhiteoutRoundTrip(p: RelPath, w: RelPath)
    ensures |p| > 0 ==> WhitedOut(OciWhiteout(p)) == Some(p)
    ensures WhitedOut(w).Some? && |WhitedOut(w).value| > 0 ==> OciWhiteout(WhitedOut(w).value) == w
  {
    if |p| > 0 {
      var w' := OciWhiteout(p);
      assert w'[|w'| - 1] == WhiteoutPrefix + p[|p| - 1];
      assert (WhiteoutPrefix + p[|p| - 1])[|WhiteoutPrefix|..] == p[|p| - 1];
      assert w'[..|w'| - 1] + [p[|p| - 1]] == p;
    }
    if WhitedOut(w).Some? {
      var q := WhitedOut(w).value;
      var name := w[|w| - 1];
      assert q[..|q| - 1] == w[..|w| - 1];
      assert WhiteoutPrefix + name[|WhiteoutPrefix|..] == name;
      assert OciWhiteout(q) == w[..|w| - 1] + [name];
    }
  }

  /** The marker that makes directory `p` opaque: a child of `p` named `.wh..wh..opq`. */
  function OciOpaqueDir(p: RelPath): (r: RelPath)
    ensures |r| == |p| + 1 && r[..|p|] == p && r[|p|] == OpaqueMarker
  {
    p + [OpaqueMarker]
  }

  /**
   * `is_oci_opaque_dir`: a path that is not a directory, or is a symbolic
   * link, is never opaque; a real directory is opaque when it holds the marker.
   */
  predicate IsOciOpaqueDir(layer: Layer, p: RelPath)
  {
    if !IsDirAt(layer, p) || layer[p].Link? then false
    else OciOpaqueDir(p) in layer
  }

  /** Whether one prefix of a path is whited out or opaque in the layer. */
  predicate Hidden(dest: Layer, q: RelPath) {
    OciWhiteout(q) in dest || IsOciOpaqueDir(dest, q)
  }

  /** The loop of `_is_path_visible`, from prefix length `level + 1` onwards. */
  function VisibleFrom(dest: Layer, relpath: RelPath, level: nat): (r: bool)
    requires level <= |relpath|
    ensures r <==> forall n :: level < n <= |relpath| ==> !Hidden(dest, relpath[..n])
    decreases |relpath| - level
  {
    if level == |relpath| then true
    else if Hidden(dest, relpath[..level + 1]) then false
    else VisibleFrom(dest, relpath, level + 1)
  }

  /**
   * `_is_path_visible`: a path is visible through `dest` exactly when none
   * of its prefixes, itself included, is whited out or is an opaque directory.
   */
  function IsPathVisible(dest: Layer, relpath: RelPath): (r: bool)
    ensures r <==> forall n :: 1 <= n <= |relpath| ==> !Hidden(dest, relpath[..n])
  {
    VisibleFrom(dest, relpath, 0)
  }

  /** The branch of the directory loop that stops the walk from descending into `q`. */
  predicate Pruned(dest: Layer, q: RelPath) {
    IsPathVisible(dest, q) && q in dest && IsOciOpaqueDir(dest, q)
  }

  /**
   * Whether the top-down walk of `src` reaches `p`: every proper prefix is a
   * real directory (the walk does not follow links) that was not pruned.
   */
  predicate Walked(src: Layer, dest: Layer, p: RelPath) {
    forall n :: 1 <= n < |p| ==> p[..n] in src && src[p[..n]] == Directory && !Pruned(dest, p[..n])
  }

  /** The walk lists an entry among the files unless it is a directory or a link to one. */
  predicate ListedAsFile(e: Entry) {
    e == RegularFile || e == Link(false)
  }

  /** A file the walk reaches is reported when visible and neither it nor its whiteout exists above. */
  predicate ReportedFile(src: Layer, dest: Layer, p: RelPath) {
    && p in src && |p| > 0 && Walked(src, dest, p)
    && IsPathVisible(dest, p)
    && if ListedAsFile(src[p]) then p !in dest && OciWhiteout(p) !in dest
       else p !in dest && src[p].Link?
  }

  /** A directory the walk reaches is reported when visible and absent above, unless it is a link. */
  predicate ReportedDir(src: Layer, dest: Layer, p: RelPath) {
    && p in src && |p| > 0 && Walked(src, dest, p)
    && src[p] == Directory
    && IsPathVisible(dest, p)
    && p !in dest
  }

  /**
   * `visible_in_layer`: the files and directories of `src` that would show
   * through `dest` with `dest` as the upper layer. A link to a directory
   * that is absent above is reported among the files.
   */
  function VisibleInLayer(src: Layer, dest: Layer): (r: (set<RelPath>, set<RelPath>))
    ensures forall p :: p in r.0 <==> ReportedFile(src, dest, p)
    ensures forall p :: p in r.1 <==> ReportedDir(src, dest, p)
  {
    (set p | p in src && ReportedFile(src, dest, p), set p | p in src && ReportedDir(src, dest, p))
  }

  /** A directory that is visible is never opaque, so the walk is never pruned. */
  lemma PruneNeverHappens(dest: Layer, q: RelPath)
    requires |q| > 0
    ensures !Pruned(dest, q)
  {
    if IsPathVisible(dest, q) {
      assert q[..|q|] == q;
      assert !Hidden(dest, q[..|q|]);
    }
  }

  /** Because the walk is never pruned, it reaches every entry whose ancestors are real directories. */
  lemma WalkReachesEverything(src: Layer, dest: Layer, p: RelPath)
    ensures Walked(src, dest, p) <==>
      forall n :: 1 <= n < |p| ==> p[..n] in src && src[p[..n]] == Directory
  {
    forall n | 1 <= n < |p|
      ensures !Pruned(dest, p[..n])
    {
      PruneNeverHappens(dest, p[..n]);
    }
  }

  /** Every proper prefix of `p` is a real directory of `src`. */
  predicate UnderRealDirs(src: Layer, p: RelPath) {
    forall n :: 1 <= n < |p| ==> p[..n] in src && src[p[..n]] == Directory
  }

  /**
   * What `visible_in_layer` reports, in terms of the two layers alone: an
   * entry below real directories of `src`, none of whose prefixes is hidden
   * above, and that is itself absent above. A file is reported unless its
   * whiteout is above, a link to a directory is reported as a file, and a
   * real directory as a directory; no entry is reported as both.
   */
  lemma VisibleInLayerSpec(src: Layer, dest: Layer, p: RelPath)
    ensures p in VisibleInLayer(src, dest).0 <==>
      && p in src && |p| > 0 && UnderRealDirs(src, p)
      && (forall n :: 1 <= n <= |p| ==> !Hidden(dest, p[..n]))
      && p !in dest
      && src[p] != Directory
      && (src[p] != Link(true) ==> OciWhiteout(p) !in dest)
    ensures p in VisibleInLayer(src, dest).1 <==>
      && p in src && |p| > 0 && UnderRealDirs(src, p)
      && (forall n :: 1 <= n <= |p| ==> !Hidden(dest, p[..n]))
      && p !in dest
      && src[p] == Directory
    ensures !(p in VisibleInLayer(src, dest).0 && p in VisibleInLayer(src, dest).1)
  {
    WalkReachesEverything(src, dest, p);
  }

  /** Nothing at or beneath a whited-out or opaque path of `dest` is reported. */
  lemma HiddenSubtreeNotReported(src: Layer, dest: Layer, q: RelPath, p: RelPath)
    requires |q| > 0 && Hidden(dest, q)
    requires |q| <= |p| && p[..|q|] == q
    ensures p !in VisibleInLayer(src, dest).0 && p !in VisibleInLayer(src, dest).1
  {
    assert p[..|q|] == q;
    assert !IsPathVisible(dest, p);
  }

  /** A link to a directory that is absent above is reported as a file, never as a directory. */
  lemma LinkedDirReportedAsFile(src: Layer, dest: Layer, p: RelPath)
    requires p in src && src[p] == Link(true) && |p| > 0
    requires Walked(src, dest, p) && IsPathVisible(dest, p) && p !in dest
    ensures p in VisibleInLayer(src, dest).0
    ensures p !in VisibleInLayer(src, dest).1
  {
  }

  /** The lower layer of the visibility unit tests: `a`, `dir1/b` and `dir1/c`. */
  function TestSource(): Layer {
    map[["a"] := RegularFile, ["dir1"] := Directory, ["dir1", "b"] := RegularFile, ["dir1", "c"] := RegularFile]
  }

  /** The upper layer of the opaque-directory unit test: `dir1` holding the opaque marker. */
  function OpaqueTestDest(): Layer {
    map[["dir1"] := Directory, ["dir1", OpaqueMarker] := RegularFile]
  }

  /** Every source entry under `dir1` is hidden by the opaque marker above. */
  lemma OpaqueTestHidesDir1(p: RelPath)
    requires p in TestSource() && p != ["a"]
    ensures p !in VisibleInLayer(TestSource(), OpaqueTestDest()).0
    ensures p !in VisibleInLayer(TestSource(), OpaqueTestDest()).1
  {
    var dest := OpaqueTestDest();
    assert OciOpaqueDir(["dir1"]) == ["dir1", OpaqueMarker];
    assert Hidden(dest, ["dir1"]);
    assert p == ["dir1"] || p == ["dir1", "b"] || p == ["dir1", "c"];
    HiddenSubtreeNotReported(TestSource(), dest, ["dir1"], p);
  }

  /** The top-level file `a` is neither whited out nor under the opaque directory, so it shows through. */
  lemma OpaqueTestShowsA()
    ensures ["a"] in VisibleInLayer(TestSource(), OpaqueTestDest()).0
  {
    var dest := OpaqueTestDest();
    assert ["a"][..1] == ["a"] && ["a"][..0] == [];
    assert WhiteoutPrefix + "a" == ".wh.a";
    assert OciWhiteout(["a"]) == [".wh.a"];
    assert ["a"] !in dest && [".wh.a"] !in dest;
    assert !Hidden(dest, ["a"][..1]);
    assert IsPathVisible(dest, ["a"]);
    assert ReportedFile(TestSource(), dest, ["a"]);
  }

  /** An opaque `dir1` above hides the whole of `dir1`, leaving only `a` visible. */
  lemma OpaqueDirScenario()
    ensures VisibleInLayer(TestSource(), OpaqueTestDest()) == ({["a"]}, {})
  {
    var src := TestSource();
    var r := VisibleInLayer(src, OpaqueTestDest());
    OpaqueTestShowsA();
    forall p | p in r.0 ensures p == ["a"] {
      if p != ["a"] {
        OpaqueTestHidesDir1(p);
      }
    }
    forall p ensures p !in r.1 {
      if p in src && p != ["a"] {
        OpaqueTestHidesDir1(p);
      }
    }
    assert r.0 == {["a"]};
    assert r.1 == {};
  }
}

=== FILE: part_handler.dfy ===
/**
 * Carrying out one action for one part: which handler runs, the order of
 * callbacks and the state write, whether a step runs its override
 * scriptlet or the built-in behaviour, and the package and snap lists a
 * part needs.
 */
module PartHandler {
  import opened Common
  import opened Steps
  import opened Errors
  import opened Parts
  import opened StateManager
  import opened Sequencer

  /** The four per-step handlers. */
  datatype Handler = RunPull | RunBuild | RunStage | RunPrime

  /** What happens, in order, while an action is executed. */
  datatype Event =
    | PreStep(preStep: Step)
    | Handle(handler: Handler)
    | WriteState(partName: string, stateStep: Step, state: StepState)
    | PostStep(postStep: Step)

  /** The events that happened, and the failure that stopped them, if any. */
  datatype Outcome = Outcome(events: seq<Event>, failure: Option<Failure>)

  /** The handler that `run_action` picks for a step. */
  function HandlerFor(step: Step): Handler {
    match step
    case PULL => RunPull
    case BUILD => RunBuild
    case STAGE => RunStage
    case PRIME => RunPrime
  }

  /** Each step has its own handler: the dispatch is one-to-one. */
  lemma HandlerForInjective(a: Step, b: Step)
    ensures HandlerFor(a) == HandlerFor(b) <==> a == b
  {
  }

  /**
   * `run_action`: an UPDATE does nothing. Otherwise the pre-step callback,
   * the step's handler, the state write for the action's step and the
   * post-step callback happen in that order; a failing handler stops the
   * sequence before anything is written.
   */
  function RunAction(part: Part, action: Action, handle: Handler -> Result<StepState, Failure>): (r: Outcome)
    ensures action.actionType == UPDATE ==> r == Outcome([], None)
    ensures action.actionType != UPDATE && handle(HandlerFor(action.step)).Ok? ==>
      && r.failure.None?
      && r.events == [PreStep(action.step), Handle(HandlerFor(action.step)),
                      WriteState(part.name, action.step, handle(HandlerFor(action.step)).value),
                      PostStep(action.step)]
    ensures action.actionType != UPDATE && handle(HandlerFor(action.step)).Err? ==>
      && r.failure == Some(handle(HandlerFor(action.step)).error)
      && r.events == [PreStep(action.step), Handle(HandlerFor(action.step))]
  {
    if action.actionType == UPDATE then Outcome([], None)
    else
      var handler := HandlerFor(action.step);
      match handle(handler)
      case Err(e) => Outcome([PreStep(action.step), Handle(handler)], Some(e))
      case Ok(state) =>
        Outcome([PreStep(action.step), Handle(handler), WriteState(part.name, action.step, state),
                 PostStep(action.step)], None)
  }

  /** State is only ever written for the action's own part and step, and only after the pre-step callback. */
  lemma RunActionWritesOnlyItsStep(part: Part, action: Action, handle: Handler -> Result<StepState, Failure>,
                                   k: nat)
    requires k < |RunAction(part, action, handle).events|
    requires RunAction(part, action, handle).events[k].WriteState?
    ensures RunAction(part, action, handle).events[k].partName == part.name
    ensures RunAction(part, action, handle).events[k].stateStep == action.step
    ensures k > 0 && RunAction(part, action, handle).events[0] == PreStep(action.step)
    ensures RunAction(part, action, handle).failure.None?
  {
  }

  /** The files and directories a step produced (empty when a scriptlet ran). */
  datatype StepContents = StepContents(files: set<string>, dirs: set<string>)

  /** Which of the two ways a step was carried out. */
  datatype StepRun = Scriptlet(scriptletName: string, script: string) | Builtin

  function ScriptletName(step: Step): string {
    match step
    case PULL => "override-pull"
    case BUILD => "override-build"
    case STAGE => "override-stage"
    case PRIME => "override-prime"
  }

  /**
   * `_run_step`: a non-empty override scriptlet runs instead of the built-in
   * handler and the step then reports no contents; otherwise the built-in
   * handler runs and its contents are returned.
   */
  function RunStepBody(part: Part, step: Step, builtin: StepContents): (r: (StepRun, StepContents))
    ensures (step in part.spec.scriptlets && |part.spec.scriptlets[step]| > 0) <==> r.0.Scriptlet?
    ensures r.0.Scriptlet? ==>
      r.0 == Scriptlet(ScriptletName(step), part.spec.scriptlets[step]) && r.1 == StepContents({}, {})
    ensures r.0.Builtin? ==> r.1 == builtin
  {
    if step in part.spec.scriptlets && |part.spec.scriptlets[step]| > 0 then
      (Scriptlet(ScriptletName(step), part.spec.scriptlets[step]), StepContents({}, {}))
    else (Builtin, builtin)
  }

  /** `_run_stage` and `_run_prime`: the recorded state lists exactly what the step produced. */
  function MigratingState(part: Part, step: Step, projectOptions: map<string, string>,
                          builtin: StepContents): (r: StepState)
    requires step == STAGE || step == PRIME
    ensures r.step == step && r.partProperties == part.marshalled && r.projectOptions == projectOptions
    ensures RunStepBody(part, step, builtin).0.Builtin? ==> r.files == builtin.files && r.directories == builtin.dirs
    ensures RunStepBody(part, step, builtin).0.Scriptlet? ==> r.files == {} && r.directories == {}
  {
    var contents := RunStepBody(part, step, builtin).1;
    StepState(step, part.marshalled, projectOptions, contents.files, contents.dirs)
  }

  /**
   * `_fetch_stage_packages`: nothing to fetch gives `None`; a package the
   * repository cannot find is reported against the part.
   */
  function FetchStagePackages(part: Part, fetch: seq<string> -> Result<seq<string>, Error>):
    (r: Result<Option<seq<string>>, Failure>)
    ensures |part.spec.stagePackages| == 0 <==> r == Ok(None)
    ensures |part.spec.stagePackages| > 0 && fetch(part.spec.stagePackages).Ok? ==>
      r == Ok(Some(fetch(part.spec.stagePackages).value))
    ensures |part.spec.stagePackages| > 0 && fetch(part.spec.stagePackages).Err? ==>
      && r.Err?
      && (fetch(part.spec.stagePackages).error.PackageNotFound? <==> r.error.StagePackageNotFound?)
      && (r.error.StagePackageNotFound? ==>
            r.error == StagePackageNotFound(part.name, fetch(part.spec.stagePackages).error.packageName))
      && (!r.error.StagePackageNotFound? ==> r.error == Parts(fetch(part.spec.stagePackages).error))
  {
    if |part.spec.stagePackages| == 0 then Ok(None)
    else match fetch(part.spec.stagePackages)
      case Ok(fetched) => Ok(Some(fetched))
      case Err(PackageNotFound(name)) => Err(StagePackageNotFound(part.name, name))
      case Err(e) => Err(Parts(e))
  }

  /** `_fetch_stage_snaps`: `None` when there are none, otherwise the list as given. */
  function FetchStageSnaps(part: Part): (r: Option<seq<string>>)
    ensures r.None? <==> |part.spec.stageSnaps| == 0
    ensures r.Some? ==> r.value == part.spec.stageSnaps
  {
    if |part.spec.stageSnaps| == 0 then None else Some(part.spec.stageSnaps)
  }

  /** Whether the part names a source (a present, non-empty string). */
  predicate HasSource(part: Part) {
    part.spec.source.Some? && |part.spec.source.value| > 0
  }

  /**
   * `_get_build_packages`: the part's own build packages, then those its
   * source type needs (only when it has a source), then the plugin's.
   */
  function GetBuildPackages(part: Part, sourcePackages: string -> seq<string>, pluginPackages: seq<string>):
    (r: seq<string>)
    ensures var own := part.spec.buildPackages;
      var src := if HasSource(part) then sourcePackages(part.spec.source.value) else [];
      && |r| == |own| + |src| + |pluginPackages|
      && r[..|own|] == own
      && r[|own|..|own| + |src|] == src
      && r[|own| + |src|..] == pluginPackages
    ensures forall x :: x in r <==>
      x in part.spec.buildPackages
      || (HasSource(part) && x in sourcePackages(part.spec.source.value))
      || x in pluginPackages
  {
    var src := if HasSource(part) then sourcePackages(part.spec.source.value) else [];
    part.spec.buildPackages + src + pluginPackages
  }

  /** `_get_build_snaps`: the part's build snaps, then the plugin's. */
  function GetBuildSnaps(part: Part, pluginSnaps: seq<string>): (r: seq<string>)
    ensures |r| == |part.spec.buildSnaps| + |pluginSnaps|
    ensures r[..|part.spec.buildSnaps|] == part.spec.buildSnaps
    ensures r[|part.spec.buildSnaps|..] == pluginSnaps
  {
    part.spec.buildSnaps + pluginSnaps
  }
}

=== FILE: parts.dfy ===
/**
 * Parts as the sequencer, the executor and the overlay manager see them,
 * and the two part-list queries the sequencer relies on: selecting parts
 * by name and finding a part's declared dependencies.
 */
module Parts {
  import opened Common
  import opened Steps
  import opened Errors

  /** The validated part properties the modelled code reads. */
  datatype PartSpec = PartSpec(
    source: Option<string>,
    after: seq<string>,
    buildPackages: seq<string>,
    buildSnaps: seq<string>,
    stagePackages: seq<string>,
    stageSnaps: seq<string>,
    scriptlets: map<Step, string>)

  /** A part: its name, its spec, and the spec marshalled back to a property map. */
  datatype Part = Part(name: string, spec: PartSpec, marshalled: map<string, string>)

  function Names(parts: seq<Part>): (r: seq<string>)
    ensures |r| == |parts|
    ensures forall i :: 0 <= i < |r| ==> r[i] == parts[i].name
  {
    seq(|parts|, i requires 0 <= i < |parts| => parts[i].name)
  }

  /** The first requested name that no part carries, if any. */
  function FirstUnknown(names: seq<string>, partList: seq<Part>): (r: Option<string>)
    ensures r.Some? ==> exists i :: (0 <= i < |names| && names[i] == r.value && r.value !in Names(partList)
      && forall j :: 0 <= j < i ==> names[j] in Names(partList))
    ensures r.None? ==> forall n :: n in names ==> n in Names(partList)
    decreases |names|
  {
    if |names| == 0 then None
    else if names[0] !in Names(partList) then Some(names[0])
    else
      var r := FirstUnknown(names[1..], partList);
      if r.Some? then
        var i :| 0 <= i < |names[1..]| && names[1..][i] == r.value && r.value !in Names(partList)
          && forall j :: 0 <= j < i ==> names[1..][j] in Names(partList);
        assert names[i + 1] == r.value;
        r
      else r
  }

  /**
   * Part selection: no names (or an empty list) selects every part; otherwise
   * every requested name must exist and the named parts are kept in list order.
   */
  function PartListByName(names: Option<seq<string>>, partList: seq<Part>): (r: Result<seq<Part>, Failure>)
    ensures (names.None? || |names.value| == 0) ==> r == Ok(partList)
    ensures r.Err? <==> names.Some? && exists n :: n in names.value && n !in Names(partList)
    ensures r.Err? ==>
      && r.error.Parts? && r.error.error.InvalidPartName?
      && exists i :: (0 <= i < |names.value| && names.value[i] == r.error.error.partName
        && r.error.error.partName !in Names(partList)
        && forall j :: 0 <= j < i ==> names.value[j] in Names(partList))
    ensures r.Ok? && names.Some? && |names.value| > 0 ==>
      forall p :: p in r.value <==> p in partList && p.name in names.value
  {
    if names.None? || |names.value| == 0 then Ok(partList)
    else match FirstUnknown(names.value, partList)
      case Some(n) => Err(Parts(InvalidPartName(n)))
      case None => Ok(Filter(partList, NamedIn(names.value)))
  }

  /**
   * A selection by name lists the named parts at their positions in the
   * part list, each position once and in increasing order.
   */
  lemma SelectionInListOrder(names: seq<string>, partList: seq<Part>)
    requires |names| > 0 && PartListByName(Some(names), partList).Ok?
    ensures var r := PartListByName(Some(names), partList).value;
      exists at: seq<nat> ::
        && |at| == |r|
        && (forall k :: 0 <= k < |at| ==> at[k] < |partList| && r[k] == partList[at[k]])
        && (forall k, l :: 0 <= k < l < |at| ==> at[k] < at[l])
        && (forall i :: 0 <= i < |partList| ==> (i in at <==> partList[i].name in names))
  {
    SelectionIsFilter(names, partList);
    NamedPositions(names, partList);
  }

  /** Filtering by name lists the named parts at their positions, in increasing order. */
  lemma NamedPositions(names: seq<string>, partList: seq<Part>)
    ensures var r := Filter(partList, NamedIn(names));
      exists at: seq<nat> ::
        && |at| == |r|
        && (forall k :: 0 <= k < |at| ==> at[k] < |partList| && r[k] == partList[at[k]])
        && (forall k, l :: 0 <= k < l < |at| ==> at[k] < at[l])
        && (forall i :: 0 <= i < |partList| ==> (i in at <==> partList[i].name in names))
  {
    FilterPositions(partList, NamedIn(names));
    assert forall i :: 0 <= i < |partList| ==> (NamedIn(names)(partList[i]) <==> partList[i].name in names);
  }

  /** A successful selection by names keeps the parts those names select. */
  lemma SelectionIsFilter(names: seq<string>, partList: seq<Part>)
    requires |names| > 0 && PartListByName(Some(names), partList).Ok?
    ensures PartListByName(Some(names), partList).value == Filter(partList, NamedIn(names))
  {
  }

  /** Whether a part carries one of the given names. */
  function NamedIn(names: seq<string>): Part -> bool {
    (p: Part) => p.name in names
  }

  /** No two parts of the list share a name, as with parts read from a mapping keyed by name. */
  predicate UniqueNames(partList: seq<Part>) {
    forall a, b :: 0 <= a < b < |partList| ==> partList[a].name != partList[b].name
  }

  /** Selecting a part by its own name selects that part alone. */
  lemma SelectByOwnName(partList: seq<Part>, k: nat)
    requires UniqueNames(partList) && k < |partList|
    ensures PartListByName(Some([partList[k].name]), partList) == Ok([partList[k]])
  {
    assert Names(partList)[k] == partList[k].name;
    FilterOne(partList, NamedIn([partList[k].name]), k);
  }

  /** The parts `part` is declared to come after, in part-list order. */
  function PartDependencies(part: Part, partList: seq<Part>): (r: seq<Part>)
    ensures forall p :: p in r <==> p in partList && p.name in part.spec.after
  {
    Filter(partList, (p: Part) => p.name in part.spec.after)
  }
}

=== FILE: pyvalues.dfy ===
/**
 * The loosely typed data the library receives from its caller (the
 * parts mapping as a YAML loader produces it, validation error records),
 * together with Python's truthiness, `repr()` and `str()` on such data.
 */
module PyValues {
  import opened Common

  /** A Python value as produced by a YAML loader; dictionaries keep insertion order. */
  datatype Value =
    | VNone
    | VBool(b: bool)
    | VInt(i: int)
    | VStr(s: string)
    | VList(items: seq<Value>)
    | VTuple(elems: seq<Value>)
    | VDict(entries: seq<(string, Value)>)

  /** `bool(v)`. */
  predicate Truthy(v: Value) {
    match v
    case VNone => false
    case VBool(b) => b
    case VInt(i) => i != 0
    case VStr(s) => |s| > 0
    case VList(items) => |items| > 0
    case VTuple(elems) => |elems| > 0
    case VDict(entries) => |entries| > 0
  }

  /** `key in d` for a dictionary given by its entries. */
  predicate HasKey(entries: seq<(string, Value)>, key: string) {
    exists i :: 0 <= i < |entries| && entries[i].0 == key
  }

  /** `d.get(key)`: the value stored under `key`, if any. */
  function DictGet(entries: seq<(string, Value)>, key: string): (r: Option<Value>)
    ensures r.Some? <==> HasKey(entries, key)
    ensures r.Some? ==> exists i :: 0 <= i < |entries| && entries[i] == (key, r.value)
    decreases |entries|
  {
    if |entries| == 0 then None
    else if entries[0].0 == key then Some(entries[0].1)
    else
      var r := DictGet(entries[1..], key);
      assert forall i :: 0 <= i < |entries| - 1 ==> entries[1..][i] == entries[i + 1];
      r
  }

  function HexDigit(n: nat): (r: char)
    requires n < 16
    ensures ('0' <= r <= '9' || 'a' <= r <= 'f') && (r <= '9' <==> n < 10)
  {
    "0123456789abcdef"[n]
  }

  /**
   * Characters `str.isprintable()` rejects: the controls, the separators
   * other than the space, and the format, private-use and noncharacter code
   * points listed here.
   */
  predicate NonPrintable(c: char) {
    var n := c as int;
    || n < 0x20 || (0x7F <= n <= 0xA0) || n == 0xAD
    || (0x600 <= n <= 0x605) || n == 0x61C || n == 0x6DD || n == 0x70F || n == 0x1680 || n == 0x180E
    || (0x2000 <= n <= 0x200F) || (0x2028 <= n <= 0x202F) || (0x205F <= n <= 0x206F) || n == 0x3000
    || (0xE000 <= n <= 0xF8FF) || n == 0xFEFF || (0xFFF9 <= n <= 0xFFFB) || n == 0xFFFE || n == 0xFFFF
    || n >= 0xF0000
  }

  /** The lowest `width` hexadecimal digits of `n`, most significant first. */
  function HexDigits(n: nat, width: nat): (r: string)
    ensures |r| == width
    ensures forall k :: 0 <= k < |r| ==> r[k] as int < 127
  {
    if width == 0 then "" else HexDigits(n / 16, width - 1) + [HexDigit(n % 16)]
  }

  /** How `repr()` spells one character inside a quoted string. */
  function EscapeChar(c: char, quote: char): (r: string)
    ensures c != '\\' && c != quote && !NonPrintable(c) ==> r == [c]
    ensures NonPrintable(c) && c != quote && c != '\n' && c != '\r' && c != '\t' ==>
      && |r| == (if c as int < 0x100 then 4 else if c as int < 0x10000 then 6 else 10)
      && r[0] == '\\' && (forall k :: 1 <= k < |r| ==> r[k] as int < 127)
  {
    if c == '\\' then "\\\\"
    else if c == quote then ['\\', c]
    else if c == '\n' then "\\n"
    else if c == '\r' then "\\r"
    else if c == '\t' then "\\t"
    else if NonPrintable(c) then
      if c as int < 0x100 then "\\x" + HexDigits(c as nat, 2)
      else if c as int < 0x10000 then "\\u" + HexDigits(c as nat, 4)
      else "\\U" + HexDigits(c as nat, 8)
    else [c]
  }

  function EscapeAll(s: string, quote: char): string
    decreases |s|
  {
    if |s| == 0 then "" else EscapeChar(s[0], quote) + EscapeAll(s[1..], quote)
  }

  /** `repr(s)` for a string: single quotes unless the text has `'` and no `"`. */
  function ReprStr(s: string): (r: string)
    ensures |r| >= 2
  {
    var quote := if '\'' in s && '"' !in s then '"' else '\'';
    [quote] + EscapeAll(s, quote) + [quote]
  }

  lemma {:induction false} EscapePlain(s: string, quote: char)
    requires forall i :: 0 <= i < |s| ==> s[i] != '\\' && s[i] != quote && ' ' <= s[i] && s[i] as int < 127
    ensures EscapeAll(s, quote) == s
    decreases |s|
  {
    if |s| > 0 {
      EscapePlain(s[1..], quote);
      assert s == [s[0]] + s[1..];
    }
  }

  /** Names made of printable characters without quotes or backslashes are shown as `'name'`. */
  lemma ReprPlain(s: string)
    requires forall i :: 0 <= i < |s| ==> s[i] != '\\' && s[i] != '\'' && s[i] != '"' && ' ' <= s[i] && s[i] as int < 127
    ensures ReprStr(s) == "'" + s + "'"
  {
    EscapePlain(s, '\'');
  }

  /** A string of one character other than `'` is quoted with `'` around that character's escape. */
  lemma ReprSingle(c: char)
    requires c != '\''
    ensures ReprStr([c]) == "'" + EscapeChar(c, '\'') + "'"
  {
    assert EscapeAll([c], '\'') == EscapeChar(c, '\'') + EscapeAll([], '\'');
  }

  lemma EscapeNoBreakSpace()
    ensures EscapeChar(0xA0 as char, '\'') == "\\xa0"
  {
    HexDigitsNoBreakSpace();
    assert "\\x" + "a0" == "\\xa0";
  }

  lemma HexDigitsNoBreakSpace()
    ensures HexDigits(0xA0, 2) == "a0"
  {
    var d1 := HexDigits(0xA, 1);
    assert d1 == [HexDigit(10)] == "a";
    assert HexDigits(0xA0, 2) == d1 + [HexDigit(0)];
  }

  lemma EscapeLineSeparator()
    ensures EscapeChar(0x2028 as char, '\'') == "\\u2028"
  {
    HexDigitsLineSeparator();
    assert "\\u" + "2028" == "\\u2028";
  }

  lemma HexDigitsLineSeparator()
    ensures HexDigits(0x2028, 4) == "2028"
  {
    HexDigitsTwenty();
    assert 0x202 / 16 == 0x20 && 0x202 % 16 == 2;
    var d3 := HexDigits(0x202, 3);
    assert d3 == HexDigits(0x20, 2) + [HexDigit(2)];
    assert d3 == "202";
    assert 0x2028 / 16 == 0x202 && 0x2028 % 16 == 8;
    assert HexDigits(0x2028, 4) == d3 + [HexDigit(8)];
  }

  lemma HexDigitsTwenty()
    ensures HexDigits(0x20, 2) == "20"
  {
    var d1 := HexDigits(0x2, 1);
    assert d1 == [HexDigit(2)] == "2";
    assert HexDigits(0x20, 2) == d1 + [HexDigit(0)];
  }

  /** A no-break space is written as `\xa0`. */
  lemma ReprNoBreakSpace()
    ensures ReprStr([0xA0 as char]) == "'\\xa0'"
  {
    ReprSingle(0xA0 as char);
    EscapeNoBreakSpace();
    assert "'" + "\\xa0" + "'" == "'\\xa0'";
  }

  /** A line separator is written as `\u2028`. */
  lemma ReprLineSeparator()
    ensures ReprStr([0x2028 as char]) == "'\\u2028'"
  {
    ReprSingle(0x2028 as char);
    EscapeLineSeparator();
    assert "'" + "\\u2028" + "'" == "'\\u2028'";
  }

  function ReprInt(i: int): string
    decreases if i < 0 then 1 - i else i
  {
    if i < 0 then "-" + ReprInt(-i)
    else if i < 10 then [HexDigit(i)]
    else ReprInt(i / 10) + [HexDigit(i % 10)]
  }

  /** `repr(v)`. */
  function Repr(v: Value): string
    decreases v
  {
    match v
    case VNone => "None"
    case VBool(b) => if b then "True" else "False"
    case VInt(i) => ReprInt(i)
    case VStr(s) => ReprStr(s)
    case VList(items) => "[" + Join(", ", ReprEach(items, v)) + "]"
    case VTuple(elems) =>
      if |elems| == 1 then "(" + Repr(elems[0]) + ",)"
      else "(" + Join(", ", ReprEach(elems, v)) + ")"
    case VDict(entries) => "{" + Join(", ", ReprEntries(entries, v)) + "}"
  }

  function ReprEach(items: seq<Value>, ghost parent: Value): seq<string>
    requires forall i :: 0 <= i < |items| ==> items[i] < parent
    decreases parent, |items|
  {
    if |items| == 0 then [] else [Repr(items[0])] + ReprEach(items[1..], parent)
  }

  function ReprEntries(entries: seq<(string, Value)>, ghost parent: Value): seq<string>
    requires forall i :: 0 <= i < |entries| ==> entries[i].1 < parent
    decreases parent, |entries|
  {
    if |entries| == 0 then []
    else [ReprStr(entries[0].0) + ": " + Repr(entries[0].1)] + ReprEntries(entries[1..], parent)
  }

  /** `str(v)`: strings are shown as they are, everything else as its `repr`. */
  function Str(v: Value): string {
    if v.VStr? then v.s else Repr(v)
  }
}

=== FILE: sequencer.dfy ===
/**
 * Planning: turning a target step and a part selection into a list of
 * actions. The per-(step, part) decision is a hook; the model fixes the
 * order in which the hook is consulted, how dependencies are pulled in,
 * and what running, rerunning and updating a step record.
 */
module Sequencer {
  import opened Common
  import opened Steps
  import opened Errors
  import opened Parts
  import opened StateManager
  import opened PyValues

  datatype ActionType = RUN | RERUN | SKIP | UPDATE

  datatype Action = Action(partName: string, step: Step, actionType: ActionType, reason: Option<string>)

  /** The planner's state: the part list, the project options, the state database and the actions so far. */
  datatype Sequencer = Sequencer(
    partList: seq<Part>,
    projectOptions: map<string, string>,
    db: StateDB,
    actions: seq<Action>)

  /** One consultation of the per-step hook: the arguments `_add_step_actions` receives. */
  datatype Visit = Visit(
    currentStep: Step,
    targetStep: Step,
    part: Part,
    partNames: Option<seq<string>>,
    reason: Option<string>)

  /** The per-(step, part) decision, which may itself fail. */
  type Hook = (Sequencer, Visit) -> Result<Sequencer, Failure>

  /** The hook as the source leaves it: it does nothing. */
  function NoOpHook(): Hook {
    (s: Sequencer, v: Visit) => Ok(s)
  }

  /**
   * A sequencer over a part list taken as already in dependency order (the
   * sort itself is not modelled), with the loaded states recorded in order.
   */
  function NewSequencer(partList: seq<Part>, projectOptions: map<string, string>,
                        loaded: seq<(string, Step, StepState)>): (r: Sequencer)
    ensures r.actions == [] && Valid(r.db) && r.partList == partList
  {
    Sequencer(partList, projectOptions, Load(loaded), [])
  }

  /** The visits for one step: every selected part, in order. */
  function StepVisits(step: Step, target: Step, parts: seq<Part>, names: Option<seq<string>>,
                      reason: Option<string>): (r: seq<Visit>)
    ensures |r| == |parts|
    ensures forall j :: 0 <= j < |r| ==> r[j] == Visit(step, target, parts[j], names, reason)
  {
    seq(|parts|, j requires 0 <= j < |parts| => Visit(step, target, parts[j], names, reason))
  }

  /** The nested loops of `_add_all_actions`: steps outside, parts inside. */
  function Visits(steps: seq<Step>, target: Step, parts: seq<Part>, names: Option<seq<string>>,
                  reason: Option<string>): seq<Visit>
    decreases |steps|
  {
    if |steps| == 0 then []
    else StepVisits(steps[0], target, parts, names, reason) + Visits(steps[1..], target, parts, names, reason)
  }

  lemma {:induction false} VisitsLength(steps: seq<Step>, target: Step, parts: seq<Part>,
                                        names: Option<seq<string>>, reason: Option<string>)
    ensures |Visits(steps, target, parts, names, reason)| == |steps| * |parts|
    decreases |steps|
  {
    if |steps| > 0 {
      VisitsLength(steps[1..], target, parts, names, reason);
      MulSucc(|steps| - 1, |parts|);
    }
  }

  lemma MulSucc(i: nat, n: nat)
    ensures (i + 1) * n == i * n + n
  {
  }

  /** Visit `i * |parts| + j` is step `i` with part `j`. */
  lemma {:induction false} VisitAt(steps: seq<Step>, target: Step, parts: seq<Part>,
                                   names: Option<seq<string>>, reason: Option<string>, i: nat, j: nat)
    requires i < |steps| && j < |parts|
    ensures i * |parts| + j < |Visits(steps, target, parts, names, reason)|
    ensures Visits(steps, target, parts, names, reason)[i * |parts| + j]
            == Visit(steps[i], target, parts[j], names, reason)
    decreases i
  {
    var n := |parts|;
    VisitsLength(steps, target, parts, names, reason);
    MulSucc(i, n);
    assert i * n + n <= |steps| * n by {
      MulMono(i + 1, |steps|, n);
    }
    if i > 0 {
      VisitAt(steps[1..], target, parts, names, reason, i - 1, j);
      MulSucc(i - 1, n);
      assert steps[1..][i - 1] == steps[i];
    }
  }

  lemma MulMono(a: nat, b: nat, n: nat)
    requires a <= b
    ensures a * n <= b * n
  {
  }

  /** Visits come in non-decreasing step order when the steps do. */
  lemma {:induction false} VisitsOrdered(steps: seq<Step>, target: Step, parts: seq<Part>,
                                         names: Option<seq<string>>, reason: Option<string>)
    requires forall i, j :: 0 <= i < j < |steps| ==> Before(steps[i], steps[j])
    ensures forall a, b :: 0 <= a < b < |Visits(steps, target, parts, names, reason)| ==>
      Visits(steps, target, parts, names, reason)[a].currentStep.Index()
        <= Visits(steps, target, parts, names, reason)[b].currentStep.Index()
    ensures forall a :: 0 <= a < |Visits(steps, target, parts, names, reason)| ==>
      Visits(steps, target, parts, names, reason)[a].currentStep in steps
    decreases |steps|
  {
    if |steps| > 0 {
      var head := StepVisits(steps[0], target, parts, names, reason);
      var rest := Visits(steps[1..], target, parts, names, reason);
      VisitsOrdered(steps[1..], target, parts, names, reason);
      forall a | 0 <= a < |rest|
        ensures rest[a].currentStep.Index() > steps[0].Index()
      {
        var k :| 0 <= k < |steps[1..]| && steps[1..][k] == rest[a].currentStep;
        assert steps[1..][k] == steps[k + 1];
      }
    }
  }

  /** Consults the hook for each visit in turn; the first failure stops the walk. */
  function ApplyVisits(s: Sequencer, visits: seq<Visit>, hook: Hook): Result<Sequencer, Failure>
    decreases |visits|
  {
    if |visits| == 0 then Ok(s)
    else
      var s1 :- hook(s, visits[0]);
      ApplyVisits(s1, visits[1..], hook)
  }

  /** `_add_all_actions`: selects the parts, then visits each step up to the target for each of them. */
  function AddAllActions(s: Sequencer, target: Step, partNames: Option<seq<string>>,
                         reason: Option<string>, hook: Hook): (r: Result<Sequencer, Failure>)
    ensures PartListByName(partNames, s.partList).Err? ==> r == Err(PartListByName(partNames, s.partList).error)
    ensures PartListByName(partNames, s.partList).Ok? ==>
      r == ApplyVisits(s, Visits(StepsUpTo(target), target, PartListByName(partNames, s.partList).value,
                                 partNames, reason), hook)
  {
    var selected :- PartListByName(partNames, s.partList);
    ApplyVisits(s, Visits(StepsUpTo(target), target, selected, partNames, reason), hook)
  }

  /** `plan`: the actions accumulated from an empty list. */
  function Plan(s: Sequencer, target: Step, partNames: Option<seq<string>>, hook: Hook): Result<seq<Action>, Failure> {
    var s1 :- AddAllActions(s.(actions := []), target, partNames, None, hook);
    Ok(s1.actions)
  }

  /** Earlier actions never leak into a plan: two sequencers that differ only in them plan alike. */
  lemma PlanIgnoresPreviousActions(s: Sequencer, previous: seq<Action>, target: Step,
                                   partNames: Option<seq<string>>, hook: Hook)
    ensures Plan(s.(actions := previous), target, partNames, hook) == Plan(s, target, partNames, hook)
  {
    assert s.(actions := previous).(actions := []) == s.(actions := []);
  }

  /** With the hook as shipped, every valid selection plans nothing. */
  lemma {:induction false} PlanWithNoOpHook(s: Sequencer, target: Step, partNames: Option<seq<string>>)
    ensures PartListByName(partNames, s.partList).Ok? ==> Plan(s, target, partNames, NoOpHook()) == Ok([])
    ensures PartListByName(partNames, s.partList).Err? ==> Plan(s, target, partNames, NoOpHook()).Err?
  {
    if PartListByName(partNames, s.partList).Ok? {
      var s0 := s.(actions := []);
      NoOpVisits(s0, Visits(StepsUpTo(target), target, PartListByName(partNames, s.partList).value,
                            partNames, None));
    }
  }

  lemma {:induction false} NoOpVisits(s: Sequencer, visits: seq<Visit>)
    ensures ApplyVisits(s, visits, NoOpHook()) == Ok(s)
    decreases |visits|
  {
    if |visits| > 0 {
      NoOpVisits(s, visits[1..]);
    }
  }

  /** A hook that records one RUN action per visit, to observe the order of consultation. */
  function RecordingHook(): Hook {
    (s: Sequencer, v: Visit) => Ok(s.(actions := s.actions + [Action(v.part.name, v.currentStep, RUN, v.reason)]))
  }

  function Recorded(visits: seq<Visit>): (r: seq<Action>)
    ensures |r| == |visits|
    ensures forall k :: 0 <= k < |r| ==>
      r[k] == Action(visits[k].part.name, visits[k].currentStep, RUN, visits[k].reason)
  {
    seq(|visits|, k requires 0 <= k < |visits| => Action(visits[k].part.name, visits[k].currentStep, RUN, visits[k].reason))
  }

  lemma {:induction false} RecordingVisits(s: Sequencer, visits: seq<Visit>)
    ensures ApplyVisits(s, visits, RecordingHook()) == Ok(s.(actions := s.actions + Recorded(visits)))
    decreases |visits|
  {
    if |visits| > 0 {
      var s1 := RecordVisit(s, visits[0]);
      assert ApplyVisits(s, visits, RecordingHook()) == ApplyVisits(s1, visits[1..], RecordingHook());
      RecordingVisits(s1, visits[1..]);
      RecordedCons(s.actions, visits);
    } else {
      assert s.actions + Recorded(visits) == s.actions;
    }
  }

  /** One consultation of the recording hook appends the visit's action. */
  function RecordVisit(s: Sequencer, v: Visit): (r: Sequencer)
    ensures RecordingHook()(s, v) == Ok(r)
    ensures r == s.(actions := s.actions + [Action(v.part.name, v.currentStep, RUN, v.reason)])
  {
    s.(actions := s.actions + [Action(v.part.name, v.currentStep, RUN, v.reason)])
  }

  /** Recording after earlier actions keeps them and puts visit `k`'s action at `|before| + k`. */
  lemma RecordedAfter(before: seq<Action>, visits: seq<Visit>, k: nat)
    ensures |before + Recorded(visits)| == |before| + |visits|
    ensures (before + Recorded(visits))[..|before|] == before
    ensures k < |visits| ==>
      (before + Recorded(visits))[|before| + k] == Action(visits[k].part.name, visits[k].currentStep, RUN, visits[k].reason)
  {
  }

  /** After earlier actions, the recorded visit of step `i` and part `j` sits at `|before| + i * |parts| + j`. */
  lemma RecordedStepMajor(before: seq<Action>, steps: seq<Step>, target: Step, parts: seq<Part>,
                          names: Option<seq<string>>, reason: Option<string>, i: nat, j: nat)
    requires i < |steps| && j < |parts|
    ensures var acts := before + Recorded(Visits(steps, target, parts, names, reason));
      && |before| + i * |parts| + j < |acts|
      && acts[|before| + i * |parts| + j] == Action(parts[j].name, steps[i], RUN, reason)
  {
    var visits := Visits(steps, target, parts, names, reason);
    VisitAt(steps, target, parts, names, reason, i, j);
    RecordedAfter(before, visits, i * |parts| + j);
  }

  lemma RecordedCons(before: seq<Action>, visits: seq<Visit>)
    requires |visits| > 0
    ensures (before + [Action(visits[0].part.name, visits[0].currentStep, RUN, visits[0].reason)])
              + Recorded(visits[1..]) == before + Recorded(visits)
  {
    var a := Action(visits[0].part.name, visits[0].currentStep, RUN, visits[0].reason);
    assert Recorded(visits) == [a] + Recorded(visits[1..]);
  }

  /**
   * `_add_all_actions` with a hook that records each visit: an unknown part
   * name fails; otherwise one action per step up to the target for each
   * selected part, appended step-major (action `i * n + j` after the
   * earlier ones is step `i` for the `j`-th of the `n` selected parts), and
   * nothing else changes.
   */
  lemma AddAllActionsRecorded(s: Sequencer, target: Step, partNames: Option<seq<string>>,
                              reason: Option<string>, i: nat, j: nat)
    ensures PartListByName(partNames, s.partList).Err? ==>
      AddAllActions(s, target, partNames, reason, RecordingHook()) == Err(PartListByName(partNames, s.partList).error)
    ensures PartListByName(partNames, s.partList).Ok? ==>
      var selected := PartListByName(partNames, s.partList).value;
      var r := AddAllActions(s, target, partNames, reason, RecordingHook());
      && r.Ok? && r.value == s.(actions := r.value.actions)
      && |r.value.actions| == |s.actions| + (target.Index() + 1) * |selected|
      && r.value.actions[..|s.actions|] == s.actions
      && (i <= target.Index() && j < |selected| ==>
            r.value.actions[|s.actions| + i * |selected| + j]
              == Action(selected[j].name, StepsUpTo(target)[i], RUN, reason))
  {
    if PartListByName(partNames, s.partList).Ok? {
      var selected := PartListByName(partNames, s.partList).value;
      var visits := Visits(StepsUpTo(target), target, selected, partNames, reason);
      RecordingVisits(s, visits);
      VisitsLength(StepsUpTo(target), target, selected, partNames, reason);
      RecordedAfter(s.actions, visits, 0);
      if i <= target.Index() && j < |selected| {
        RecordedStepMajor(s.actions, StepsUpTo(target), target, selected, partNames, reason, i, j);
      }
    }
  }

  /**
   * The plan is step-major: with a hook that records each visit, action
   * `i * n + j` of the plan is step `i` for the `j`-th of the `n` selected parts.
   */
  lemma PlanIsStepMajor(s: Sequencer, target: Step, partNames: Option<seq<string>>, i: nat, j: nat)
    requires PartListByName(partNames, s.partList).Ok?
    requires i <= target.Index() && j < |PartListByName(partNames, s.partList).value|
    ensures var selected := PartListByName(partNames, s.partList).value;
      var plan := Plan(s, target, partNames, RecordingHook());
      && plan.Ok?
      && |plan.value| == (target.Index() + 1) * |selected|
      && i * |selected| + j < |plan.value|
      && plan.value[i * |selected| + j] == Action(selected[j].name, StepsUpTo(target)[i], RUN, None)
  {
    var selected := PartListByName(partNames, s.partList).value;
    var visits := Visits(StepsUpTo(target), target, selected, partNames, None);
    RecordingVisits(s.(actions := []), visits);
    VisitsLength(StepsUpTo(target), target, selected, partNames, None);
    VisitAt(StepsUpTo(target), target, selected, partNames, None, i, j);
  }

  /** With a recording hook, the steps of the planned actions never go backwards. */
  lemma PlanStepsNonDecreasing(s: Sequencer, target: Step, partNames: Option<seq<string>>)
    requires PartListByName(partNames, s.partList).Ok?
    ensures var plan := Plan(s, target, partNames, RecordingHook());
      && plan.Ok?
      && (forall a, b :: 0 <= a < b < |plan.value| ==> plan.value[a].step.Index() <= plan.value[b].step.Index())
      && (forall a :: 0 <= a < |plan.value| ==> plan.value[a].step.Index() <= target.Index())
  {
    var selected := PartListByName(partNames, s.partList).value;
    var visits := Visits(StepsUpTo(target), target, selected, partNames, None);
    RecordingVisits(s.(actions := []), visits);
    VisitsOrdered(StepsUpTo(target), target, selected, partNames, None);
  }

  /** `_add_action`. */
  function AddAction(s: Sequencer, part: Part, step: Step, actionType: ActionType, reason: Option<string>): (r: Sequencer)
    ensures r.actions == s.actions + [Action(part.name, step, actionType, reason)]
    ensures r.db == s.db && r.partList == s.partList
  {
    s.(actions := s.actions + [Action(part.name, step, actionType, reason)])
  }

  /** The reason given to a dependency's actions. */
  function DependencyReason(step: Step, partName: string): string {
    "required to " + Verb(step) + " " + ReprStr(partName)
  }

  /** The dependencies whose prerequisite step should run, judged on the states before any planning. */
  function DepsToPlan(s: Sequencer, part: Part, prerequisite: Step): (r: seq<Part>)
    ensures forall p :: p in r <==>
      p in s.partList && p.name in part.spec.after && ShouldStepRun(s.db, p.name, prerequisite)
  {
    Filter(PartDependencies(part, s.partList), (p: Part) => ShouldStepRun(s.db, p.name, prerequisite))
  }

  /** One RUN action per step, in order, for the named part, with the given reason. */
  function StepRuns(partName: string, steps: seq<Step>, reason: string): (r: seq<Action>)
    ensures |r| == |steps|
    ensures forall i :: 0 <= i < |r| ==> r[i] == Action(partName, steps[i], RUN, Some(reason))
  {
    seq(|steps|, i requires 0 <= i < |steps| => Action(partName, steps[i], RUN, Some(reason)))
  }

  /** What planning the prerequisite for each dependency records: every step up to it, one dependency after another. */
  function DepRuns(deps: seq<Part>, prerequisite: Step, reason: string): seq<Action>
    decreases |deps|
  {
    if |deps| == 0 then [] else StepRuns(deps[0].name, StepsUpTo(prerequisite), reason) + DepRuns(deps[1..], prerequisite, reason)
  }

  /** Plans the prerequisite step for each dependency in turn. */
  function PlanDeps(s: Sequencer, deps: seq<Part>, prerequisite: Step, reason: string, hook: Hook): Result<Sequencer, Failure>
    decreases |deps|
  {
    if |deps| == 0 then Ok(s)
    else
      var s1 :- AddAllActions(s, prerequisite, Some([deps[0].name]), Some(reason), hook);
      PlanDeps(s1, deps[1..], prerequisite, reason, hook)
  }

  /**
   * `_process_dependencies`: without a prerequisite step nothing happens;
   * otherwise the prerequisite is planned for exactly the dependencies that
   * should run it, each with the reason naming the dependent part.
   */
  function ProcessDependencies(s: Sequencer, part: Part, step: Step,
                               prerequisiteOf: Step -> Option<Step>, hook: Hook): (r: Result<Sequencer, Failure>)
    ensures prerequisiteOf(step).None? ==> r == Ok(s)
    ensures prerequisiteOf(step).Some? ==>
      r == PlanDeps(s, DepsToPlan(s, part, prerequisiteOf(step).value), prerequisiteOf(step).value,
                    DependencyReason(step, part.name), hook)
  {
    match prerequisiteOf(step)
    case None => Ok(s)
    case Some(pre) => PlanDeps(s, DepsToPlan(s, part, pre), pre, DependencyReason(step, part.name), hook)
  }

  /** The visits of one selected part, recorded, are that part's runs of every step. */
  lemma RecordedOnePart(steps: seq<Step>, target: Step, dep: Part, reason: string)
    ensures Recorded(Visits(steps, target, [dep], Some([dep.name]), Some(reason))) == StepRuns(dep.name, steps, reason)
  {
    var visits := Visits(steps, target, [dep], Some([dep.name]), Some(reason));
    VisitsLength(steps, target, [dep], Some([dep.name]), Some(reason));
    forall i | 0 <= i < |steps|
      ensures Recorded(visits)[i] == StepRuns(dep.name, steps, reason)[i]
    {
      VisitAt(steps, target, [dep], Some([dep.name]), Some(reason), i, 0);
    }
  }

  /** Planning one dependency by its name records that part's runs of every step up to the target. */
  lemma RecordOneDep(s: Sequencer, k: nat, target: Step, reason: string)
    requires UniqueNames(s.partList) && k < |s.partList|
    ensures var d := s.partList[k];
      AddAllActions(s, target, Some([d.name]), Some(reason), RecordingHook())
        == Ok(s.(actions := s.actions + StepRuns(d.name, StepsUpTo(target), reason)))
  {
    var d := s.partList[k];
    SelectByOwnName(s.partList, k);
    RecordingVisits(s, Visits(StepsUpTo(target), target, [d], Some([d.name]), Some(reason)));
    RecordedOnePart(StepsUpTo(target), target, d, reason);
  }

  lemma DepRunsCons(deps: seq<Part>, prerequisite: Step, reason: string)
    requires |deps| > 0
    ensures DepRuns(deps, prerequisite, reason)
      == StepRuns(deps[0].name, StepsUpTo(prerequisite), reason) + DepRuns(deps[1..], prerequisite, reason)
  {
  }

  /** Appending two batches of actions one after the other appends their concatenation. */
  lemma AppendTwice(s: Sequencer, first: seq<Action>, second: seq<Action>)
    ensures s.(actions := s.actions + first).(actions := s.actions + first + second)
      == s.(actions := s.actions + (first + second))
  {
    assert s.actions + first + second == s.actions + (first + second);
  }

  /** With a recording hook, planning the dependencies appends exactly their runs, in order. */
  lemma {:induction false} PlanDepsRecorded(s: Sequencer, deps: seq<Part>, prerequisite: Step, reason: string)
    requires UniqueNames(s.partList)
    requires forall i :: 0 <= i < |deps| ==> deps[i] in s.partList
    ensures PlanDeps(s, deps, prerequisite, reason, RecordingHook())
      == Ok(s.(actions := s.actions + DepRuns(deps, prerequisite, reason)))
    decreases |deps|
  {
    if |deps| > 0 {
      var d := deps[0];
      var k :| 0 <= k < |s.partList| && s.partList[k] == d;
      RecordOneDep(s, k, prerequisite, reason);
      var runs := StepRuns(d.name, StepsUpTo(prerequisite), reason);
      var s1 := s.(actions := s.actions + runs);
      assert PlanDeps(s, deps, prerequisite, reason, RecordingHook())
        == PlanDeps(s1, deps[1..], prerequisite, reason, RecordingHook());
      forall i | 0 <= i < |deps[1..]| ensures deps[1..][i] in s1.partList {
        assert deps[1..][i] == deps[i + 1];
      }
      PlanDepsRecorded(s1, deps[1..], prerequisite, reason);
      DepRunsCons(deps, prerequisite, reason);
      AppendTwice(s, runs, DepRuns(deps[1..], prerequisite, reason));
    } else {
      assert s.actions + DepRuns(deps, prerequisite, reason) == s.actions;
    }
  }

  /**
   * `_process_dependencies` with a hook that records each visit: without a
   * prerequisite nothing is planned; otherwise, for each dependency that
   * should run the prerequisite, in part-list order, one RUN action per step
   * up to the prerequisite, each with the reason naming the dependent part.
   */
  lemma ProcessDependenciesRecorded(s: Sequencer, part: Part, step: Step, prerequisiteOf: Step -> Option<Step>)
    requires UniqueNames(s.partList)
    ensures prerequisiteOf(step).None? ==> ProcessDependencies(s, part, step, prerequisiteOf, RecordingHook()) == Ok(s)
    ensures prerequisiteOf(step).Some? ==>
      var pre := prerequisiteOf(step).value;
      ProcessDependencies(s, part, step, prerequisiteOf, RecordingHook())
        == Ok(s.(actions := s.actions + DepRuns(DepsToPlan(s, part, pre), pre, DependencyReason(step, part.name))))
  {
    if prerequisiteOf(step).Some? {
      var pre := prerequisiteOf(step).value;
      var deps := DepsToPlan(s, part, pre);
      assert forall i :: 0 <= i < |deps| ==> deps[i] in s.partList;
      PlanDepsRecorded(s, deps, pre, DependencyReason(step, part.name));
    }
  }

  /** The fresh state `_run_step` records: the part's properties, the project options, nothing migrated yet. */
  function FreshState(s: Sequencer, part: Part, step: Step): StepState {
    StepState(step, part.marshalled, s.projectOptions, {}, {})
  }

  /**
   * `_run_step`: dependencies first, then exactly one RUN (or RERUN) action
   * for this part and step, then a fresh state stored for it.
   */
  function RunStep(s: Sequencer, part: Part, step: Step, reason: Option<string>, rerun: bool,
                   prerequisiteOf: Step -> Option<Step>, hook: Hook): (r: Result<Sequencer, Failure>)
    ensures ProcessDependencies(s, part, step, prerequisiteOf, hook).Err? ==> r.Err?
    ensures ProcessDependencies(s, part, step, prerequisiteOf, hook).Ok? ==> r.Ok?
    ensures r.Ok? ==>
      var mid := ProcessDependencies(s, part, step, prerequisiteOf, hook).value;
      && r.value.actions == mid.actions + [Action(part.name, step, if rerun then RERUN else RUN, reason)]
      && HasStepRun(r.value.db, part.name, step)
      && Get(r.value.db, part.name, step) == Some(Wrapper(FreshState(s, part, step), mid.db.nextSerial, false))
      && (Valid(mid.db) ==> Valid(r.value.db) && OutdatedReport(r.value.db, part.name, step) == None)
      && forall p, q :: (p, q) != (part.name, step) ==> Get(r.value.db, p, q) == Get(mid.db, p, q)
  {
    var mid :- ProcessDependencies(s, part, step, prerequisiteOf, hook);
    var s1 := AddAction(mid, part, step, if rerun then RERUN else RUN, reason);
    var r := s1.(db := SetState(s1.db, part.name, step, FreshState(s, part, step)));
    if Valid(mid.db) then
      SetStateNotOutdated(s1.db, part.name, step, FreshState(s, part, step));
      Ok(r)
    else Ok(r)
  }

  /** `_rerun_step`: forget the step and every later step of the part, then run it again as RERUN. */
  function RerunStep(s: Sequencer, part: Part, step: Step, reason: Option<string>,
                     prerequisiteOf: Step -> Option<Step>, hook: Hook): (r: Result<Sequencer, Failure>)
    ensures r.Ok? ==>
      && |r.value.actions| > 0
      && r.value.actions[|r.value.actions| - 1] == Action(part.name, step, RERUN, reason)
      && HasStepRun(r.value.db, part.name, step)
  {
    var cleaned := s.(db := CleanPart(s.db, part.name, step));
    RunStep(cleaned, part, step, reason, true, prerequisiteOf, hook)
  }

  /** With the hook as shipped, a rerun leaves no state for the steps after it. */
  lemma RerunClearsLaterSteps(s: Sequencer, part: Part, step: Step, reason: Option<string>,
                              prerequisiteOf: Step -> Option<Step>, later: Step)
    requires Before(step, later)
    ensures RerunStep(s, part, step, reason, prerequisiteOf, NoOpHook()).Ok?
    ensures !HasStepRun(RerunStep(s, part, step, reason, prerequisiteOf, NoOpHook()).value.db, part.name, later)
  {
    var cleaned := s.(db := CleanPart(s.db, part.name, step));
    NoOpProcessDependencies(cleaned, part, step, prerequisiteOf);
    assert Get(cleaned.db, part.name, later) == None;
  }

  /** With the hook as shipped, processing dependencies changes nothing. */
  lemma NoOpProcessDependencies(s: Sequencer, part: Part, step: Step, prerequisiteOf: Step -> Option<Step>)
    ensures ProcessDependencies(s, part, step, prerequisiteOf, NoOpHook()) == Ok(s)
  {
    match prerequisiteOf(step)
    case None =>
    case Some(pre) =>
      var deps := DepsToPlan(s, part, pre);
      forall i | 0 <= i < |deps| ensures deps[i].name in Names(s.partList) {
        var k :| 0 <= k < |s.partList| && s.partList[k] == deps[i];
        assert Names(s.partList)[k] == deps[i].name;
      }
      NoOpDeps(s, deps, pre, DependencyReason(step, part.name));
  }

  lemma {:induction false} NoOpDeps(s: Sequencer, deps: seq<Part>, prerequisite: Step, reason: string)
    requires forall i :: 0 <= i < |deps| ==> deps[i].name in Names(s.partList)
    ensures PlanDeps(s, deps, prerequisite, reason, NoOpHook()) == Ok(s)
    decreases |deps|
  {
    if |deps| > 0 {
      var sel := PartListByName(Some([deps[0].name]), s.partList);
      assert sel.Ok?;
      NoOpVisits(s, Visits(StepsUpTo(prerequisite), prerequisite, sel.value, Some([deps[0].name]), Some(reason)));
      NoOpDeps(s, deps[1..], prerequisite, reason);
    }
  }

  /** `_update_step`: exactly one UPDATE action, and the state re-stamped as updated. */
  function UpdateStep(s: Sequencer, part: Part, step: Step, reason: Option<string>): (r: Sequencer)
    ensures r.actions == s.actions + [Action(part.name, step, UPDATE, reason)]
    ensures forall p, q :: HasStepRun(r.db, p, q) <==> HasStepRun(s.db, p, q)
    ensures HasStepRun(s.db, part.name, step) ==>
      IsStepUpdated(r.db, part.name, step) && OutdatedReport(r.db, part.name, step) == None
    ensures Valid(s.db) ==> Valid(r.db)
  {
    var s1 := AddAction(s, part, step, UPDATE, reason);
    s1.(db := UpdateStateTimestamp(s1.db, part.name, step))
  }
}

=== FILE: state_manager.dfy ===
/**
 * The in-memory step-state database and the staleness rules built on it.
 *
 * Every stored state is wrapped with a serial number drawn from a counter
 * that starts at 1 and only grows, so serial order is the order in which
 * states were recorded. A step is outdated when an earlier step of the same
 * part was recorded after it.
 */
module StateManager {
  import opened Common
  import opened Steps

  /** A step's recorded state: the inputs it ran with and, for STAGE and PRIME, what it migrated. */
  datatype StepState = StepState(
    step: Step,
    partProperties: map<string, string>,
    projectOptions: map<string, string>,
    files: set<string>,
    directories: set<string>)

  /** `_StateWrapper`: a state plus its serial and whether an update was scheduled for it. */
  datatype Wrapper = Wrapper(state: StepState, serial: int, stepUpdated: bool) {
    predicate IsNewerThan(other: Wrapper) {
      serial > other.serial
    }
  }

  /** The database key: a part name and a step. */
  type Key = (string, Step)

  /** `_StateDB`: the wrapped states and the next value of the serial counter. */
  datatype StateDB = StateDB(entries: map<Key, Wrapper>, nextSerial: int)

  /** A fresh database: no states, the counter at 1. */
  function NewDB(): (db: StateDB)
    ensures db.entries == map[] && db.nextSerial == 1
  {
    StateDB(map[], 1)
  }

  /** Every stored serial was handed out by this database's counter. */
  predicate Valid(db: StateDB) {
    db.nextSerial >= 1 && forall k :: k in db.entries ==> 1 <= db.entries[k].serial < db.nextSerial
  }

  lemma NewDBValid()
    ensures Valid(NewDB())
  {
  }

  /** `wrap_state`: draws the next serial; the stored states are untouched. */
  function WrapState(db: StateDB, state: StepState, stepUpdated: bool): (r: (StateDB, Wrapper))
    ensures Valid(db) ==> Valid(r.0)
    ensures r.0.entries == db.entries && r.0.nextSerial == db.nextSerial + 1
    ensures r.1.state == state && r.1.stepUpdated == stepUpdated
    ensures r.1.serial < r.0.nextSerial
    ensures Valid(db) ==> forall k :: k in db.entries ==> r.1.IsNewerThan(db.entries[k])
  {
    (db.(nextSerial := db.nextSerial + 1), Wrapper(state, db.nextSerial, stepUpdated))
  }

  /** `get`. */
  function Get(db: StateDB, part: string, step: Step): Option<Wrapper> {
    if (part, step) in db.entries then Some(db.entries[(part, step)]) else None
  }

  /** `test`: whether a state is stored for the part and step. */
  function Test(db: StateDB, part: string, step: Step): (r: bool)
    ensures r <==> Get(db, part, step).Some?
  {
    (part, step) in db.entries
  }

  /** `remove`: forgets the state for one key; forgetting an absent key changes nothing. */
  function Remove(db: StateDB, part: string, step: Step): (r: StateDB)
    ensures Get(r, part, step) == None
    ensures forall p, s :: (p, s) != (part, step) ==> Get(r, p, s) == Get(db, p, s)
    ensures Get(db, part, step) == None ==> r == db
    ensures r.nextSerial == db.nextSerial
  {
    db.(entries := db.entries - {(part, step)})
  }

  /** `set`: stores a wrapped state, or removes the key when given `None`. */
  function Set(db: StateDB, part: string, step: Step, state: Option<Wrapper>): (r: StateDB)
    ensures Get(r, part, step) == state
    ensures forall p, s :: (p, s) != (part, step) ==> Get(r, p, s) == Get(db, p, s)
    ensures r.nextSerial == db.nextSerial
  {
    if state.None? then Remove(db, part, step)
    else db.(entries := db.entries[(part, step) := state.value])
  }

  lemma SetNoneIsRemove(db: StateDB, part: string, step: Step)
    ensures Set(db, part, step, None) == Remove(db, part, step)
  {
  }

  /** `rewrap`: gives a stored state a fresh serial and the given update flag. */
  function Rewrap(db: StateDB, part: string, step: Step, stepUpdated: bool): (r: StateDB)
    ensures Valid(db) ==> Valid(r)
    ensures Get(db, part, step).None? ==> r == db
    ensures Get(db, part, step).Some? ==>
      && Get(r, part, step).Some?
      && Get(r, part, step).value.state == Get(db, part, step).value.state
      && Get(r, part, step).value.serial == db.nextSerial
      && Get(r, part, step).value.stepUpdated == stepUpdated
      && r.nextSerial == db.nextSerial + 1
    ensures forall p, s :: (p, s) != (part, step) ==> Get(r, p, s) == Get(db, p, s)
  {
    match Get(db, part, step)
    case None => db
    case Some(stw) =>
      var (db', w) := WrapState(db, stw.state, stepUpdated);
      Set(db', part, step, Some(w))
  }

  /** After a rewrap the entry is newer than every other stored entry. */
  lemma RewrapIsNewest(db: StateDB, part: string, step: Step, stepUpdated: bool, p: string, s: Step)
    requires Valid(db)
    requires Get(db, part, step).Some? && Get(db, p, s).Some? && (p, s) != (part, step)
    ensures Get(Rewrap(db, part, step, stepUpdated), part, step).value.IsNewerThan(
              Get(Rewrap(db, part, step, stepUpdated), p, s).value)
  {
  }

  /** `is_step_updated`: the stored flag, or false when nothing is stored. */
  function IsStepUpdated(db: StateDB, part: string, step: Step): (r: bool)
    ensures r <==> Get(db, part, step).Some? && Get(db, part, step).value.stepUpdated
  {
    match Get(db, part, step)
    case Some(stw) => stw.stepUpdated
    case None => false
  }

  // ---------------------------------------------------------------------
  // StateManager

  /** `set_state`: wraps the state with a fresh serial and stores it. */
  function SetState(db: StateDB, part: string, step: Step, state: StepState): (r: StateDB)
    ensures Valid(db) ==> Valid(r)
    ensures Get(r, part, step) == Some(Wrapper(state, db.nextSerial, false))
    ensures r.nextSerial == db.nextSerial + 1
    ensures forall p, s :: (p, s) != (part, step) ==> Get(r, p, s) == Get(db, p, s)
  {
    var (db', w) := WrapState(db, state, false);
    Set(db', part, step, Some(w))
  }

  /** `has_step_run`. */
  function HasStepRun(db: StateDB, part: string, step: Step): bool {
    Test(db, part, step)
  }

  /** Whether the stored state of an earlier step `q` was recorded after `w`. */
  predicate NewerAt(db: StateDB, part: string, q: Step, w: Wrapper) {
    Get(db, part, q).Some? && Get(db, part, q).value.IsNewerThan(w)
  }

  /** The first step of `candidates` whose stored state is newer than `w`. */
  function FirstNewer(db: StateDB, part: string, w: Wrapper, candidates: seq<Step>): (r: Option<Step>)
    ensures r.Some? ==> r.value in candidates && NewerAt(db, part, r.value, w)
    ensures r.Some? ==> exists i :: (0 <= i < |candidates| && candidates[i] == r.value
      && forall j :: 0 <= j < i ==> !NewerAt(db, part, candidates[j], w))
    ensures r.None? ==> forall j :: 0 <= j < |candidates| ==> !NewerAt(db, part, candidates[j], w)
    decreases |candidates|
  {
    if |candidates| == 0 then None
    else if NewerAt(db, part, candidates[0], w) then Some(candidates[0])
    else
      var r := FirstNewer(db, part, w, candidates[1..]);
      assert forall j :: 1 <= j < |candidates| ==> candidates[1..][j - 1] == candidates[j];
      r
  }

  /**
   * `outdated_report`: `Some(q)` names the step modified since this one ran,
   * searching from the nearest previous step backwards.
   */
  function OutdatedReport(db: StateDB, part: string, step: Step): Option<Step> {
    if IsStepUpdated(db, part, step) then None
    else match Get(db, part, step)
      case None => None
      case Some(stw) => FirstNewer(db, part, stw, Reverse(PreviousSteps(step)))
  }

  /** What `OutdatedReport` means, in terms of the stored serials alone. */
  lemma OutdatedReportSpec(db: StateDB, part: string, step: Step)
    ensures IsStepUpdated(db, part, step) || !HasStepRun(db, part, step) ==>
      OutdatedReport(db, part, step) == None
    ensures !IsStepUpdated(db, part, step) && HasStepRun(db, part, step) ==>
      var w := Get(db, part, step).value;
      && (OutdatedReport(db, part, step).None? <==>
            forall q: Step :: Before(q, step) ==> !NewerAt(db, part, q, w))
      && (OutdatedReport(db, part, step).Some? ==>
            var q := OutdatedReport(db, part, step).value;
            && Before(q, step) && NewerAt(db, part, q, w)
            && forall q': Step :: q.Index() < q'.Index() < step.Index() ==> !NewerAt(db, part, q', w))
  {
    if !IsStepUpdated(db, part, step) && HasStepRun(db, part, step) {
      var cands := Reverse(PreviousSteps(step));
      assert forall j :: 0 <= j < step.Index() ==> cands[j].Index() == step.Index() - 1 - j;
      FirstNewerDescending(db, part, Get(db, part, step).value, cands, step.Index());
    }
  }

  /**
   * Searching the steps below index `n`, latest first: nothing is found
   * exactly when no such step is newer, and what is found is the latest
   * newer one.
   */
  lemma FirstNewerDescending(db: StateDB, part: string, w: Wrapper, cands: seq<Step>, n: nat)
    requires |cands| == n && forall j :: 0 <= j < n ==> cands[j].Index() == n - 1 - j
    ensures FirstNewer(db, part, w, cands).None? <==> forall q: Step :: q.Index() < n ==> !NewerAt(db, part, q, w)
    ensures FirstNewer(db, part, w, cands).Some? ==>
      var q := FirstNewer(db, part, w, cands).value;
      && q.Index() < n && NewerAt(db, part, q, w)
      && forall q': Step :: q.Index() < q'.Index() < n ==> !NewerAt(db, part, q', w)
  {
    var r := FirstNewer(db, part, w, cands);
    if r.None? {
      forall q: Step | q.Index() < n
        ensures !NewerAt(db, part, q, w)
      {
        var j := n - 1 - q.Index();
        AllStepsIndexed(q);
        AllStepsIndexed(cands[j]);
      }
    } else {
      var i :| 0 <= i < |cands| && cands[i] == r.value
        && forall j :: 0 <= j < i ==> !NewerAt(db, part, cands[j], w);
      forall q': Step | r.value.Index() < q'.Index() < n
        ensures !NewerAt(db, part, q', w)
      {
        var j := n - 1 - q'.Index();
        AllStepsIndexed(q');
        AllStepsIndexed(cands[j]);
      }
    }
  }


  /** A state just recorded by `set_state` is never outdated. */
  lemma SetStateNotOutdated(db: StateDB, part: string, step: Step, state: StepState)
    requires Valid(db)
    ensures HasStepRun(SetState(db, part, step, state), part, step)
    ensures OutdatedReport(SetState(db, part, step, state), part, step) == None
  {
    var r := SetState(db, part, step, state);
    var w := Get(r, part, step).value;
    OutdatedReportSpec(r, part, step);
    forall q: Step | Before(q, step)
      ensures !NewerAt(r, part, q, w)
    {
      assert (part, q) != (part, step);
    }
  }

  /** Whether step `q` alone calls for a run: never run, or outdated. */
  predicate NeedsRun(db: StateDB, part: string, q: Step) {
    !HasStepRun(db, part, q) || OutdatedReport(db, part, q).Some?
  }

  /** `should_step_run`: the step or an earlier one has not run or is outdated. */
  function ShouldStepRun(db: StateDB, part: string, step: Step): bool
    decreases step.Index()
  {
    if NeedsRun(db, part, step) then true
    else if step == PULL then false
    else ShouldStepRun(db, part, PreviousStep(step))
  }

  /** `should_step_run` holds exactly when some step up to this one needs to run. */
  lemma {:induction false} ShouldStepRunSpec(db: StateDB, part: string, step: Step)
    ensures ShouldStepRun(db, part, step) <==>
      exists q: Step :: q.Index() <= step.Index() && NeedsRun(db, part, q)
    decreases step.Index()
  {
    if !NeedsRun(db, part, step) && step != PULL {
      var prev := PreviousStep(step);
      ShouldStepRunSpec(db, part, prev);
      if exists q: Step :: q.Index() <= step.Index() && NeedsRun(db, part, q) {
        var q: Step :| q.Index() <= step.Index() && NeedsRun(db, part, q);
        assert q != step;
        assert q.Index() <= prev.Index();
      }
    } else if !NeedsRun(db, part, step) {
      forall q: Step | q.Index() <= step.Index()
        ensures !NeedsRun(db, part, q)
      {
        assert q == PULL;
      }
    }
  }

  /** `clean_part`: forgets the state of `step` and of every later step of the part. */
  function CleanPart(db: StateDB, part: string, step: Step): (r: StateDB)
    ensures Valid(db) ==> Valid(r)
    ensures forall s: Step :: s.Index() >= step.Index() ==> Get(r, part, s) == None
    ensures forall s: Step :: s.Index() < step.Index() ==> Get(r, part, s) == Get(db, part, s)
    ensures forall p, s :: p != part ==> Get(r, p, s) == Get(db, p, s)
  {
    db.(entries := map k | k in db.entries && !(k.0 == part && k.1.Index() >= step.Index()) :: db.entries[k])
  }

  /** `update_state_timestamp`: re-stamps the state and marks it as updated. */
  function UpdateStateTimestamp(db: StateDB, part: string, step: Step): (r: StateDB)
    ensures Valid(db) ==> Valid(r)
    ensures HasStepRun(db, part, step) ==> OutdatedReport(r, part, step) == None
    ensures forall p, s :: HasStepRun(r, p, s) <==> HasStepRun(db, p, s)
  {
    Rewrap(db, part, step, true)
  }

  /**
   * Only marking a step updated raises its update flag: a freshly set state,
   * a rewrap without the flag and a removal all leave it down, marking
   * raises it exactly when the step has a state to mark, and none of them
   * touches the flag of any other step.
   */
  lemma StepUpdatedFlag(db: StateDB, part: string, step: Step, state: StepState)
    ensures !IsStepUpdated(SetState(db, part, step, state), part, step)
    ensures !IsStepUpdated(Rewrap(db, part, step, false), part, step)
    ensures !IsStepUpdated(Remove(db, part, step), part, step)
    ensures IsStepUpdated(UpdateStateTimestamp(db, part, step), part, step) <==> HasStepRun(db, part, step)
  {
  }

  /** None of the writes to one step changes the update flag of another. */
  lemma StepUpdatedFlagFrame(db: StateDB, part: string, step: Step, state: StepState, p: string, q: Step)
    requires (p, q) != (part, step)
    ensures
      && IsStepUpdated(SetState(db, part, step, state), p, q) == IsStepUpdated(db, p, q)
      && IsStepUpdated(Rewrap(db, part, step, false), p, q) == IsStepUpdated(db, p, q)
      && IsStepUpdated(Remove(db, part, step), p, q) == IsStepUpdated(db, p, q)
      && IsStepUpdated(UpdateStateTimestamp(db, part, step), p, q) == IsStepUpdated(db, p, q)
  {
  }

  // ---------------------------------------------------------------------
  // Loading

  /** Records the loaded states in the given (timestamp) order. */
  function LoadInto(db: StateDB, loaded: seq<(string, Step, StepState)>): (r: StateDB)
    ensures Valid(db) ==> Valid(r)
    ensures r.nextSerial == db.nextSerial + |loaded|
    decreases |loaded|
  {
    if |loaded| == 0 then db
    else LoadInto(SetState(db, loaded[0].0, loaded[0].1, loaded[0].2), loaded[1..])
  }

  /** The `StateManager` constructor over states already read and sorted by timestamp. */
  function Load(loaded: seq<(string, Step, StepState)>): (r: StateDB)
    ensures Valid(r)
  {
    LoadInto(NewDB(), loaded)
  }

  predicate DistinctKeys(loaded: seq<(string, Step, StepState)>) {
    forall i, j :: 0 <= i < j < |loaded| ==> (loaded[i].0, loaded[i].1) != (loaded[j].0, loaded[j].1)
  }

  lemma {:induction false} LoadIntoSerials(db: StateDB, loaded: seq<(string, Step, StepState)>)
    requires DistinctKeys(loaded)
    ensures forall i :: 0 <= i < |loaded| ==>
      Get(LoadInto(db, loaded), loaded[i].0, loaded[i].1)
        == Some(Wrapper(loaded[i].2, db.nextSerial + i, false))
    ensures forall p, s :: (forall i :: 0 <= i < |loaded| ==> (loaded[i].0, loaded[i].1) != (p, s)) ==>
      Get(LoadInto(db, loaded), p, s) == Get(db, p, s)
    decreases |loaded|
  {
    if |loaded| > 0 {
      var db1 := SetState(db, loaded[0].0, loaded[0].1, loaded[0].2);
      var rest := loaded[1..];
      assert DistinctKeys(rest);
      LoadIntoSerials(db1, rest);
      assert forall i :: 1 <= i < |loaded| ==> rest[i - 1] == loaded[i];
    }
  }

  /** Loading hands out serials 1, 2, 3, ... in timestamp order, all with the update flag clear. */
  lemma LoadSerialsFollowOrder(loaded: seq<(string, Step, StepState)>)
    requires DistinctKeys(loaded)
    ensures forall i :: 0 <= i < |loaded| ==>
      Get(Load(loaded), loaded[i].0, loaded[i].1) == Some(Wrapper(loaded[i].2, i + 1, false))
    ensures forall i, j :: 0 <= i < j < |loaded| ==>
      Get(Load(loaded), loaded[j].0, loaded[j].1).value.IsNewerThan(
        Get(Load(loaded), loaded[i].0, loaded[i].1).value)
  {
    LoadIntoSerials(NewDB(), loaded);
  }
}

=== FILE: steps.dfy ===
/**
 * The fixed lifecycle steps PULL < BUILD < STAGE < PRIME.
 */
module Steps {

  datatype Step = PULL | BUILD | STAGE | PRIME {
    /** The step's position in the lifecycle order. */
    function Index(): nat {
      match this
      case PULL => 0
      case BUILD => 1
      case STAGE => 2
      case PRIME => 3
    }
  }

  const AllSteps: seq<Step> := [PULL, BUILD, STAGE, PRIME]

  lemma AllStepsIndexed(s: Step)
    ensures s.Index() < |AllSteps| && AllSteps[s.Index()] == s
  {
  }

  predicate Before(a: Step, b: Step) {
    a.Index() < b.Index()
  }

  /** `step.previous_steps()`: every step before `s`, earliest first. */
  function PreviousSteps(s: Step): (r: seq<Step>)
    ensures |r| == s.Index()
    ensures forall i :: 0 <= i < |r| ==> r[i].Index() == i
  {
    AllSteps[..s.Index()]
  }

  /** The step right before `s`, if there is one. */
  function PreviousStep(s: Step): (r: Step)
    requires s != PULL
    ensures r.Index() + 1 == s.Index()
  {
    AllSteps[s.Index() - 1]
  }

  /** The verb used in planning reasons ("required to build 'foo'"). */
  function Verb(s: Step): string {
    match s
    case PULL => "pull"
    case BUILD => "build"
    case STAGE => "stage"
    case PRIME => "prime"
  }

  /** `previous_steps() + [target]`: the steps a plan walks, in order. */
  function StepsUpTo(target: Step): (r: seq<Step>)
    ensures |r| == target.Index() + 1
    ensures forall i :: 0 <= i < |r| ==> r[i].Index() == i
  {
    PreviousSteps(target) + [target]
  }
}
